=== FILE: README.md ===
# nebulink crawler, store and graph assembler in Dafny

nebulink gathers a user's professional network from two sources and stores it:

- the GitHub crawler walks the seed user's repositories and each repository's contributors;
- the LinkedIn crawler walks the companies a user has worked or studied at, and the people listed at each company.

Both crawlers reconcile what they scrape into a relational store through upsert-by-key operations. A read-side assembler turns that store into the `nodes` and `groups` the frontend draws.

This project models the following in Dafny:

- the two bounded-depth crawlers;
- the store operations they call;
- the pure logic of the two scraper adapters;
- the graph assembler.

It then proves what each of them promises.

Each module lives in its own file:

- `wrappers.dfy`:
  - `Wrappers`: `Option`, `Result` with the Python exception kinds, and the pydantic "explicitly set" marker `Field` (`Unset` or `Set(value)`).
  - `Seqs`: small sequence facts.
- `text.dfy` (`Text`): the Python string operations the code relies on: `split`, `split(...)[-1]`, `strip(chars)`, `replace`, `in`, `lower`, and ASCII `\s`/`\w`.
- `json.dfy` (`Json`): `json.dumps` of a list of strings and the part of `json.loads` that reads it back.
- `dates.dfy` (`Dates`): `datetime` values, `strptime('%b %Y')`, `isoformat`/`fromisoformat`, and `parse_date_range`.
- `github_store.dfy` (`GithubStore`): `github_user_functions.py` and `repository_functions.py`. The store is three immutable maps: users by username, repositories by path, and contribution counts by (username, path).
- `linkedin_store.dfy` (`LinkedinStore`): `linkedin_user_functions.py` and `linkedin_organization_functions.py`. Memberships are keyed by (username, organization id), as the composite primary key declares.
- `github_scraper.dfy` (`GithubScraper`): `utils/github_scraper.py`. HTTP responses are plain inputs: status, decoded body, and whether a `next` link (section 3 of RFC 8288) is present.
- `linkedin_scraper.dfy` (`LinkedinScraper`): the post-processing in `utils/linkedin_scraper.py`. DOM lookups are inputs, with `None` for a missing element. A card's picture element and its `src` attribute are separate, since `get_attribute` returns `None` for a present element without the attribute.
- `github_crawler.dfy` (`GithubCrawler`): `get_github_user_2_degree_network`.
- `linkedin_crawler.dfy` (`LinkedinCrawler`): `get_linkedin_user_2_degree_network`.
- `network.dfy` (`Network`): `get_user_network` (the second definition).

Some behaviour of the code as written is modelled faithfully and proved:

- **The GitHub crawl expands only its seed.** Every contributor is added to `processed_users` before the recursive call. That call therefore returns at its guard: `GithubCrawler.CrawlExpandsOnlySeed` and `GithubCrawler.CrawlDepthIrrelevant`.
- **A dated LinkedIn membership never goes through.** `parse_date_range` returns `datetime` values, but `add_user_to_organization` passes its date arguments to `datetime.fromisoformat`, which raises `TypeError` on anything but a string. A company whose date range yields a start date is therefore logged as an error, its people are never walked, and the user is not marked processed for it: `LinkedinCrawler.DatedMembershipSkipsPeople`.
- **The assembler's GitHub/LinkedIn cross-link never populates.** `process_github_user` returns `None`, so reading `["id"]` from its result raises and the exception is swallowed. Its side effects remain, however: the GitHub user's nodes are appended before the LinkedIn node, whose id was taken earlier. A LinkedIn node's id can therefore equal a GitHub node's id and differ from its own index (`Network.CrossLinkSharesId`).

## Model

| member | source | states |
|---|---|---|
| GithubStore.GetGithubUser | backend/app/db/github_user_functions.py:22-34 | `None` exactly for an unknown username; otherwise the stored columns plus one (path, count) entry per contribution row of that user |
| GithubStore.CreateGithubUser | backend/app/db/github_user_functions.py:7-19 | copies username, profile picture, name, email, header and token verbatim (unset fields default to `None`); a username already stored is refused with `IntegrityError`; the other tables are untouched |
| GithubStore.UpdateGithubUser | backend/app/db/github_user_functions.py:37-55 | an unknown username changes nothing and gives `None`; otherwise every explicitly set field is overwritten (an explicit `None` included), every unset field such as the token keeps its value, other users and tables are untouched, and the result is the fresh read |
| GithubStore.UpdateGithubUserUnsetIsNoop | backend/app/db/github_user_functions.py:40-42 | an update with nothing but the username set leaves the store unchanged |
| GithubStore.UpdateGithubUserIdempotent | backend/app/db/github_user_functions.py:37-55 | applying the same update twice gives the same store and result as applying it once |
| GithubStore.CreateThenGetGithubUser | backend/app/db/github_user_functions.py:7-34 | a freshly created user reads back with the copied columns and no repositories |
| GithubStore.CreateGithubUserPreservesWellFormed | backend/app/db/github_user_functions.py:7-19 | creating a user keeps every row under its own key and every contribution row pointing at stored rows |
| GithubStore.UpdateGithubUserPreservesWellFormed | backend/app/db/github_user_functions.py:37-55 | updating a user keeps the store well formed |
| GithubStore.GetRepository | backend/app/db/repository_functions.py:10-26 | `None` exactly for an unknown path; otherwise path, description and stars plus one (username, count) entry per contribution row of the repository |
| GithubStore.CreateRepository | backend/app/db/repository_functions.py:44-58 | stores exactly path, description and stars (stars 0 when unset) and reports an empty contributor list; a stored path is refused with `IntegrityError` |
| GithubStore.UpdateRepository | backend/app/db/repository_functions.py:60-69 | an unknown path changes nothing and gives `None`; otherwise exactly the explicitly set description and stars are overwritten, other rows are kept, and the result is the fresh read |
| GithubStore.AddUserToRepository | backend/app/db/repository_functions.py:71-95 | with the repository or the user missing, nothing changes and `None` is returned; otherwise the (user, path) row holds the new count and is the only contribution row added or changed |
| GithubStore.RepositoryOperationsPreserveWellFormed | backend/app/db/repository_functions.py:44-95 | create, update and add-user all keep the store well formed |
| GithubStore.CreateThenGetRepository | backend/app/db/repository_functions.py:10-58 | a freshly created repository reads back as the view `create_repository` returned |
| GithubStore.UpdateRepositoryIdempotent | backend/app/db/repository_functions.py:60-69 | repeating a repository update changes nothing more |
| GithubStore.AddUserToRepositoryLastWins | backend/app/db/repository_functions.py:77-90 | writing the same (user, path) pair twice equals writing only the second count: pairs stay unique, and with equal counts the call is idempotent |
| GithubStore.AddUserToRepositoryVisibleFromUser | backend/app/db/repository_functions.py:71-95 | after a write the count shows both in the user's repositories and in the repository's users |
| LinkedinStore.StoredWebsites | backend/app/db/linkedin_user_functions.py:19 | website text is stored exactly when the list is non-empty, and the stored text decodes back to the list |
| LinkedinStore.ReadWebsites | backend/app/schemas/linkedin_user.py:19-23 | no stored text reads as `None`; stored text fails validation exactly when it is not a JSON list of strings, and otherwise reads as the list it decodes to |
| LinkedinStore.WebsitesRoundTrip | backend/app/db/linkedin_user_functions.py:19 | a website list written by the store reads back unchanged through the validator; an empty list reads back as `None` |
| LinkedinStore.GetLinkedinUser | backend/app/db/linkedin_user_functions.py:26-40 | `Ok(None)` exactly for an unknown username; a stored user whose website text does not validate fails; otherwise the columns, the decoded websites and one membership per map row, dates as ISO strings or `None` |
| LinkedinStore.CreateLinkedinUser | backend/app/db/linkedin_user_functions.py:12-24 | inserts the copied columns with the websites JSON-encoded (or `None` when empty); a stored username is refused with `IntegrityError` |
| LinkedinStore.UpdateLinkedinUser | backend/app/db/linkedin_user_functions.py:42-65 | an unknown username changes nothing and gives `Ok(None)`; otherwise exactly the explicitly set fields are overwritten, websites re-encoded, other rows kept, and the result is the fresh read |
| LinkedinStore.GetLinkedinOrganization | backend/app/db/linkedin_organization_functions.py:11-36 | `None` exactly for an unknown id; otherwise every column and one member per map row with ISO-string or `None` dates |
| LinkedinStore.CreateLinkedinOrganization | backend/app/db/linkedin_organization_functions.py:38-63 | the vector-store document is built first, whatever happens next; then every schema field except the members is stored and an empty member list is returned, or a stored id is refused with `IntegrityError` |
| LinkedinStore.UpdateLinkedinOrganization | backend/app/db/linkedin_organization_functions.py:65-74 | an unknown id changes nothing and gives `None`; otherwise only explicitly set fields are overwritten and the result is the fresh read |
| LinkedinStore.DateOf | backend/app/db/linkedin_organization_functions.py:89-90 | a missing or empty date gives `None`, ISO text is parsed, and a `datetime` argument is refused with `TypeError` |
| LinkedinStore.WriteMembership | backend/app/db/linkedin_organization_functions.py:82-99 | when both dates convert, the pair's row becomes exactly (role, start, end); when one fails, the role (and the start) already written to an existing row stay written, and a new row is not added |
| LinkedinStore.AddUserToOrganization | backend/app/db/linkedin_organization_functions.py:76-104 | a missing organization or user gives `None` and no change; users and organizations are never changed; only the (user, organization) membership can be added or changed, and no membership is removed |
| LinkedinStore.WellFormedUserReads | backend/app/db/linkedin_user_functions.py:26-40 | in a well-formed store every stored user reads back successfully |
| LinkedinStore.CreateLinkedinUserPreservesWellFormed | backend/app/db/linkedin_user_functions.py:12-24 | creating a user keeps the store well formed |
| LinkedinStore.UpdateLinkedinUserPreservesWellFormed | backend/app/db/linkedin_user_functions.py:42-65 | updating a user keeps the store well formed |
| LinkedinStore.OrganizationOperationsPreserveWellFormed | backend/app/db/linkedin_organization_functions.py:38-74 | creating and updating an organization keep the store well formed |
| LinkedinStore.AddUserToOrganizationPreservesWellFormed | backend/app/db/linkedin_organization_functions.py:76-104 | a membership write keeps the store well formed |
| LinkedinStore.CreateThenGetLinkedinUser | backend/app/db/linkedin_user_functions.py:12-40 | a created user reads back with its columns; a non-empty website list reads back equal, an empty or missing one as `None` |
| LinkedinStore.UpdateLinkedinUserWebsites | backend/app/db/linkedin_user_functions.py:47-48 | after an update that sets the website list, the read shows that list, with an empty list turned into `None` |
| LinkedinStore.UpdateLinkedinUserUnsetIsNoop | backend/app/db/linkedin_user_functions.py:45-51 | an update with nothing but the username set leaves the store unchanged |
| LinkedinStore.UpdateLinkedinUserIdempotent | backend/app/db/linkedin_user_functions.py:42-65 | repeating a user update changes nothing more |
| LinkedinStore.CreateThenGetLinkedinOrganization | backend/app/db/linkedin_organization_functions.py:11-63 | a freshly created organization reads back as the view the creation returned |
| LinkedinStore.UpdateLinkedinOrganizationIdempotent | backend/app/db/linkedin_organization_functions.py:65-74 | repeating an organization update changes nothing more |
| LinkedinStore.ChromaDocumentEmpty | backend/app/db/linkedin_organization_functions.py:40-47 | the document is empty exactly when none of name, description, industry, company size and specialties is truthy |
| LinkedinStore.ChromaDocumentNameFirst | backend/app/db/linkedin_organization_functions.py:40-47 | the document opens with the name line exactly when the name is truthy |
| LinkedinStore.ChromaDocumentLines | backend/app/db/linkedin_organization_functions.py:40-47 | each truthy field contributes its line, in the fixed order name, description, industry, company size, specialties |
| LinkedinStore.ChromaDocumentIgnoresOtherFields | backend/app/db/linkedin_organization_functions.py:40-47 | website, headquarters, logo and filters never affect the document |
| LinkedinStore.AddUserToOrganizationWrites | backend/app/db/linkedin_organization_functions.py:82-99 | with both rows present and both dates convertible, the pair's row holds exactly the given role and dates, whether it existed before or not (`None` included) |
| LinkedinStore.AddUserToOrganizationDateTimeStart | backend/app/db/linkedin_organization_functions.py:89-97 | a `datetime` start date always fails with `TypeError`: an existing row has its role written and nothing else; a new pair leaves the store unchanged |
| LinkedinStore.AddUserToOrganizationIsoRoundTrip | backend/app/db/linkedin_organization_functions.py:76-104 | a date passed as its ISO string is stored as that date and read back as the same string |
| LinkedinStore.WriteMembershipIdempotent | backend/app/db/linkedin_organization_functions.py:82-99 | repeating a membership write with the same arguments changes nothing more |
| LinkedinStore.UserLookupIgnoresMemberships | backend/app/db/linkedin_organization_functions.py:80-81 | whether the user is found depends on the user rows alone |
| LinkedinStore.AddUserToOrganizationIdempotent | backend/app/db/linkedin_organization_functions.py:76-104 | repeating `add_user_to_organization` with the same arguments changes nothing more |
| Json.EncodeListRoundTrip | backend/app/schemas/linkedin_user.py:19-23 | what `json.dumps` writes for any list of strings, `json.loads` reads back as the same list |
| Json.EncodeCharsRoundTrip | backend/app/db/linkedin_user_functions.py:19 | every string escaped by `json.dumps` decodes back to itself, with whatever follows the closing quote left over |
| Json.HexRoundTrip | backend/app/db/linkedin_user_functions.py:19 | a code unit written as four hex digits reads back as the same number |
| Dates.ParseMonthYear | backend/app/agents/linkedin_scraper_agent_helper.py:138 | a `'%b %Y'` parse yields a valid date at midnight on the first of its month |
| Dates.MonthYearRoundTrip | backend/app/agents/linkedin_scraper_agent_helper.py:138 | what `strftime('%b %Y')` writes, `strptime` reads back as the first of that month |
| Dates.FromIsoFormat | backend/app/db/linkedin_organization_functions.py:89 | a successful parse is a valid date; a failure is a `ValueError` |
| Dates.IsoRoundTrip | backend/app/db/linkedin_organization_functions.py:18-19 | a date's `isoformat` text parses back to the same date |
| Dates.ParseDateRange | backend/app/agents/linkedin_scraper_agent_helper.py:129-159 | `None` gives (None, None); only `ValueError` can be raised, and only for a present string; every date returned is valid and falls on the first of a month |
| Dates.ParseDateRangeIgnoresPadding | backend/app/agents/linkedin_scraper_agent_helper.py:133 | the input is stripped first, so surrounding whitespace never changes the result |
| Dates.ParseDateRangeStartOnly | backend/app/agents/linkedin_scraper_agent_helper.py:136-141 | a single month without separator is a start date and no end |
| Dates.ParseDateRangeEmpty | backend/app/agents/linkedin_scraper_agent_helper.py:129-131 | an empty string gives (None, None), like a missing one |
| Dates.ParseDateRangeNoSeparator | backend/app/agents/linkedin_scraper_agent_helper.py:133-141 | a non-empty string whose stripped text has no `' - '` gives its parsed month, or `None`, as start and no end |
| Dates.ParseDateRangeErrIff | backend/app/agents/linkedin_scraper_agent_helper.py:144 | a non-empty string raises `ValueError` exactly when its stripped text has two or more separators, so the two-way unpacking fails |
| Dates.ParseDateRangeOneSeparator | backend/app/agents/linkedin_scraper_agent_helper.py:144-159 | for any input whose stripped text has exactly one separator, the start is the parse of the text before it, and the end is `None` when the text after it reads "present" in any letter case, otherwise the parse of that text |
| Dates.ParseDateRangeTwoParts | backend/app/agents/linkedin_scraper_agent_helper.py:144-159 | for a formatted month `"Mon YYYY"`, a separator and a tail with no further separator and no trailing space, the start is that month and the end is `None` for "present" in any case, otherwise the parsed tail |
| Dates.ParseDateRangeBoth | backend/app/agents/linkedin_scraper_agent_helper.py:144-159 | "Mon YYYY - Mon YYYY" gives both months |
| Dates.ParseDateRangePresent | backend/app/agents/linkedin_scraper_agent_helper.py:151-152 | "Mon YYYY - Present", in any letter case, gives an open-ended range |
| Dates.ParseDateRangeTooManyParts | backend/app/agents/linkedin_scraper_agent_helper.py:144 | three dates joined by two separators make the two-way unpacking raise `ValueError` |
| Dates.ParseDateRangeExamples | backend/app/agents/linkedin_scraper_agent_helper.py:129-159 | "Jan 2020 - Present", "Jan 2020 - Mar 2022" and "garbage" parse to (Jan 2020, None), (Jan 2020, Mar 2022) and (None, None) |
| GithubScraper.GetRepoInfo | backend/app/utils/github_scraper.py:22-38 | a record exactly on status 200, holding the name, description, star count and url of the body |
| GithubScraper.GetOr | backend/app/utils/github_scraper.py:57-59 | `dict.get(key, default)`: the default only when the key is missing, `None` for a JSON null |
| GithubScraper.DetailsOf | backend/app/utils/github_scraper.py:53-59 | name, header and email exactly when the user fetch answers 200, with the three defaults for missing keys |
| GithubScraper.GetContributors | backend/app/utils/github_scraper.py:40-66 | `None` exactly on a non-200 list response; otherwise one entry per contributor in order, with login, picture and count, and details exactly when that user's fetch answered 200 |
| GithubScraper.PagesRead | backend/app/utils/github_scraper.py:73-85 | the loop reads pages while each is 200 with a `next` link, and stops after the first page that is not |
| GithubScraper.SearchCommitsByUser | backend/app/utils/github_scraper.py:68-87 | the result is the union of the repository names of the 200 pages read, earlier pages kept when a later one fails |
| GithubScraper.PagesReadIgnoresLater | backend/app/utils/github_scraper.py:73-85 | pages after the one where the loop stops are never read |
| GithubScraper.FirstPageFails | backend/app/utils/github_scraper.py:83-85 | a first page that is not 200 leaves the result empty |
| GithubScraper.FetchPullRequests | backend/app/utils/github_scraper.py:89-108 | the result is `{}` or `{repo}`, and it is `{repo}` exactly when some page read lists the username as a pull request's author |
| GithubScraper.FetchAllContributions | backend/app/utils/github_scraper.py:110-125 | returns the username and a duplicate-free list whose elements are exactly the commit-search repositories: each pull-request result is contained in them |
| GithubScraper.ListOf | backend/app/utils/github_scraper.py:125 | `list(s)` holds every element of the set exactly once |
| GithubScraper.SearchCommit | backend/app/utils/github_scraper.py:127-138 | the loop runs at most once: the body on status 200, `None` otherwise |
| GithubScraper.GetEmailFromPatch | backend/app/utils/github_scraper.py:140-150 | `None` on a non-200 response; a returned email is non-empty and contains no `>` |
| GithubScraper.EmailSearchLeftmost | backend/app/utils/github_scraper.py:147 | `re.search` returns the group of the leftmost matching start, and nothing when no start matches |
| GithubScraper.LastTailSkips | backend/app/utils/github_scraper.py:147 | greedy `.*` backtracking: failing candidates to the right do not change the match |
| GithubScraper.PatchEmailRoundTrip | backend/app/utils/github_scraper.py:140-150 | a patch whose header reads `From: <name> <<email>>` gives that email back, whatever the name contains besides a newline |
| GithubScraper.SearchCommitsByEmail | backend/app/utils/github_scraper.py:160-173 | a non-200 response raises, zero hits raise, and otherwise the first item's author login is returned |
| GithubScraper.GetUsernameFromEmail | backend/app/utils/github_scraper.py:175-193 | `ValueError` for a non-string or a string without `@`; the user-search failure raises; the first login when the user search has hits; otherwise the commit-search fallback |
| LinkedinScraper.PersonId | backend/app/utils/linkedin_scraper.py:256 | the person id contains neither `/` nor `?` |
| LinkedinScraper.PersonIdOfProfileLink | backend/app/utils/linkedin_scraper.py:256 | a profile link `.../<id>?<query>` yields `<id>` |
| LinkedinScraper.PersonIdOfPlainLink | backend/app/utils/linkedin_scraper.py:256 | a profile link `.../<id>` yields `<id>` |
| LinkedinScraper.ExtractPersonInfoFields | backend/app/utils/linkedin_scraper.py:252-263 | a card yields a person exactly when all four elements are present, with the id cut from the link, name and header stripped, and the picture's `src` copied (`None` when the picture element has no `src`); any missing element gives `None` |
| LinkedinScraper.PeopleUrl | backend/app/utils/linkedin_scraper.py:55 | the input when it contains `people`, the input plus `people/` otherwise |
| LinkedinScraper.NewPeopleMembers | backend/app/utils/linkedin_scraper.py:65-74 | a scroll pass appends a person exactly when a card of the pass yields it and its id was absent before the pass |
| LinkedinScraper.ScrollPeopleStopsIffStable | backend/app/utils/linkedin_scraper.py:61-78 | the scroll loop ends within the given passes exactly when one of them leaves the page height unchanged |
| LinkedinScraper.ScrollPeopleIgnoresLaterPasses | backend/app/utils/linkedin_scraper.py:76-77 | once the loop has stopped, later passes do not matter |
| LinkedinScraper.NewPeopleKeepsIdsDistinct | backend/app/utils/linkedin_scraper.py:73 | ids stay distinct across passes when no pass shows the same new person twice |
| LinkedinScraper.LastGithub | backend/app/utils/linkedin_scraper.py:110-113 | `None` exactly when no link mentions `github.com`; otherwise the last link that does |
| LinkedinScraper.Externals | backend/app/utils/linkedin_scraper.py:110-115 | exactly the links not mentioning `github.com`, in order |
| LinkedinScraper.ExternalsPartition | backend/app/utils/linkedin_scraper.py:110-115 | every link goes to exactly one side |
| LinkedinScraper.SplitWebsites | backend/app/utils/linkedin_scraper.py:106-118 | a link without `href` raises `TypeError`; otherwise the last GitHub link and the external ones |
| LinkedinScraper.MailtoAddressOfLink | backend/app/utils/linkedin_scraper.py:104 | removing `mailto:` from `mailto:<address>` gives the address |
| LinkedinScraper.ScrapePersonContactInfo | backend/app/utils/linkedin_scraper.py:85-123 | defaults email `None`, github `None`, no external sites; the email is the `mailto:` link with its prefix removed; links are split only when every one has an `href`, and an exception keeps what was set before it |
| LinkedinScraper.CompanyLinkOf | backend/app/utils/linkedin_scraper.py:219-248 | a section counts exactly when both its link and its role-or-degree span exist; `role` is present exactly when the lower-cased role-or-degree names no degree; `date_range` is `None` exactly when its span is missing |
| LinkedinScraper.ScrapeCompanyLinksMembers | backend/app/utils/linkedin_scraper.py:211-250 | the entries are exactly those of the accepted sections |
| LinkedinScraper.ScrapeCompanyLinksCount | backend/app/utils/linkedin_scraper.py:211-250 | one entry per accepted section |
| LinkedinScraper.ClickElementWithRetry | backend/app/utils/linkedin_scraper.py:265-276 | at most `max_attempts` attempts; `True` exactly when one succeeds after only stale attempts; `False` exactly when every attempt is stale; a time-out propagates |
| LinkedinScraper.ClickNext | backend/app/utils/linkedin_scraper.py:278-279 | 0 clicks gives `True`; otherwise `True` exactly when every click succeeds, stopping at the first failure |
| LinkedinScraper.FacetParamOfQuery | backend/app/utils/linkedin_scraper.py:303-304 | a URL whose only `facet` is its query's `facet<Name>=<id>` yields that type and id |
| LinkedinScraper.FacetSearchShape | backend/app/utils/linkedin_scraper.py:303 | a found filter type starts with `facet` |
| LinkedinScraper.FacetSearchLeftmost | backend/app/utils/linkedin_scraper.py:303 | `re.search` reports the match at the leftmost position where the pattern matches |
| LinkedinScraper.FacetSearchNone | backend/app/utils/linkedin_scraper.py:303 | `re.search` finds nothing only when the pattern matches at no position |
| LinkedinScraper.RecordFilter | backend/app/utils/linkedin_scraper.py:303-306 | types already completed are left as they were; no type other than the URL's is touched |
| LinkedinScraper.ProcessFiltersPage | backend/app/utils/linkedin_scraper.py:281-316 | completed types are left as they were, and nothing recorded before is removed |
| LinkedinScraper.ProcessFiltersPageRecords | backend/app/utils/linkedin_scraper.py:294-306 | every entry the page writes counts at least 3 people and sits under a `facet` type |
| GithubCrawler.UpsertRepository | backend/app/agents/github_scraper_agent_helper.py:41-50 | after the upsert the repository holds the scraped description and stars, other repositories are unchanged, and the store stays well formed |
| GithubCrawler.UpsertContributor | backend/app/agents/github_scraper_agent_helper.py:65-80 | the contributor's row holds the scraped picture, name, email and header, a stored token is kept, and other users are unchanged |
| GithubCrawler.StoreContributor | backend/app/agents/github_scraper_agent_helper.py:65-82 | the contributor is stored and linked; rows and counts of other users are unchanged |
| GithubCrawler.Process | backend/app/agents/github_scraper_agent_helper.py:18-91 | past depth 2 or for a processed user nothing changes; otherwise the user is stored and its contributions fetched; nothing recorded is dropped and the store stays well formed |
| GithubCrawler.Repos | backend/app/agents/github_scraper_agent_helper.py:29-89 | every repository newly marked processed was in the list, had info, and is stored; no user is expanded by the loop |
| GithubCrawler.Repo | backend/app/agents/github_scraper_agent_helper.py:30-89 | a processed repository or one without info changes nothing, so a failed fetch can be retried; otherwise it is marked and stored; a missing contributor list is logged as `TypeError` |
| GithubCrawler.Contributors | backend/app/agents/github_scraper_agent_helper.py:57-85 | only listed contributors become processed; rows and counts of users processed before are untouched, so each contributor is reconciled at most once per run |
| GithubCrawler.Crawl2Degree | backend/app/agents/github_scraper_agent_helper.py:9-92 | no stored user is lost; the seed is stored and is the only user whose contributions are fetched; a well-formed store stays well formed |
| GithubCrawler.CrawlExpandsOnlySeed | backend/app/agents/github_scraper_agent_helper.py:61-85 | the crawl fetches contributions for the seed alone, and the seed is stored |
| GithubCrawler.CrawlDepthIrrelevant | backend/app/agents/github_scraper_agent_helper.py:84-85 | processing at depth 0 and at depth 1 give the same result: the recursive call never does anything |
| GithubCrawler.ReposDepthIrrelevant | backend/app/agents/github_scraper_agent_helper.py:29-89 | the repository loop gives the same result at depth 0 and at depth 1 |
| GithubCrawler.ContributorsDepthIrrelevant | backend/app/agents/github_scraper_agent_helper.py:57-85 | the contributor loop gives the same result at depth 0 and at depth 1 |
| GithubCrawler.RepoStoresInfo | backend/app/agents/github_scraper_agent_helper.py:36-55 | a fresh repository with info is marked, stored with the scraped description and stars, and linked to the seed; a `None` contributor list logs `TypeError` |
| GithubCrawler.ContributorsStoresHead | backend/app/agents/github_scraper_agent_helper.py:61-82 | a fresh contributor with details is processed, stored with its scraped profile, and linked with its contribution count |
| GithubCrawler.ContributorsStopsOnMissingDetails | backend/app/agents/github_scraper_agent_helper.py:64-89 | a fresh contributor without details is marked processed, `KeyError` is logged, and the rest of that repository is abandoned |
| LinkedinCrawler.ProfileUrl | backend/app/agents/linkedin_scraper_agent_helper.py:23 | the profile URL ends with a slash after the username |
| LinkedinCrawler.UsernameFromProfileUrl | backend/app/agents/linkedin_scraper_agent_helper.py:30 | the result neither starts nor ends with `/` |
| LinkedinCrawler.UsernameFromProfileUrlRoundTrip | backend/app/agents/linkedin_scraper_agent_helper.py:23-30 | a slash-free username survives the trip through its profile URL |
| LinkedinCrawler.CompanyId | backend/app/agents/linkedin_scraper_agent_helper.py:47 | a found id is a non-empty run of `[\w-]` characters |
| LinkedinCrawler.CompanyIdOfUrl | backend/app/agents/linkedin_scraper_agent_helper.py:47 | a company URL `<base>/company/<slug>/...` yields the slug |
| LinkedinCrawler.CompanyIdSkips | backend/app/agents/linkedin_scraper_agent_helper.py:47 | positions where the pattern does not match do not change the search |
| LinkedinCrawler.OrgSchemaOf | backend/app/agents/linkedin_scraper_agent_helper.py:49 | each scraped key is explicitly set on the schema, each missing key left unset, with the extracted id |
| LinkedinCrawler.PersonSchema | backend/app/agents/linkedin_scraper_agent_helper.py:80-89 | the card's fields are set, and email and websites are set explicitly to `None` |
| LinkedinCrawler.UpsertOrganization | backend/app/agents/linkedin_scraper_agent_helper.py:48-54 | the organization is stored; a vector-store document is produced exactly when it was absent; users and memberships are untouched |
| LinkedinCrawler.StorePerson | backend/app/agents/linkedin_scraper_agent_helper.py:91-104 | on success the person is stored; other users are unchanged; no membership is removed |
| LinkedinCrawler.SeedUser | backend/app/agents/linkedin_scraper_agent_helper.py:21-31 | a stored user is used as is; an unknown one is created under the name cut from its profile URL |
| LinkedinCrawler.Process | backend/app/agents/linkedin_scraper_agent_helper.py:16-117 | past depth 2 or for a processed user nothing changes; at depth 1 only the user's own profile is expanded; no company page is scraped twice |
| LinkedinCrawler.Orgs | backend/app/agents/linkedin_scraper_agent_helper.py:36-115 | every company URL of the list ends up processed, even when its scrape failed |
| LinkedinCrawler.OrgPrelude | backend/app/agents/linkedin_scraper_agent_helper.py:40-68 | the URL is marked processed before it is scraped; an empty about page or a URL without a company id stops before any store write; otherwise the people come next exactly when the membership write on the upserted store goes through, and then under the URL's company id; the user is marked processed exactly in that case and the processed users are unchanged otherwise |
| LinkedinCrawler.Org | backend/app/agents/linkedin_scraper_agent_helper.py:37-115 | a processed URL changes nothing; otherwise it is marked, and no company page is scraped twice |
| LinkedinCrawler.OrgPeople | backend/app/agents/linkedin_scraper_agent_helper.py:69-112 | the people walk keeps the store well formed and, at depth 1 or more, expands nobody |
| LinkedinCrawler.People | backend/app/agents/linkedin_scraper_agent_helper.py:71-112 | a fresh person at the head of the list, in a well-formed store with the company present, ends up stored and linked to the company; the store stays well formed; at depth 1 or more nobody is expanded |
| LinkedinCrawler.Person | backend/app/agents/linkedin_scraper_agent_helper.py:72-112 | a processed person changes nothing; a fresh person ends up stored and linked to the company even after their own network is crawled; at depth 1 or more nobody is expanded |
| LinkedinCrawler.Crawl2Degree | backend/app/agents/linkedin_scraper_agent_helper.py:119-124 | no page is scraped twice; no profile URL leaves the store unchanged |
| LinkedinCrawler.DepthOneExpandsOnlyItself | backend/app/agents/linkedin_scraper_agent_helper.py:108-109 | a user reached at depth 1 has its own companies walked, and nobody else is expanded |
| LinkedinCrawler.SeedUserCreatesUnknown | backend/app/agents/linkedin_scraper_agent_helper.py:29-31 | an unknown slash-free username is created under that very name |
| LinkedinCrawler.OrgMembership | backend/app/agents/linkedin_scraper_agent_helper.py:56-68 | the membership write never touches the processed organizations or the scrape log; it succeeds, returning the organization id, exactly when the date range parses and `add_user_to_organization` does not raise; the user is marked processed on success and the processed users are unchanged on failure |
| LinkedinCrawler.DatedMembershipFails | backend/app/agents/linkedin_scraper_agent_helper.py:56-68 | a dated membership write logs `TypeError` and leaves the user unprocessed |
| LinkedinCrawler.DatedMembershipSkipsPeople | backend/app/agents/linkedin_scraper_agent_helper.py:56-115 | a company whose date range yields a start date logs `TypeError`, does not mark the user processed, and never walks its people |
| LinkedinCrawler.StorePersonErasesContact | backend/app/agents/linkedin_scraper_agent_helper.py:80-95 | a stored person is overwritten from the card and loses its email and websites |
| LinkedinCrawler.StorePersonCreatesAndLinks | backend/app/agents/linkedin_scraper_agent_helper.py:91-104 | a fresh person is created from the card and linked to the organization without role or dates |
| Network.AddGroup | backend/app/api/routes/network.py:72-84 | a group is appended exactly when its id is new, so group ids stay unique |
| Network.SetGroup | backend/app/api/routes/network.py:71 | writing `group_id` changes that one node's group and nothing else |
| Network.GithubPass | backend/app/api/routes/network.py:93-129 | a processed username changes nothing; otherwise a node whose id is its index is appended at once; the graph invariant is kept |
| Network.ReposPass | backend/app/api/routes/network.py:114-129 | the repository loop only appends nodes with unprocessed usernames and keeps the graph invariant |
| Network.RepoStep | backend/app/api/routes/network.py:115-129 | one repository tags the node with its group, adds the group once, and walks its users below order 2, keeping the graph invariant |
| Network.RepoUsersPass | backend/app/api/routes/network.py:127-129 | the repository members' walk keeps the graph invariant |
| Network.CrossLink | backend/app/api/routes/network.py:53-63 | the cross-link attempt only extends the graph and keeps its invariant |
| Network.LinkedinPass | backend/app/api/routes/network.py:35-91 | a processed username changes nothing; otherwise the user ends up processed and the graph invariant is kept |
| Network.OrgsPass | backend/app/api/routes/network.py:67-91 | the organization loop only extends the graph and keeps its invariant |
| Network.OrgStep | backend/app/api/routes/network.py:70-91 | one organization tags the node with its group, adds the group once, and walks its members below order 2, keeping the graph invariant |
| Network.OrgUsersPass | backend/app/api/routes/network.py:87-91 | the organization members' walk keeps the graph invariant |
| Network.Assemble | backend/app/api/routes/network.py:131-137 | the LinkedIn profile and then the GitHub profile, walked from an empty graph, leave a graph satisfying the invariant |
| Network.UserNetwork | backend/app/api/routes/network.py:25-137 | an unknown user gives no nodes and no groups; otherwise one node per username, unique group ids, connection order at most 2, empty correspondence lists, a GitHub node's id equal to its index, and each repository group named by the last `/` segment of its path |
| Network.CrossLinkSharesId | backend/app/api/routes/network.py:40-65 | when a new LinkedIn user's email resolves to an unprocessed GitHub user, that user's node is appended first, at the index the LinkedIn node's id was taken from: the two nodes share that id |

## Left out

- Browser mechanics (login, waits, sleeps, scrolling, logout) and the `scrape_company_info` DOM walk: browser I/O. Their results are inputs: card and section lookups, a `CompanyDetails` record per URL, and people per company.
- `scrape_company_filters`: browser navigation around `_process_company_filters_page`, which is modelled.
- `scrape_user_companies` and `get_user_profile_url`: browser I/O. The crawler is given each profile's experience and education links and the profile URL.
- HTTP via `requests`: every response is an input (status, decoded body, next link).
- The `ThreadPoolExecutor` in `fetch_all_contributions`: its futures are joined in submission order, so the union is modelled sequentially.
- `fetch_user_email`: it is called only from commented-out code.
- `get_all_repositories`: no caller in the crawl or the assembler.
- SQLAlchemy sessions, commit, refresh and transactions: the store is immutable maps. A failure between two writes of one request is not modelled.
- The vector-store upsert in `create_linkedin_organization`: only the document string is modelled.
- Fernet encryption of a LinkedIn password: a cryptographic foreign call. The password column is not modelled.
- `get_user_organization_associations`, `get_repositories_by_github_user` and `get_github_users_by_repository`: `backend/app/api/routes/network.py:3-5` imports them, but none of the store modules defines them, so that import fails as written. The model gives the assembler their evident answers as input sequences, in an unspecified order.
- GithubStore.GetGithubUser: reads the user's map rows (path and count) as the store code evidently means. `github_user_functions.py:29,50` read `repository_maps`, which the `GithubUser` model (`models/github_user.py:14-25`) does not declare, so the ORM as written would fail there.
- GithubStore.GetRepository: reads the repository's map rows (username and count). `repository_functions.py:18` iterates the `github_users` relationship (`models/repository.py:13`), which goes through the map table and yields `GithubUser` objects, not map rows.
- LinkedinStore.GetLinkedinUser: reads the user's membership rows as the store code evidently means. `linkedin_user_functions.py:35,60` read `organization_maps`, which `LinkedinUser` does not declare; `models/linkedin_user.py:15-16` name back-references that do not exist; and `linkedin_user_functions.py:2` and `network.py:7` import `LinkedinOrganizationContribution`, which `schemas/linkedin_user.py` does not define.
- LinkedinStore.GetLinkedinOrganization: reads the organization's membership rows. `linkedin_organization_functions.py:21` reads `user_maps`, but `LinkedinOrganization` declares only `linkedin_users` (`models/linkedin_organization.py:20`).
- Dates.ParseDateRangeTwoParts: stated only for a start that is a formatted month. `Dates.ParseDateRangeOneSeparator` states the one-separator case for every input.
- Network.LinkedinPass: the store reads in the assembler are total. A `ValidationError` from reading a user's website text would abort the request, and that is not modelled.
- Regular-expression classes `\s`, `\w` and `\d`, `str.isspace`/`str.strip` and `str.lower` are modelled on ASCII characters only: whitespace is space, `\t`, `\n`, `\r`, `\v`, `\f` and `\x1c`-`\x1f`, as Python has it. Python's Unicode classes also hold non-ASCII characters such as `\x85` and `\xa0`, which the model treats as ordinary characters.
- `datetime.strptime` internals: `'%b %Y'` is an English three-letter month, matched case-insensitively, then one or more whitespace characters, then four digits, as in the C locale.
- `datetime.fromisoformat`: only the `YYYY-MM-DD` and `YYYY-MM-DDTHH:MM:SS` shapes that `isoformat` produces are accepted. Other shapes Python accepts fail in the model.
- JSON bodies are assumed to carry the keys the adapters index, except where the source reads with `.get`. A missing key would raise `KeyError`, and that is not modelled.
- `json.loads` accepts only arrays of strings here, which is what the store ever writes. Any other document fails validation.
- LinkedinScraper.CompanyLinkOf: a company link element without an `href` is treated like a missing link, so its section is dropped. In the source `get_attribute` gives `None`, the entry is kept with `url` `None`, and the crawler marks `None` processed, loads `Noneabout/`, and then either finds no details or raises `TypeError` in the company-id search (`linkedin_scraper_agent_helper.py:41-47`). Modelling that would make every company URL in the crawl optional.
- GithubScraper.LastTail: states only that a found email is non-empty and contains no `>`, not which candidate the backtracking picks. `LastTailSkips` states the latter.
- GithubCrawler.UpsertContributor: the row-level equalities hold in any store. The well-formedness guarantee needs a well-formed store, because the source's read-then-write assumes one.
- LinkedinCrawler.SeedUser: states which key is used, not that the created row is readable. Readability follows from `LinkedinStore.WellFormedUserReads` for a well-formed store.
- Frontend rendering, authentication, the LLM search agents and the thin HTTP routes are outside the core.

=== FILE: dates.dfy ===
/** Dates as the crawler sees them: `datetime.strptime(s, '%b %Y')`, the
    `isoformat()` / `fromisoformat()` pair the LinkedIn store uses for membership
    dates, and `parse_date_range` from the LinkedIn crawl helper. */
module Dates {
  import opened Wrappers
  import opened Text

  /** A naive `datetime.datetime` without microseconds. */
  datatype DateTime = DateTime(year: int, month: int, day: int, hour: int, minute: int, second: int)

  predicate IsLeap(y: int) {
    y % 4 == 0 && (y % 100 != 0 || y % 400 == 0)
  }

  function DaysInMonth(y: int, m: int): int {
    if m == 2 then (if IsLeap(y) then 29 else 28)
    else if m == 4 || m == 6 || m == 9 || m == 11 then 30
    else 31
  }

  /** The field values the `datetime` constructor accepts. */
  predicate Valid(d: DateTime) {
    && 1 <= d.year <= 9999
    && 1 <= d.month <= 12
    && 1 <= d.day <= DaysInMonth(d.year, d.month)
    && 0 <= d.hour < 24 && 0 <= d.minute < 60 && 0 <= d.second < 60
  }

  /** A `datetime` value: the constructor refuses anything else. */
  type ValidDateTime = d: DateTime | Valid(d) witness DateTime(1, 1, 1, 0, 0, 0)

  /** Midnight on the first of a month: what `'%b %Y'` yields. */
  function MonthStart(year: int, month: int): DateTime {
    DateTime(year, month, 1, 0, 0, 0)
  }

  /** The C-locale month abbreviations `%b` uses. */
  const MonthNames: seq<String> :=
    ["Jan", "Feb", "Mar", "Apr", "May", "Jun", "Jul", "Aug", "Sep", "Oct", "Nov", "Dec"]

  // ---------------------------------------------------------------- digits

  function Pow10(n: nat): nat {
    if n == 0 then 1 else 10 * Pow10(n - 1)
  }

  predicate AllDigits(s: String) {
    forall i :: 0 <= i < |s| ==> IsDigit(s[i])
  }

  function DigitChar(d: int): char
    requires 0 <= d < 10
  {
    ('0' as int + d) as char
  }

  /** The number a run of decimal digits denotes (`int(s)`). */
  function DigitsValue(s: String): nat
    requires AllDigits(s)
  {
    if |s| == 0 then 0 else DigitsValue(s[..|s| - 1]) * 10 + (s[|s| - 1] as int - '0' as int)
  }

  /** `n` written with exactly `width` digits, zero-padded (`f"{n:0{width}d}"`). */
  function PadDigits(n: nat, width: nat): (r: String)
    ensures |r| == width && AllDigits(r)
  {
    if width == 0 then [] else PadDigits(n / 10, width - 1) + [DigitChar(n % 10)]
  }

  lemma {:induction false} PadDigitsRoundTrip(n: nat, width: nat)
    requires n < Pow10(width)
    ensures DigitsValue(PadDigits(n, width)) == n
  {
    if width > 0 {
      assert n / 10 < Pow10(width - 1);
      PadDigitsRoundTrip(n / 10, width - 1);
      var s := PadDigits(n, width);
      assert s[..|s| - 1] == PadDigits(n / 10, width - 1);
    }
  }

  lemma {:induction false} DigitsBound(s: String)
    requires AllDigits(s)
    ensures DigitsValue(s) < Pow10(|s|)
  {
    if |s| > 0 {
      DigitsBound(s[..|s| - 1]);
    }
  }

  // ---------------------------------------------------------------- strptime

  /** The keys `%b` matches against, lower-cased since the match ignores case. */
  const MonthKeys: seq<String> :=
    ["jan", "feb", "mar", "apr", "may", "jun", "jul", "aug", "sep", "oct", "nov", "dec"]

  lemma MonthKeysAreLowerNames(i: int)
    requires 0 <= i < 12
    ensures Lower(MonthNames[i]) == MonthKeys[i]
  {
  }

  /** The month number of a `%b` token, matched case-insensitively. */
  function MonthOf(token: String): (r: Option<int>)
    ensures r.Some? ==> 1 <= r.value <= 12 && Lower(token) == MonthKeys[r.value - 1]
    ensures r.None? ==> forall i :: 0 <= i < 12 ==> Lower(token) != MonthKeys[i]
  {
    MonthFrom(Lower(token), 0)
  }

  function MonthFrom(key: String, i: nat): (r: Option<int>)
    requires i <= 12
    ensures r.Some? ==> i < r.value <= 12 && key == MonthKeys[r.value - 1]
    ensures r.None? ==> forall k :: i <= k < 12 ==> key != MonthKeys[k]
    decreases 12 - i
  {
    if i == 12 then None
    else if key == MonthKeys[i] then Some(i + 1)
    else MonthFrom(key, i + 1)
  }

  lemma MonthKeysDistinct()
    ensures forall i, j :: 0 <= i < j < 12 ==> MonthKeys[i] != MonthKeys[j]
  {
    forall i, j | 0 <= i < j < 12 ensures MonthKeys[i] != MonthKeys[j] {
      assert MonthKeys[i][0] != MonthKeys[j][0] || MonthKeys[i][1] != MonthKeys[j][1]
        || MonthKeys[i][2] != MonthKeys[j][2];
    }
  }

  predicate AllSpace(s: String) {
    forall i :: 0 <= i < |s| ==> IsSpace(s[i])
  }

  /** `datetime.strptime(s, '%b %Y')`, `None` standing for the ValueError.
      The format's space matches one or more whitespace characters, `%Y` exactly
      four digits, the whole string must be consumed, and year 0 is refused. */
  function ParseMonthYear(s: String): (r: Option<DateTime>)
    ensures r.Some? ==> Valid(r.value) && r.value == MonthStart(r.value.year, r.value.month)
  {
    if |s| < 8 then None
    else
      var month := MonthOf(s[..3]);
      var gap := s[3..|s| - 4];
      var year := s[|s| - 4..];
      if month.Some? && |gap| > 0 && AllSpace(gap) && AllDigits(year) && DigitsValue(year) >= 1 then
        var y := DigitsValue(year);
        assert y < 10000 by { DigitsBound(year); }
        Some(MonthStart(y, month.value))
      else None
  }

  /** `d.strftime('%b %Y')`. */
  function FormatMonthYear(year: int, month: int): String
    requires 1 <= year <= 9999 && 1 <= month <= 12
  {
    MonthNames[month - 1] + " " + PadDigits(year, 4)
  }

  /** What `strftime('%b %Y')` writes, `strptime` reads back. */
  lemma MonthYearRoundTrip(year: int, month: int)
    requires 1 <= year <= 9999 && 1 <= month <= 12
    ensures ParseMonthYear(FormatMonthYear(year, month)) == Some(MonthStart(year, month))
  {
    var s := FormatMonthYear(year, month);
    assert s[..3] == MonthNames[month - 1];
    assert s[3..|s| - 4] == " ";
    assert s[|s| - 4..] == PadDigits(year, 4);
    PadDigitsRoundTrip(year, 4);
    MonthKeysAreLowerNames(month - 1);
    var m := MonthOf(s[..3]);
    assert m.Some? && m.value == month by {
      MonthKeysDistinct();
    }
  }

  // ---------------------------------------------------------------- ISO 8601

  /** `d.isoformat()` for a datetime without microseconds. */
  function IsoFormat(d: DateTime): String
    requires Valid(d)
  {
    PadDigits(d.year, 4) + "-" + PadDigits(d.month, 2) + "-" + PadDigits(d.day, 2)
      + "T" + PadDigits(d.hour, 2) + ":" + PadDigits(d.minute, 2) + ":" + PadDigits(d.second, 2)
  }

  /** A run of exactly `width` digits starting at `at`. */
  predicate DigitsAt(s: String, at: nat, width: nat) {
    at + width <= |s| && AllDigits(s[at..at + width])
  }

  /** `datetime.fromisoformat(s)` for the two shapes `YYYY-MM-DD` and
      `YYYY-MM-DD?HH:MM:SS` (any one separator character); anything else, and
      any out-of-range field, is the ValueError. */
  function FromIsoFormat(s: String): (r: Result<DateTime>)
    ensures r.Ok? ==> Valid(r.value)
    ensures r.Err? ==> r.error == ValueError
  {
    if !(|s| == 10 || |s| == 19) then Err(ValueError)
    else if !(DigitsAt(s, 0, 4) && s[4] == '-' && DigitsAt(s, 5, 2) && s[7] == '-' && DigitsAt(s, 8, 2)) then
      Err(ValueError)
    else if |s| == 19 && !(DigitsAt(s, 11, 2) && s[13] == ':' && DigitsAt(s, 14, 2) && s[16] == ':' && DigitsAt(s, 17, 2)) then
      Err(ValueError)
    else
      var d := DateTime(
        DigitsValue(s[0..4]), DigitsValue(s[5..7]), DigitsValue(s[8..10]),
        if |s| == 19 then DigitsValue(s[11..13]) else 0,
        if |s| == 19 then DigitsValue(s[14..16]) else 0,
        if |s| == 19 then DigitsValue(s[17..19]) else 0);
      if Valid(d) then Ok(d) else Err(ValueError)
  }

  /** A stored membership date read back as its ISO string parses to itself. */
  lemma IsoRoundTrip(d: DateTime)
    requires Valid(d)
    ensures FromIsoFormat(IsoFormat(d)) == Ok(d)
  {
    var s := IsoFormat(d);
    assert |s| == 19;
    assert s[0..4] == PadDigits(d.year, 4);
    assert s[5..7] == PadDigits(d.month, 2);
    assert s[8..10] == PadDigits(d.day, 2);
    assert s[11..13] == PadDigits(d.hour, 2);
    assert s[14..16] == PadDigits(d.minute, 2);
    assert s[17..19] == PadDigits(d.second, 2);
    PadDigitsRoundTrip(d.year, 4);
    PadDigitsRoundTrip(d.month, 2);
    PadDigitsRoundTrip(d.day, 2);
    PadDigitsRoundTrip(d.hour, 2);
    PadDigitsRoundTrip(d.minute, 2);
    PadDigitsRoundTrip(d.second, 2);
  }

  // ---------------------------------------------------------------- parse_date_range

  const Separator: String := " - "

  /** The `(start, end)` pair `parse_date_range` returns. */
  datatype DateRange = DateRange(start: Option<DateTime>, end: Option<DateTime>)

  /** `parse_date_range(date_range)`: best-effort parsing of LinkedIn's
      "Jan 2020 - Present" text. Two or more `' - '` separators make the
      two-way unpacking raise ValueError, which is not caught here. */
  function ParseDateRange(dateRange: Option<String>): (r: Result<DateRange>)
    ensures dateRange.None? ==> r == Ok(DateRange(None, None))
    ensures r.Err? ==> r.error == ValueError && dateRange.Some?
    ensures r.Ok? && r.value.start.Some? ==> Valid(r.value.start.value) && r.value.start.value.day == 1
    ensures r.Ok? && r.value.end.Some? ==> Valid(r.value.end.value) && r.value.end.value.day == 1
  {
    if dateRange.None? || dateRange.value == [] then Ok(DateRange(None, None))
    else
      var text := Strip(dateRange.value);
      var parts := Split(text, Separator);
      if |parts| == 1 then Ok(DateRange(ParseMonthYear(text), None))
      else if |parts| == 2 then
        Ok(DateRange(
          ParseMonthYear(parts[0]),
          if Lower(parts[1]) == "present" then None else ParseMonthYear(parts[1])))
      else Err(ValueError)
  }

  /** Surrounding whitespace never changes the parse: the input is stripped first. */
  lemma ParseDateRangeIgnoresPadding(s: String)
    ensures ParseDateRange(Some(Strip(s))) == ParseDateRange(Some(s))
  {
    StripIdempotent(s, IsSpace);
    if Strip(s) == [] && s != [] {
      SplitWithout([], Separator);
      assert ParseMonthYear([]) == None;
    }
  }

  /** An empty string is no range at all, like a missing one. */
  lemma ParseDateRangeEmpty()
    ensures ParseDateRange(Some([])) == Ok(DateRange(None, None))
  {
  }

  /** A non-empty value without the separator is a start date and no end date. */
  lemma ParseDateRangeNoSeparator(s: String)
    requires s != [] && !Contains(Strip(s), Separator)
    ensures ParseDateRange(Some(s)) == Ok(DateRange(ParseMonthYear(Strip(s)), None))
  {
    SplitWithout(Strip(s), Separator);
  }

  /** A non-empty value is rejected exactly when the separator occurs twice or more. */
  lemma ParseDateRangeErrIff(s: String)
    requires s != []
    ensures ParseDateRange(Some(s)).Err? <==> |Split(Strip(s), Separator)| > 2
  {
  }

  /** With exactly one separator, the start is the month before it, and the end
      is the month after it unless that text reads "present" in any case. */
  lemma ParseDateRangeOneSeparator(s: String)
    requires |Split(Strip(s), Separator)| == 2
    ensures var parts := Split(Strip(s), Separator);
      && ParseDateRange(Some(s)).Ok?
      && ParseDateRange(Some(s)).value.start == ParseMonthYear(parts[0])
      && ParseDateRange(Some(s)).value.end
           == (if Lower(parts[1]) == "present" then None else ParseMonthYear(parts[1]))
  {
    if s == [] {
      SplitWithout([], Separator);
      assert false;
    }
  }

  /** A formatted month contains no `' - '` and starts and ends with a non-space. */
  lemma FormattedMonthShape(year: int, month: int)
    requires 1 <= year <= 9999 && 1 <= month <= 12
    ensures var f := FormatMonthYear(year, month);
      && |f| == 8
      && (forall i :: 0 <= i < |f| ==> f[i] != '-')
      && !IsSpace(f[0]) && !IsSpace(f[7])
      && !Contains(f, Separator)
  {
    var f := FormatMonthYear(year, month);
    assert f[3] == ' ';
    assert forall i :: 4 <= i < 8 ==> IsDigit(f[i]);
    assert forall i :: 0 <= i < 3 ==> f[i] == MonthNames[month - 1][i];
    forall j | OccursAt(f, Separator, j) ensures false {
      OccursAtChar(f, Separator, j, 1);
    }
  }

  /** In `a + " - " + b` with `a` a formatted month, the first separator is the one after `a`. */
  lemma SeparatorAfterMonth(year: int, month: int, b: String)
    requires 1 <= year <= 9999 && 1 <= month <= 12
    ensures var a := FormatMonthYear(year, month);
      forall j :: 0 <= j < |a| ==> !OccursAt(a + Separator + b, Separator, j)
  {
    var a := FormatMonthYear(year, month);
    var s := a + Separator + b;
    FormattedMonthShape(year, month);
    forall j | 0 <= j < |a| && OccursAt(s, Separator, j) ensures false {
      OccursAtChar(s, Separator, j, 1);
      OccursAtChar(s, Separator, j, 0);
    }
  }

  /** `"Mon YYYY"` alone is a start date with no end. */
  lemma ParseDateRangeStartOnly(year: int, month: int)
    requires 1 <= year <= 9999 && 1 <= month <= 12
    ensures ParseDateRange(Some(FormatMonthYear(year, month)))
      == Ok(DateRange(Some(MonthStart(year, month)), None))
  {
    var f := FormatMonthYear(year, month);
    FormattedMonthShape(year, month);
    StripWithKeepsEnds(f, IsSpace);
    SplitWithout(f, Separator);
    MonthYearRoundTrip(year, month);
  }

  /** How `parse_date_range` reads `a - b` when `a` is a formatted month and `b`
      has no separator and does not end in whitespace. */
  lemma ParseDateRangeTwoParts(year: int, month: int, b: String)
    requires 1 <= year <= 9999 && 1 <= month <= 12
    requires |b| > 0 && !IsSpace(b[|b| - 1]) && !Contains(b, Separator)
    ensures ParseDateRange(Some(FormatMonthYear(year, month) + Separator + b))
      == Ok(DateRange(Some(MonthStart(year, month)),
                      if Lower(b) == "present" then None else ParseMonthYear(b)))
  {
    var a := FormatMonthYear(year, month);
    var s := a + Separator + b;
    FormattedMonthShape(year, month);
    assert s[0] == a[0] && s[|s| - 1] == b[|b| - 1];
    StripWithKeepsEnds(s, IsSpace);
    SeparatorAfterMonth(year, month, b);
    SplitOnce(a, Separator, b);
    MonthYearRoundTrip(year, month);
  }

  /** `"Mon YYYY - Mon YYYY"` parses to both months. */
  lemma ParseDateRangeBoth(y1: int, m1: int, y2: int, m2: int)
    requires 1 <= y1 <= 9999 && 1 <= m1 <= 12 && 1 <= y2 <= 9999 && 1 <= m2 <= 12
    ensures ParseDateRange(Some(FormatMonthYear(y1, m1) + Separator + FormatMonthYear(y2, m2)))
      == Ok(DateRange(Some(MonthStart(y1, m1)), Some(MonthStart(y2, m2))))
  {
    var b := FormatMonthYear(y2, m2);
    FormattedMonthShape(y2, m2);
    ParseDateRangeTwoParts(y1, m1, b);
    MonthYearRoundTrip(y2, m2);
    assert Lower(b) != "present" by {
      assert |Lower(b)| == 8;
    }
  }

  /** `"Mon YYYY - Present"`, in any letter case, is open-ended. */
  lemma ParseDateRangePresent(year: int, month: int, present: String)
    requires 1 <= year <= 9999 && 1 <= month <= 12
    requires Lower(present) == "present"
    ensures ParseDateRange(Some(FormatMonthYear(year, month) + Separator + present))
      == Ok(DateRange(Some(MonthStart(year, month)), None))
  {
    assert |present| == 7;
    assert !IsSpace(present[6]) by { assert LowerChar(present[6]) == 't'; }
    assert !Contains(present, Separator) by {
      forall j | OccursAt(present, Separator, j) ensures false {
        OccursAtChar(present, Separator, j, 1);
      }
    }
    ParseDateRangeTwoParts(year, month, present);
  }

  /** Three formatted months joined by separators are cut into three pieces. */
  lemma ThreeMonthsSplit(a: String, b: String, c: String, y1: int, m1: int, y2: int, m2: int)
    requires 1 <= y1 <= 9999 && 1 <= m1 <= 12 && 1 <= y2 <= 9999 && 1 <= m2 <= 12
    requires a == FormatMonthYear(y1, m1) && b == FormatMonthYear(y2, m2)
    requires !Contains(c, Separator)
    ensures Split(a + Separator + b + Separator + c, Separator) == [a, b, c]
  {
    var tail := b + Separator + c;
    assert a + Separator + b + Separator + c == a + Separator + tail;
    SeparatorAfterMonth(y1, m1, tail);
    SplitCons(a, Separator, tail);
    SeparatorAfterMonth(y2, m2, c);
    SplitOnce(b, Separator, c);
  }

  /** Three dates joined by two separators make the two-way unpacking raise. */
  lemma ParseDateRangeTooManyParts(y1: int, m1: int, y2: int, m2: int, y3: int, m3: int)
    requires 1 <= y1 <= 9999 && 1 <= m1 <= 12
    requires 1 <= y2 <= 9999 && 1 <= m2 <= 12
    requires 1 <= y3 <= 9999 && 1 <= m3 <= 12
    ensures ParseDateRange(Some(FormatMonthYear(y1, m1) + Separator + FormatMonthYear(y2, m2)
                                + Separator + FormatMonthYear(y3, m3))).Err?
  {
    var a := FormatMonthYear(y1, m1);
    var c := FormatMonthYear(y3, m3);
    var s := a + Separator + FormatMonthYear(y2, m2) + Separator + c;
    FormattedMonthShape(y1, m1);
    FormattedMonthShape(y3, m3);
    assert s[0] == a[0] && s[|s| - 1] == c[7];
    StripWithKeepsEnds(s, IsSpace);
    ThreeMonthsSplit(a, FormatMonthYear(y2, m2), c, y1, m1, y2, m2);
  }

  /** The worked examples "Jan 2020 - Present", "Jan 2020 - Mar 2022" and "garbage". */
  lemma ParseDateRangeExamples(present: String, both: String, garbage: String)
    requires present == "Jan 2020 - Present"
    requires both == "Jan 2020 - Mar 2022"
    requires garbage == "garbage"
    ensures ParseDateRange(Some(present)) == Ok(DateRange(Some(MonthStart(2020, 1)), None))
    ensures ParseDateRange(Some(both)) == Ok(DateRange(Some(MonthStart(2020, 1)), Some(MonthStart(2022, 3))))
    ensures ParseDateRange(Some(garbage)) == Ok(DateRange(None, None))
  {
    PresentExample(present);
    BothExample(both);
    GarbageIsNoDate(garbage);
  }

  lemma PresentExample(s: String)
    requires s == "Jan 2020 - Present"
    ensures ParseDateRange(Some(s)) == Ok(DateRange(Some(MonthStart(2020, 1)), None))
  {
    var p := s[11..];
    assert p == "Present";
    assert Lower(p) == "present";
    FormatJan2020();
    assert s == FormatMonthYear(2020, 1) + Separator + p;
    ParseDateRangePresent(2020, 1, p);
  }

  lemma BothExample(s: String)
    requires s == "Jan 2020 - Mar 2022"
    ensures ParseDateRange(Some(s)) == Ok(DateRange(Some(MonthStart(2020, 1)), Some(MonthStart(2022, 3))))
  {
    BothExampleText(s);
    ParseDateRangeBoth(2020, 1, 2022, 3);
  }

  lemma BothExampleText(s: String)
    requires s == "Jan 2020 - Mar 2022"
    ensures s == FormatMonthYear(2020, 1) + Separator + FormatMonthYear(2022, 3)
  {
    var a, b, c := s[..8], s[8..11], s[11..];
    assert s == a + b + c;
    assert a == "Jan 2020";
    assert b == Separator;
    assert c == "Mar 2022";
    FormatJan2020();
    FormatMar2022();
  }

  lemma FormatJan2020()
    ensures FormatMonthYear(2020, 1) == "Jan 2020"
  {
  }

  lemma FormatMar2022()
    ensures FormatMonthYear(2022, 3) == "Mar 2022"
  {
  }

  lemma GarbageIsNoDate(g: String)
    requires g == "garbage"
    ensures ParseDateRange(Some(g)) == Ok(DateRange(None, None))
  {
    assert |g| == 7 && g[0] == 'g' && g[6] == 'e';
    StripWithKeepsEnds(g, IsSpace);
    assert !Contains(g, Separator) by {
      forall j | OccursAt(g, Separator, j) ensures false {
        OccursAtChar(g, Separator, j, 1);
      }
    }
    SplitWithout(g, Separator);
  }
}

=== FILE: github_crawler.dfy ===
/** The bounded-depth GitHub crawler (`get_github_user_2_degree_network`). The scraper's
    answers form a `World` fixed for the crawl; the crawl threads a `Crawl` state holding
    the store, the two processed sets, the users whose contributions were fetched, and
    the errors its `try` blocks swallowed. */
module GithubCrawler {
  import opened Wrappers
  import opened Text
  import opened Seqs
  import opened GithubStore
  import GithubScraper

  /** What the scraper answers during one crawl: the repository list of
      `fetch_all_contributions`, `get_repo_info` and `get_contributors`, by user / path. */
  datatype World = World(
    contributions: String -> seq<String>,
    repoInfo: String -> Option<GithubScraper.RepoInfo>,
    contributors: String -> Option<seq<GithubScraper.Contributor>>)

  datatype Crawl = Crawl(
    db: GithubDb,
    processedUsers: set<String>,
    processedRepos: set<String>,
    expanded: seq<String>,
    errors: seq<(String, Error)>)

  /** Nothing the crawl records is ever dropped. */
  predicate Grows(a: Crawl, b: Crawl) {
    && a.processedUsers <= b.processedUsers
    && a.processedRepos <= b.processedRepos
    && a.db.users.Keys <= b.db.users.Keys
    && a.db.repos.Keys <= b.db.repos.Keys
    && a.db.contributions.Keys <= b.db.contributions.Keys
    && a.expanded <= b.expanded
    && a.errors <= b.errors
  }

  function Logins(cs: seq<GithubScraper.Contributor>): (r: set<String>)
    ensures forall i | 0 <= i < |cs| :: cs[i].login in r
  {
    set i | 0 <= i < |cs| :: cs[i].login
  }

  /** The upsert of a scraped repository: create it when absent, update it when its
      description or stars differ, leave it alone otherwise. */
  function UpsertRepository(db: GithubDb, path: String, info: GithubScraper.RepoInfo): (r: GithubDb)
    ensures path in r.repos
    ensures r.repos[path].description == info.description && r.repos[path].stars == info.stars
    ensures r.repos[path].path == (if path in db.repos then db.repos[path].path else path)
    ensures r.users == db.users && r.contributions == db.contributions
    ensures forall p | p in db.repos && p != path :: p in r.repos && r.repos[p] == db.repos[p]
    ensures r.repos.Keys == db.repos.Keys + {path}
    ensures WellFormed(db) ==> WellFormed(r)
  {
    var schema := RepositorySchema(path, Set(info.description), Set(info.stars));
    if path !in db.repos then CreateRepository(db, schema).value.0
    else if db.repos[path].description != info.description || db.repos[path].stars != info.stars then
      UpdateRepository(db, schema).0
    else db
  }

  /** The scraped profile as a user schema; the token is left unset. */
  function ContributorSchema(login: String, picture: String, d: GithubScraper.Details): GithubUserSchema {
    GithubUserSchema(login, Set(Some(picture)), Set(d.name), Set(d.email), Set(d.header), Unset)
  }

  /** The upsert of a scraped contributor: create when absent, update when any of the
      four scraped columns differs, leave alone otherwise. */
  function UpsertContributor(db: GithubDb, login: String, picture: String, d: GithubScraper.Details): (r: GithubDb)
    ensures login in r.users
    ensures var row := r.users[login];
      && row.profilePicture == Some(picture) && row.name == d.name
      && row.email == d.email && row.header == d.header
    ensures r.repos == db.repos && r.contributions == db.contributions
    ensures r.users.Keys == db.users.Keys + {login}
    ensures forall u | u in db.users && u != login :: r.users[u] == db.users[u]
    ensures login in db.users ==> r.users[login].token == db.users[login].token
    ensures WellFormed(db) ==> WellFormed(r)
  {
    var schema := ContributorSchema(login, picture, d);
    if login !in db.users then CreateGithubUser(db, schema).value.0
    else
      var row := db.users[login];
      if row.profilePicture != Some(picture) || row.name != d.name || row.email != d.email || row.header != d.header then
        UpdateGithubUser(db, schema).0
      else db
  }

  /** The writes for one contributor: its upsert, then its link to the repository. */
  function StoreContributor(db: GithubDb, path: String, c: GithubScraper.Contributor, d: GithubScraper.Details): (r: GithubDb)
    ensures c.login in r.users && r.repos == db.repos
    ensures db.users.Keys <= r.users.Keys && db.contributions.Keys <= r.contributions.Keys
    ensures forall u | u in db.users && u != c.login :: r.users[u] == db.users[u]
    ensures forall k | k in db.contributions && k.0 != c.login :: r.contributions[k] == db.contributions[k]
    ensures WellFormed(db) ==> WellFormed(r)
  {
    AddUserToRepository(UpsertContributor(db, c.login, c.profilePicture, d), path, c.login, c.numContributions).0
  }

  /** `process_user_network(username, depth)`: stops past depth 2 or at a processed
      user; otherwise fetches the user's repositories, makes sure the user is stored,
      and walks the repositories. */
  function Process(w: World, st: Crawl, username: String, depth: nat): (r: Crawl)
    ensures depth > 2 || username in st.processedUsers ==> r == st
    ensures depth <= 2 && username !in st.processedUsers ==> username in r.db.users && r.expanded == st.expanded + [username]
    ensures Grows(st, r)
    ensures WellFormed(st.db) ==> WellFormed(r.db)
    decreases 3 - depth, 2, 0
  {
    if depth > 2 || username in st.processedUsers then st
    else
      var paths := w.contributions(username);
      var db := if username in st.db.users then st.db else CreateGithubUser(st.db, UsernameOnly(username)).value.0;
      Repos(w, st.(db := db, expanded := st.expanded + [username]), username, paths, depth)
  }

  /** The loop over the user's repositories. */
  function Repos(w: World, st: Crawl, seed: String, paths: seq<String>, depth: nat): (r: Crawl)
    requires depth <= 2
    ensures Grows(st, r)
    ensures r.expanded == st.expanded
    ensures WellFormed(st.db) ==> WellFormed(r.db)
    ensures forall p | p in r.processedRepos && p !in st.processedRepos ::
      p in paths && w.repoInfo(p).Some? && p in r.db.repos
    decreases 3 - depth, 1, |paths|
  {
    if |paths| == 0 then st
    else Repos(w, Repo(w, st, seed, paths[0], depth), seed, paths[1..], depth)
  }

  /** One repository: skipped when processed or when its info is missing; otherwise
      marked, upserted, linked to the user with count 0, and its contributors walked.
      A `None` contributor list raises `TypeError`, caught by the per-repository `try`. */
  function Repo(w: World, st: Crawl, seed: String, path: String, depth: nat): (r: Crawl)
    requires depth <= 2
    ensures Grows(st, r)
    ensures r.processedRepos <= st.processedRepos + {path}
    ensures r.expanded == st.expanded
    ensures WellFormed(st.db) ==> WellFormed(r.db)
    ensures path in st.processedRepos || w.repoInfo(path).None? ==> r == st
    ensures path !in st.processedRepos && w.repoInfo(path).Some? ==> path in r.processedRepos && path in r.db.repos
    decreases 3 - depth, 1, 0
  {
    if path in st.processedRepos then st
    else
      match w.repoInfo(path)
      case None => st
      case Some(info) =>
        var db1 := UpsertRepository(st.db, path, info);
        var db2 := AddUserToRepository(db1, path, seed, 0).0;
        var st1 := st.(db := db2, processedRepos := st.processedRepos + {path});
        match w.contributors(path)
        case None => st1.(errors := st1.errors + [(path, TypeError)])
        case Some(cs) => Contributors(w, st1, path, cs, depth)
  }

  /** The loop over a repository's contributors. A contributor without the per-user
      details raises `KeyError` after being marked processed, ending the repository. */
  function Contributors(w: World, st: Crawl, path: String, cs: seq<GithubScraper.Contributor>, depth: nat): (r: Crawl)
    requires depth <= 2
    ensures Grows(st, r)
    ensures r.processedRepos == st.processedRepos && r.db.repos == st.db.repos
    ensures r.expanded == st.expanded
    ensures WellFormed(st.db) ==> WellFormed(r.db)
    ensures r.processedUsers <= st.processedUsers + Logins(cs)
    ensures forall u | u in st.processedUsers && u in st.db.users :: r.db.users[u] == st.db.users[u]
    ensures forall k | k in st.db.contributions && k.0 in st.processedUsers :: r.db.contributions[k] == st.db.contributions[k]
    decreases 3 - depth, 0, |cs|
  {
    if |cs| == 0 then st
    else
      var c := cs[0];
      if c.login in st.processedUsers then Contributors(w, st, path, cs[1..], depth)
      else
        var st1 := st.(processedUsers := st.processedUsers + {c.login});
        match c.details
        case None => st1.(errors := st1.errors + [(path, KeyError)])
        case Some(d) =>
          var st2 := st1.(db := StoreContributor(st1.db, path, c, d));
          var st3 := if depth < 1 then Process(w, st2, c.login, depth + 1) else st2;
          Contributors(w, st3, path, cs[1..], depth)
  }

  /** `get_github_user_2_degree_network`: the crawl from fresh processed sets. */
  function Crawl2Degree(w: World, db: GithubDb, username: String): (r: Crawl)
    ensures r.db.users.Keys >= db.users.Keys
    ensures username in r.db.users && r.expanded == [username]
    ensures WellFormed(db) ==> WellFormed(r.db)
  {
    Process(w, Crawl(db, {}, {}, [], []), username, 0)
  }

  // ---------------------------------------------------------------- properties

  /** The crawl fetches contributions for the seed alone: each contributor is marked
      processed just before the recursive call on it, so that call stops at its guard
      and the second degree is never expanded. */
  lemma CrawlExpandsOnlySeed(w: World, db: GithubDb, username: String)
    ensures Crawl2Degree(w, db, username).expanded == [username]
    ensures username in Crawl2Degree(w, db, username).db.users
  {
  }

  /** The same, as an equation: starting at depth 0 and at depth 1 (where no recursive
      call is made) give the same crawl. */
  lemma {:induction false} ContributorsDepthIrrelevant(w: World, st: Crawl, path: String, cs: seq<GithubScraper.Contributor>)
    ensures Contributors(w, st, path, cs, 0) == Contributors(w, st, path, cs, 1)
    decreases |cs|
  {
    if |cs| > 0 {
      var c := cs[0];
      if c.login in st.processedUsers {
        ContributorsDepthIrrelevant(w, st, path, cs[1..]);
      } else if c.details.Some? {
        var st1 := st.(processedUsers := st.processedUsers + {c.login});
        var st2 := st1.(db := StoreContributor(st1.db, path, c, c.details.value));
        assert Process(w, st2, c.login, 1) == st2;
        ContributorsDepthIrrelevant(w, st2, path, cs[1..]);
      }
    }
  }

  lemma {:induction false} ReposDepthIrrelevant(w: World, st: Crawl, seed: String, paths: seq<String>)
    ensures Repos(w, st, seed, paths, 0) == Repos(w, st, seed, paths, 1)
    decreases |paths|
  {
    if |paths| > 0 {
      var path := paths[0];
      if path !in st.processedRepos && w.repoInfo(path).Some? && w.contributors(path).Some? {
        var info := w.repoInfo(path).value;
        var db2 := AddUserToRepository(UpsertRepository(st.db, path, info), path, seed, 0).0;
        var st1 := st.(db := db2, processedRepos := st.processedRepos + {path});
        ContributorsDepthIrrelevant(w, st1, path, w.contributors(path).value);
      }
      ReposDepthIrrelevant(w, Repo(w, st, seed, path, 0), seed, paths[1..]);
    }
  }

  lemma CrawlDepthIrrelevant(w: World, st: Crawl, username: String)
    ensures Process(w, st, username, 0) == Process(w, st, username, 1)
  {
    if username !in st.processedUsers {
      var db := if username in st.db.users then st.db else CreateGithubUser(st.db, UsernameOnly(username)).value.0;
      ReposDepthIrrelevant(w, st.(db := db, expanded := st.expanded + [username]), username, w.contributions(username));
    }
  }

  /** A fresh repository with info is marked, stored with the scraped description and
      stars, and linked to the crawled user; a `None` contributor list is logged as a
      `TypeError` and ends that repository. */
  lemma RepoStoresInfo(w: World, st: Crawl, seed: String, path: String, depth: nat)
    requires depth <= 2 && seed in st.db.users
    requires path !in st.processedRepos && w.repoInfo(path).Some?
    ensures var r := Repo(w, st, seed, path, depth);
      && path in r.processedRepos
      && r.db.repos[path].description == w.repoInfo(path).value.description
      && r.db.repos[path].stars == w.repoInfo(path).value.stars
      && (seed, path) in r.db.contributions
    ensures w.contributors(path).None? ==> Repo(w, st, seed, path, depth).errors == st.errors + [(path, TypeError)]
  {
  }

  /** A fresh contributor with details ends the walk stored with the scraped profile
      and linked to the repository with its contribution count. */
  lemma ContributorsStoresHead(w: World, st: Crawl, path: String, cs: seq<GithubScraper.Contributor>, depth: nat)
    requires depth <= 2 && |cs| > 0 && path in st.db.repos
    requires cs[0].login !in st.processedUsers && cs[0].details.Some?
    ensures var r := Contributors(w, st, path, cs, depth);
      var c := cs[0];
      && c.login in r.processedUsers
      && r.db.users[c.login].profilePicture == Some(c.profilePicture)
      && r.db.users[c.login].name == c.details.value.name
      && r.db.users[c.login].email == c.details.value.email
      && r.db.users[c.login].header == c.details.value.header
      && r.db.contributions[(c.login, path)] == c.numContributions
  {
    var c := cs[0];
    var st1 := st.(processedUsers := st.processedUsers + {c.login});
    var st2 := st1.(db := StoreContributor(st1.db, path, c, c.details.value));
    var st3 := if depth < 1 then Process(w, st2, c.login, depth + 1) else st2;
    assert st3 == st2;
  }

  /** A fresh contributor without details is marked processed, the `KeyError` is logged,
      and the rest of the repository's contributors are never looked at. */
  lemma ContributorsStopsOnMissingDetails(w: World, st: Crawl, path: String, cs: seq<GithubScraper.Contributor>, depth: nat)
    requires depth <= 2 && |cs| > 0
    requires cs[0].login !in st.processedUsers && cs[0].details.None?
    ensures Contributors(w, st, path, cs, depth)
      == st.(processedUsers := st.processedUsers + {cs[0].login}, errors := st.errors + [(path, KeyError)])
  {
  }
}

=== FILE: github_scraper.dfy ===
/** The pure logic of the GitHub adapter (`backend/app/utils/github_scraper.py`).
    An HTTP response becomes a value: its status code and the parts of its JSON
    body (or text) the code reads. Following the `next` relation of the `Link`
    header (section 3 of RFC 8288) is modelled as walking a sequence of responses,
    the i-th being the answer to the i-th URL requested. */
module GithubScraper {
  import opened Wrappers
  import opened Text
  import opened Seqs

  const Ok200 := 200

  // ---------------------------------------------------------------- repository info

  /** The fields `get_repo_info` reads from a repository's JSON. */
  datatype RepoJson = RepoJson(name: String, description: Option<String>, stargazersCount: int, url: String)

  datatype RepoInfo = RepoInfo(name: String, description: Option<String>, stars: int, url: String)

  /** `get_repo_info`: the four fields on status 200, `None` otherwise. */
  function GetRepoInfo(status: int, body: RepoJson): (r: Option<RepoInfo>)
    ensures r.Some? <==> status == Ok200
    ensures r.Some? ==> (r.value.name == body.name && r.value.description == body.description
                         && r.value.stars == body.stargazersCount && r.value.url == body.url)
  {
    if status == Ok200 then Some(RepoInfo(body.name, body.description, body.stargazersCount, body.url)) else None
  }

  // ---------------------------------------------------------------- contributors

  /** A JSON member as `dict.get` sees it: missing, `null`, or a string. */
  datatype JsonField = Absent | Null | Str(s: String)

  /** `user_info.get(key, default)`: the default only when the key is missing. */
  function GetOr(f: JsonField, default: String): (r: Option<String>)
    ensures f.Absent? ==> r == Some(default)
    ensures f.Null? ==> r.None?
    ensures f.Str? ==> r == Some(f.s)
  {
    match f
    case Absent => Some(default)
    case Null => None
    case Str(s) => Some(s)
  }

  /** One entry of the contributors list. */
  datatype ContributorJson = ContributorJson(login: String, avatarUrl: String, contributions: int, url: String)

  /** The user JSON's `name`, `bio` and `email` members. */
  datatype UserJson = UserJson(name: JsonField, bio: JsonField, email: JsonField)

  /** The per-user extras, present only when the user fetch answered 200. */
  datatype Details = Details(name: Option<String>, header: Option<String>, email: Option<String>)

  /** `{login: {"profile_picture": ..., "num_contributions": ..., ["name", "header", "email"]}}`. */
  datatype Contributor = Contributor(login: String, profilePicture: String, numContributions: int, details: Option<Details>)

  function DetailsOf(status: int, user: UserJson): (r: Option<Details>)
    ensures r.Some? <==> status == Ok200
    ensures r.Some? ==> (r.value.name == GetOr(user.name, "Name not available")
                         && r.value.header == GetOr(user.bio, "No bio available")
                         && r.value.email == GetOr(user.email, "Email not public"))
  {
    if status == Ok200 then
      Some(Details(GetOr(user.name, "Name not available"), GetOr(user.bio, "No bio available"), GetOr(user.email, "Email not public")))
    else None
  }

  /** `get_contributors`: `None` on a non-200 list response; otherwise one entry per
      contributor, in order. `userStatus`/`userBody` answer the per-user fetch by URL. */
  function GetContributors(status: int, list: seq<ContributorJson>, userStatus: String -> int, userBody: String -> UserJson)
    : (r: Option<seq<Contributor>>)
    ensures r.None? <==> status != Ok200
    ensures r.Some? ==> |r.value| == |list|
    ensures r.Some? ==> forall i | 0 <= i < |list| ::
      && r.value[i].login == list[i].login
      && r.value[i].profilePicture == list[i].avatarUrl
      && r.value[i].numContributions == list[i].contributions
      && (r.value[i].details.Some? <==> userStatus(list[i].url) == Ok200)
      && r.value[i].details == DetailsOf(userStatus(list[i].url), userBody(list[i].url))
  {
    if status != Ok200 then None
    else
      Some(seq(|list|, i requires 0 <= i < |list| =>
        var c := list[i];
        Contributor(c.login, c.avatarUrl, c.contributions, DetailsOf(userStatus(c.url), userBody(c.url)))))
  }

  // ---------------------------------------------------------------- paginated searches

  /** One page of a paginated search: status, the values read from its items (repository
      full names, or pull-request authors), and whether the `Link` header has a `next`. */
  datatype Page = Page(status: int, items: seq<String>, hasNext: bool)

  /** The pages a `while url:` loop reads from `pages`: it stops after a non-200 page or a
      page with no `next` link (or when the given responses run out). */
  function PagesRead(pages: seq<Page>): (n: nat)
    ensures n <= |pages|
    ensures forall j | 0 <= j < n - 1 :: pages[j].status == Ok200 && pages[j].hasNext
    ensures n < |pages| ==> n > 0 && (pages[n - 1].status != Ok200 || !pages[n - 1].hasNext)
    ensures |pages| > 0 ==> n > 0
    decreases |pages|
  {
    if |pages| == 0 then 0
    else if pages[0].status != Ok200 || !pages[0].hasNext then 1
    else
      var rest := PagesRead(pages[1..]);
      assert forall j | 1 <= j < rest + 1 :: pages[j] == pages[1..][j - 1];
      1 + rest
  }

  /** The union of the items of the 200 pages among the first `n`. */
  function ItemsUpTo(pages: seq<Page>, n: nat): (r: set<String>)
    requires n <= |pages|
    ensures forall x :: x in r <==> exists j | 0 <= j < n :: pages[j].status == Ok200 && x in pages[j].items
  {
    if n == 0 then {}
    else
      var last := if pages[n - 1].status == Ok200 then Elems(pages[n - 1].items) else {};
      ItemsUpTo(pages, n - 1) + last
  }

  /** `search_commits_by_user`: the repository full names over every page read; a
      non-200 page ends the search and keeps what earlier pages gave. */
  method SearchCommitsByUser(pages: seq<Page>) returns (contributions: set<String>)
    ensures contributions == ItemsUpTo(pages, PagesRead(pages))
  {
    contributions := {};
    var i := 0;
    var more := |pages| > 0;
    assert pages[0..] == pages;
    while more
      invariant i <= PagesRead(pages) <= |pages|
      invariant more ==> i < |pages| && PagesRead(pages) == i + PagesRead(pages[i..])
      invariant !more ==> i == PagesRead(pages)
      invariant contributions == ItemsUpTo(pages, i)
      decreases |pages| - i
    {
      var page := pages[i];
      assert pages[i..][0] == page && pages[i..][1..] == pages[i + 1..];
      if page.status == Ok200 {
        contributions := contributions + Elems(page.items);
        i := i + 1;
        more := page.hasNext && i < |pages|;
      } else {
        i := i + 1;
        more := false;
      }
    }
  }

  /** `fetch_pull_requests`: `{repo}` when some page read lists `username` as a
      pull request's author, the empty set otherwise. */
  function FetchPullRequests(repo: String, username: String, pages: seq<Page>): (r: set<String>)
    ensures r <= {repo}
    ensures repo in r <==> username in ItemsUpTo(pages, PagesRead(pages))
  {
    if username in ItemsUpTo(pages, PagesRead(pages)) then {repo} else {}
  }

  /** `fetch_all_contributions`: the commit-search repositories, each joined with its
      pull-request search; the list holds each repository once. */
  method FetchAllContributions(username: String, commitPages: seq<Page>, prPages: String -> seq<Page>)
    returns (r: (String, seq<String>))
    ensures r.0 == username
    ensures NoDup(r.1)
    ensures Elems(r.1) == ItemsUpTo(commitPages, PagesRead(commitPages))
  {
    var commitRepos := SearchCommitsByUser(commitPages);
    var allRepos := commitRepos;
    var pending := commitRepos;
    while pending != {}
      invariant pending <= commitRepos
      invariant allRepos == commitRepos
      decreases |pending|
    {
      var repo :| repo in pending;
      allRepos := allRepos + FetchPullRequests(repo, username, prPages(repo));
      pending := pending - {repo};
    }
    var list := ListOf(allRepos);
    return (username, list);
  }

  /** `list(s)`: every element once, in some order. */
  method ListOf(s: set<String>) returns (xs: seq<String>)
    ensures NoDup(xs) && Elems(xs) == s
  {
    xs := [];
    var rest := s;
    while rest != {}
      invariant NoDup(xs)
      invariant rest !! Elems(xs)
      invariant rest + Elems(xs) == s
      decreases |rest|
    {
      var x :| x in rest;
      NoDupAppend(xs, x);
      xs := xs + [x];
      rest := rest - {x};
    }
  }

  /** `search_commit`: the loop runs at most once; the body on 200, `None` otherwise. */
  function SearchCommit<T>(status: int, body: T): (r: Option<T>)
    ensures r.Some? <==> status == Ok200
    ensures r.Some? ==> r.value == body
  {
    if status == Ok200 then Some(body) else None
  }

  // ---------------------------------------------------------------- email from a patch

  /** The first index at or after `from` holding a newline, or `|s|`. */
  function LineEnd(s: String, from: nat): (e: nat)
    requires from <= |s|
    ensures from <= e <= |s|
    ensures forall k | from <= k < e :: s[k] != '\n'
    ensures e < |s| ==> s[e] == '\n'
    decreases |s| - from
  {
    if from == |s| || s[from] == '\n' then from else LineEnd(s, from + 1)
  }

  /** The first index at or after `from` holding `>`. */
  function NextGt(s: String, from: nat): (r: Option<nat>)
    requires from <= |s|
    ensures r.Some? ==> from <= r.value < |s| && s[r.value] == '>'
    ensures r.Some? ==> forall k | from <= k < r.value :: s[k] != '>'
    ensures r.None? ==> forall k | from <= k < |s| :: s[k] != '>'
    decreases |s| - from
  {
    if from == |s| then None
    else if s[from] == '>' then Some(from)
    else NextGt(s, from + 1)
  }

  /** `\s<([^>]+)>` anchored at `j`: greedy `[^>]+` runs to the first `>`, which must exist
      and leave at least one character in the group. */
  function TailAt(s: String, j: nat): (r: Option<String>)
    requires j < |s|
    ensures r.Some? ==> |r.value| > 0 && '>' !in r.value
  {
    if j + 1 < |s| && IsSpace(s[j]) && s[j + 1] == '<' then
      match NextGt(s, j + 2)
      case Some(k) => if k > j + 2 then Some(s[j + 2..k]) else None
      case None => None
    else None
  }

  /** Greedy `.*` backtracks from the end of the line: the tail is tried at `hi`, then
      `hi - 1`, down to `lo`. */
  function LastTail(s: String, lo: nat, hi: int): (r: Option<String>)
    requires hi < |s|
    ensures r.Some? ==> |r.value| > 0 && '>' !in r.value
    decreases hi - lo
  {
    if hi < lo then None
    else if TailAt(s, hi).Some? then TailAt(s, hi)
    else LastTail(s, lo, hi - 1)
  }

  /** `From:\s.*\s<([^>]+)>` anchored at `i`. `.` stops at a newline, while the `\s`
      after it may be that newline. */
  function EmailAt(s: String, i: nat): (r: Option<String>)
    ensures r.Some? ==> |r.value| > 0 && '>' !in r.value
  {
    if OccursAt(s, "From:", i) && i + 5 < |s| && IsSpace(s[i + 5]) then
      var e := LineEnd(s, i + 6);
      LastTail(s, i + 6, if e < |s| then e else |s| - 1)
    else None
  }

  /** `re.search`: the leftmost start at or after `from` that matches. */
  function EmailSearch(s: String, from: nat): (r: Option<String>)
    ensures r.Some? ==> |r.value| > 0 && '>' !in r.value
    decreases |s| - from
  {
    if from >= |s| then None
    else if EmailAt(s, from).Some? then EmailAt(s, from)
    else EmailSearch(s, from + 1)
  }

  /** The search finds the leftmost matching start, and nothing when no start matches. */
  lemma {:induction false} EmailSearchLeftmost(s: String, from: nat)
    ensures var r := EmailSearch(s, from);
      && (r.Some? ==> exists i | from <= i < |s| :: EmailAt(s, i) == r && forall k | from <= k < i :: EmailAt(s, k).None?)
      && (r.None? ==> forall i | from <= i < |s| :: EmailAt(s, i).None?)
    decreases |s| - from
  {
    var r := EmailSearch(s, from);
    if from < |s| {
      var here := EmailAt(s, from);
      if here.Some? {
        assert r == here;
      } else {
        assert r == EmailSearch(s, from + 1);
        EmailSearchLeftmost(s, from + 1);
        if r.Some? {
          var i :| from + 1 <= i < |s| && EmailAt(s, i) == r && forall k | from + 1 <= k < i :: EmailAt(s, k).None?;
          assert forall k | from <= k < i :: EmailAt(s, k).None?;
        }
      }
    }
  }

  /** `get_email_from_patch`: `None` on a non-200 response or when nothing matches; an
      email it returns is non-empty and holds no `>`. */
  function GetEmailFromPatch(status: int, text: String): (r: Option<String>)
    ensures status != Ok200 ==> r.None?
    ensures r.Some? ==> |r.value| > 0 && '>' !in r.value
  {
    if status == Ok200 then EmailSearch(text, 0) else None
  }

  /** Greedy backtracking: candidates above `j` that fail do not change the result. */
  lemma {:induction false} LastTailSkips(s: String, lo: nat, hi: int, j: int)
    requires lo <= j <= hi < |s|
    requires forall k | j < k <= hi :: TailAt(s, k).None?
    ensures LastTail(s, lo, hi) == LastTail(s, lo, j)
    decreases hi - j
  {
    if hi > j {
      assert TailAt(s, hi).None?;
      LastTailSkips(s, lo, hi - 1, j);
    }
  }

  /** The patch header `From: <name> <<email>>`, then the end of the text or a newline
      not followed by `<`. */
  function PatchHeader(name: String, email: String, rest: String): String {
    "From: " + name + " <" + email + ">" + rest
  }

  /** A patch whose header line names an email gives that email back, whatever `<`
      and `>` the author's name holds. */
  lemma PatchEmailRoundTrip(name: String, email: String, rest: String)
    requires forall k | 0 <= k < |name| :: name[k] != '\n'
    requires |email| > 0
    requires forall k | 0 <= k < |email| :: email[k] != '>' && !IsSpace(email[k])
    requires rest == [] || (rest[0] == '\n' && (|rest| == 1 || rest[1] != '<'))
    ensures GetEmailFromPatch(Ok200, PatchHeader(name, email, rest)) == Some(email)
  {
    var s := PatchHeader(name, email, rest);
    var jE := 6 + |name|;
    var g := jE + 2 + |email|;
    HeaderLayout(name, email, rest);
    HeaderCapture(name, email, rest);
    var hi := if g + 1 < |s| then g + 1 else |s| - 1;
    HeaderNoLaterTail(name, email, rest, hi);
    LastTailSkips(s, 6, hi, jE);
    assert LastTail(s, 6, jE) == Some(email);
    assert EmailAt(s, 0) == Some(email);
  }

  /** Where the parts of the header sit. */
  lemma HeaderLayout(name: String, email: String, rest: String)
    ensures var s := PatchHeader(name, email, rest);
      var jE := 6 + |name|;
      var g := jE + 2 + |email|;
      && |s| == g + 1 + |rest|
      && OccursAt(s, "From:", 0) && s[5] == ' '
      && (forall k | 6 <= k < jE :: s[k] == name[k - 6])
      && s[jE] == ' ' && s[jE + 1] == '<' && s[g] == '>'
      && (forall k | jE + 2 <= k < g :: s[k] == email[k - jE - 2])
      && (forall k | g < k < |s| :: s[k] == rest[k - g - 1])
      && s[jE + 2..g] == email
  {
    var s := PatchHeader(name, email, rest);
    assert s[..5] == "From:";
  }

  /** The header line ends just after the closing `>`, and the capture at the space
      before `<` is the email. */
  lemma HeaderCapture(name: String, email: String, rest: String)
    requires forall k | 0 <= k < |name| :: name[k] != '\n'
    requires |email| > 0
    requires forall k | 0 <= k < |email| :: email[k] != '>' && !IsSpace(email[k])
    requires rest == [] || rest[0] == '\n'
    ensures var s := PatchHeader(name, email, rest);
      && LineEnd(s, 6) == 6 + |name| + 2 + |email| + 1
      && TailAt(s, 6 + |name|) == Some(email)
  {
    var s := PatchHeader(name, email, rest);
    var jE := 6 + |name|;
    var g := jE + 2 + |email|;
    HeaderLayout(name, email, rest);
    forall k | 6 <= k <= g ensures s[k] != '\n' {
      if jE + 2 <= k < g {
        assert s[k] == email[k - jE - 2];
      }
    }
    assert g + 1 < |s| ==> s[g + 1] == '\n';
    assert LineEnd(s, 6) == g + 1;
    assert forall k | jE + 2 <= k < g :: s[k] != '>';
    assert NextGt(s, jE + 2) == Some(g);
    assert TailAt(s, jE) == Some(email);
  }

  /** No start after the space before `<` matches on the header line. */
  lemma HeaderNoLaterTail(name: String, email: String, rest: String, hi: int)
    requires forall k | 0 <= k < |email| :: email[k] != '>' && !IsSpace(email[k])
    requires rest == [] || (rest[0] == '\n' && (|rest| == 1 || rest[1] != '<'))
    requires hi <= 6 + |name| + 2 + |email| + 1 && hi < |PatchHeader(name, email, rest)|
    ensures forall k | 6 + |name| < k <= hi :: TailAt(PatchHeader(name, email, rest), k).None?
  {
    var s := PatchHeader(name, email, rest);
    var jE := 6 + |name|;
    var g := jE + 2 + |email|;
    HeaderLayout(name, email, rest);
    forall k | jE < k <= hi
      ensures TailAt(s, k).None?
    {
      if k < g {
        assert k == jE + 1 || s[k] == email[k - jE - 2];
        assert !IsSpace(s[k]);
      } else if k == g {
        assert !IsSpace(s[k]);
      } else {
        assert k == g + 1 && |rest| > 0;
        assert k + 1 < |s| ==> s[k + 1] == rest[1];
      }
    }
  }

  /** The search stops at the first non-200 page or the first page with no `next`:
      responses after it are never looked at. */
  lemma {:induction false} PagesReadIgnoresLater(pages: seq<Page>, later: seq<Page>)
    requires PagesRead(pages) < |pages|
    ensures PagesRead(pages + later) == PagesRead(pages)
    decreases |pages|
  {
    assert (pages + later)[0] == pages[0];
    if pages[0].status == Ok200 && pages[0].hasNext {
      assert (pages + later)[1..] == pages[1..] + later;
      PagesReadIgnoresLater(pages[1..], later);
    }
  }

  /** The repositories found depend only on the pages read. */
  lemma {:induction false} ItemsUpToPrefix(pages: seq<Page>, later: seq<Page>, n: nat)
    requires n <= |pages|
    ensures ItemsUpTo(pages + later, n) == ItemsUpTo(pages, n)
  {
    if n > 0 {
      assert (pages + later)[n - 1] == pages[n - 1];
      ItemsUpToPrefix(pages, later, n - 1);
    }
  }

  /** A first page that is not 200 leaves the search empty. */
  lemma FirstPageFails(pages: seq<Page>)
    requires |pages| > 0 && pages[0].status != Ok200
    ensures ItemsUpTo(pages, PagesRead(pages)) == {}
  {
  }

  // ---------------------------------------------------------------- username from email

  /** What `get_username_from_email` is given: not a string, or a string. */
  datatype EmailArg = NotAString | Text(text: String)

  /** A search response: status, `total_count`, and the login read from each item
      (`None` when the commit's `author` is `null`). */
  datatype SearchResponse = SearchResponse(status: int, totalCount: int, logins: seq<Option<String>>)

  /** `search_commits_by_email`. */
  function SearchCommitsByEmail(resp: SearchResponse): (r: Result<String>)
    ensures resp.status != Ok200 ==> r == Err(HttpError)
    ensures resp.status == Ok200 && resp.totalCount == 0 ==> r == Err(NotFound)
    ensures r.Ok? <==> resp.status == Ok200 && resp.totalCount != 0 && |resp.logins| > 0 && resp.logins[0].Some?
    ensures r.Ok? ==> r.value == resp.logins[0].value
  {
    if resp.status != Ok200 then Err(HttpError)
    else if resp.totalCount == 0 then Err(NotFound)
    else if |resp.logins| == 0 then Err(IndexError)
    else if resp.logins[0].None? then Err(TypeError)
    else Ok(resp.logins[0].value)
  }

  /** `get_username_from_email`: the user search first, the commit search as fallback. */
  function GetUsernameFromEmail(email: EmailArg, users: SearchResponse, commits: SearchResponse): (r: Result<String>)
    ensures email.NotAString? || !('@' in email.text) ==> r == Err(ValueError)
    ensures email.Text? && '@' in email.text && users.status != Ok200 ==> r == Err(HttpError)
    ensures (email.Text? && '@' in email.text && users.status == Ok200 && users.totalCount > 0
             && |users.logins| > 0 && users.logins[0].Some?) ==> r == Ok(users.logins[0].value)
    ensures email.Text? && '@' in email.text && users.status == Ok200 && users.totalCount <= 0 ==>
      r == SearchCommitsByEmail(commits)
  {
    if email.NotAString? || !('@' in email.text) then Err(ValueError)
    else if users.status != Ok200 then Err(HttpError)
    else if users.totalCount > 0 then
      if |users.logins| == 0 then Err(IndexError)
      else if users.logins[0].None? then Err(TypeError)
      else Ok(users.logins[0].value)
    else SearchCommitsByEmail(commits)
  }
}

=== FILE: github_store.dfy ===
/** The GitHub half of the entity store: users keyed by username, repositories
    keyed by path, and the contribution map keyed by the composite
    (username, path) primary key. Every operation is an upsert-by-natural-key
    over immutable maps; a database session becomes a value passed in and out. */
module GithubStore {
  import opened Wrappers
  import opened Text

  // ---------------------------------------------------------------- rows

  datatype GithubUserRow = GithubUserRow(
    username: String,
    profilePicture: Option<String>,
    name: Option<String>,
    email: Option<String>,
    header: Option<String>,
    token: Option<String>)

  datatype RepositoryRow = RepositoryRow(path: String, description: Option<String>, stars: int)

  /** The three tables. `contributions[(u, p)]` is the `num_contributions` of
      the map row linking user `u` to repository `p`. */
  datatype GithubDb = GithubDb(
    users: map<String, GithubUserRow>,
    repos: map<String, RepositoryRow>,
    contributions: map<(String, String), int>)

  const EmptyDb := GithubDb(map[], map[], map[])

  /** Rows sit under their own key and every map row references an existing
      user and an existing repository (the two foreign keys). */
  ghost predicate WellFormed(db: GithubDb) {
    && (forall u | u in db.users :: db.users[u].username == u)
    && (forall p | p in db.repos :: db.repos[p].path == p)
    && (forall k | k in db.contributions :: k.0 in db.users && k.1 in db.repos)
  }

  // ---------------------------------------------------------------- schemas

  /** The GitHub user schema as a caller builds it: each optional field is
      either left unset or set explicitly (possibly to `None`). */
  datatype GithubUserSchema = GithubUserSchema(
    username: String,
    profilePicture: Field<Option<String>>,
    name: Field<Option<String>>,
    email: Field<Option<String>>,
    header: Field<Option<String>>,
    token: Field<Option<String>>)

  /** `GithubUserSchema(username=username)`: nothing but the key is set. */
  function UsernameOnly(username: String): GithubUserSchema {
    GithubUserSchema(username, Unset, Unset, Unset, Unset, Unset)
  }

  datatype RepositorySchema = RepositorySchema(
    path: String,
    description: Field<Option<String>>,
    stars: Field<int>)

  /** What a read returns for a user: its columns plus one (path, count) entry
      per contribution row, keyed by path because (user, path) is unique. */
  datatype GithubUserView = GithubUserView(
    username: String,
    profilePicture: Option<String>,
    name: Option<String>,
    email: Option<String>,
    header: Option<String>,
    token: Option<String>,
    repositories: map<String, int>)

  /** What a read returns for a repository: its columns plus one
      (username, count) entry per contribution row. */
  datatype RepositoryView = RepositoryView(
    path: String,
    description: Option<String>,
    stars: int,
    githubUsers: map<String, int>)

  // ---------------------------------------------------------------- users

  /** The paths `username` has contribution rows for. */
  function PathsOf(db: GithubDb, username: String): (r: set<String>)
    ensures forall p :: p in r <==> (username, p) in db.contributions
  {
    set k | k in db.contributions && k.0 == username :: k.1
  }

  /** The usernames with contribution rows for `path`. */
  function UsersOf(db: GithubDb, path: String): (r: set<String>)
    ensures forall u :: u in r <==> (u, path) in db.contributions
  {
    set k | k in db.contributions && k.1 == path :: k.0
  }

  /** `get_github_user_by_username`. */
  function GetGithubUser(db: GithubDb, username: String): (r: Option<GithubUserView>)
    ensures r.None? <==> username !in db.users
    ensures r.Some? ==>
      var row := db.users[username];
      && r.value.profilePicture == row.profilePicture && r.value.name == row.name
      && r.value.email == row.email && r.value.header == row.header && r.value.token == row.token
      && (forall p :: p in r.value.repositories <==> (username, p) in db.contributions)
      && (forall p | p in r.value.repositories :: r.value.repositories[p] == db.contributions[(username, p)])
  {
    if username !in db.users then None
    else
      var row := db.users[username];
      var repositories := map p | p in PathsOf(db, username) :: db.contributions[(username, p)];
      Some(GithubUserView(row.username, row.profilePicture, row.name, row.email, row.header, row.token, repositories))
  }

  /** The row `create_github_user` inserts: every column copied from the schema,
      unset optional fields taking their `None` default. */
  function NewUserRow(s: GithubUserSchema): (row: GithubUserRow)
    ensures row.username == s.username
    ensures row.profilePicture == s.profilePicture.Or(None) && row.name == s.name.Or(None)
    ensures row.email == s.email.Or(None) && row.header == s.header.Or(None)
    ensures row.token == s.token.Or(None)
  {
    GithubUserRow(s.username, s.profilePicture.Or(None), s.name.Or(None),
      s.email.Or(None), s.header.Or(None), s.token.Or(None))
  }

  /** `create_github_user`: inserts one row; the primary key refuses a username
      that is already stored. */
  function CreateGithubUser(db: GithubDb, s: GithubUserSchema): (r: Result<(GithubDb, GithubUserRow)>)
    ensures r.Err? <==> s.username in db.users
    ensures r.Err? ==> r.error == IntegrityError
    ensures r.Ok? ==>
      var (db', row) := r.value;
      && row == NewUserRow(s)
      && db'.users == db.users[s.username := row]
      && db'.repos == db.repos && db'.contributions == db.contributions
  {
    if s.username in db.users then Err(IntegrityError)
    else
      var row := NewUserRow(s);
      Ok((db.(users := db.users[s.username := row]), row))
  }

  /** The stored row after `setattr` of every explicitly set field. */
  function PatchUser(row: GithubUserRow, s: GithubUserSchema): GithubUserRow {
    row.(profilePicture := s.profilePicture.Or(row.profilePicture),
         name := s.name.Or(row.name),
         email := s.email.Or(row.email),
         header := s.header.Or(row.header),
         token := s.token.Or(row.token))
  }

  /** `update_github_user`: for a stored username, overwrites exactly the fields
      set on the schema (an explicit `None` included) and returns the fresh read;
      for an unknown username changes nothing and returns `None`. */
  function UpdateGithubUser(db: GithubDb, s: GithubUserSchema): (r: (GithubDb, Option<GithubUserView>))
    ensures s.username !in db.users ==> r.0 == db && r.1.None?
    ensures s.username in db.users ==> r.0.users.Keys == db.users.Keys
    ensures s.username in db.users ==>
      var old_ := db.users[s.username];
      var new_ := r.0.users[s.username];
      && (forall u | u in db.users && u != s.username :: r.0.users[u] == db.users[u])
      && r.0.repos == db.repos && r.0.contributions == db.contributions
      && new_.username == old_.username
      && (if s.profilePicture.Set? then new_.profilePicture == s.profilePicture.value else new_.profilePicture == old_.profilePicture)
      && (if s.name.Set? then new_.name == s.name.value else new_.name == old_.name)
      && (if s.email.Set? then new_.email == s.email.value else new_.email == old_.email)
      && (if s.header.Set? then new_.header == s.header.value else new_.header == old_.header)
      && (if s.token.Set? then new_.token == s.token.value else new_.token == old_.token)
      && r.1 == GetGithubUser(r.0, s.username)
  {
    if s.username !in db.users then (db, None)
    else
      var db' := db.(users := db.users[s.username := PatchUser(db.users[s.username], s)]);
      (db', GetGithubUser(db', s.username))
  }

  // ---------------------------------------------------------------- repositories

  /** `get_repository_by_path`. */
  function GetRepository(db: GithubDb, path: String): (r: Option<RepositoryView>)
    ensures r.None? <==> path !in db.repos
    ensures r.Some? ==>
      && r.value.path == db.repos[path].path
      && r.value.description == db.repos[path].description
      && r.value.stars == db.repos[path].stars
      && (forall u :: u in r.value.githubUsers <==> (u, path) in db.contributions)
      && (forall u | u in r.value.githubUsers :: r.value.githubUsers[u] == db.contributions[(u, path)])
  {
    if path !in db.repos then None
    else
      var row := db.repos[path];
      var users := map u | u in UsersOf(db, path) :: db.contributions[(u, path)];
      Some(RepositoryView(row.path, row.description, row.stars, users))
  }

  /** `create_repository`: stores path, description and stars (stars default to
      0 when unset) and reports an empty contributor list. */
  function CreateRepository(db: GithubDb, s: RepositorySchema): (r: Result<(GithubDb, RepositoryView)>)
    ensures r.Err? <==> s.path in db.repos
    ensures r.Err? ==> r.error == IntegrityError
    ensures r.Ok? ==>
      var (db', view) := r.value;
      && db'.repos == db.repos[s.path := RepositoryRow(s.path, s.description.Or(None), s.stars.Or(0))]
      && db'.users == db.users && db'.contributions == db.contributions
      && view == RepositoryView(s.path, s.description.Or(None), s.stars.Or(0), map[])
  {
    if s.path in db.repos then Err(IntegrityError)
    else
      var row := RepositoryRow(s.path, s.description.Or(None), s.stars.Or(0));
      Ok((db.(repos := db.repos[s.path := row]), RepositoryView(row.path, row.description, row.stars, map[])))
  }

  /** `update_repository`: overwrites the explicitly set columns of a stored
      repository and returns the fresh read; `None` and no change otherwise. */
  function UpdateRepository(db: GithubDb, s: RepositorySchema): (r: (GithubDb, Option<RepositoryView>))
    ensures s.path !in db.repos ==> r.0 == db && r.1.None?
    ensures s.path in db.repos ==> r.0.repos.Keys == db.repos.Keys
    ensures s.path in db.repos ==>
      var old_ := db.repos[s.path];
      var new_ := r.0.repos[s.path];
      && (forall p | p in db.repos && p != s.path :: r.0.repos[p] == db.repos[p])
      && r.0.users == db.users && r.0.contributions == db.contributions
      && new_.path == old_.path
      && (if s.description.Set? then new_.description == s.description.value else new_.description == old_.description)
      && (if s.stars.Set? then new_.stars == s.stars.value else new_.stars == old_.stars)
      && r.1 == GetRepository(r.0, s.path)
  {
    if s.path !in db.repos then (db, None)
    else
      var row := db.repos[s.path];
      var row' := row.(description := s.description.Or(row.description), stars := s.stars.Or(row.stars));
      var db' := db.(repos := db.repos[s.path := row']);
      (db', GetRepository(db', s.path))
  }

  /** `add_user_to_repository`: with both ends present, overwrites the count of
      an existing (user, path) row or inserts exactly one row; with either end
      missing, changes nothing and returns `None`. */
  function AddUserToRepository(db: GithubDb, path: String, username: String, n: int): (r: (GithubDb, Option<RepositoryView>))
    ensures (path !in db.repos || username !in db.users) ==> r.0 == db && r.1.None?
    ensures path in db.repos && username in db.users ==>
      && r.0.users == db.users && r.0.repos == db.repos
      && r.0.contributions.Keys == db.contributions.Keys + {(username, path)}
      && r.0.contributions[(username, path)] == n
      && (forall k | k in db.contributions && k != (username, path) :: r.0.contributions[k] == db.contributions[k])
      && r.1 == GetRepository(r.0, path)
  {
    if path !in db.repos || username !in db.users then (db, None)
    else
      var db' := db.(contributions := db.contributions[(username, path) := n]);
      (db', GetRepository(db', path))
  }

  // ---------------------------------------------------------------- properties

  lemma CreateGithubUserPreservesWellFormed(db: GithubDb, s: GithubUserSchema)
    requires WellFormed(db)
    ensures CreateGithubUser(db, s).Ok? ==> WellFormed(CreateGithubUser(db, s).value.0)
  {
  }

  lemma UpdateGithubUserPreservesWellFormed(db: GithubDb, s: GithubUserSchema)
    requires WellFormed(db)
    ensures WellFormed(UpdateGithubUser(db, s).0)
  {
  }

  lemma RepositoryOperationsPreserveWellFormed(db: GithubDb, s: RepositorySchema, path: String, username: String, n: int)
    requires WellFormed(db)
    ensures CreateRepository(db, s).Ok? ==> WellFormed(CreateRepository(db, s).value.0)
    ensures WellFormed(UpdateRepository(db, s).0)
    ensures WellFormed(AddUserToRepository(db, path, username, n).0)
  {
  }

  /** A freshly created user reads back with the copied columns and, in a
      well-formed store, no repositories yet. */
  lemma CreateThenGetGithubUser(db: GithubDb, s: GithubUserSchema)
    requires WellFormed(db) && s.username !in db.users
    ensures var db' := CreateGithubUser(db, s).value.0;
      GetGithubUser(db', s.username) == Some(GithubUserView(s.username, s.profilePicture.Or(None),
        s.name.Or(None), s.email.Or(None), s.header.Or(None), s.token.Or(None), map[]))
  {
    var db' := CreateGithubUser(db, s).value.0;
    assert PathsOf(db', s.username) == {};
  }

  /** A freshly created repository reads back as the view `create_repository` returned. */
  lemma CreateThenGetRepository(db: GithubDb, s: RepositorySchema)
    requires WellFormed(db) && s.path !in db.repos
    ensures var (db', view) := CreateRepository(db, s).value;
      GetRepository(db', s.path) == Some(view)
  {
    var db' := CreateRepository(db, s).value.0;
    assert UsersOf(db', s.path) == {};
  }

  /** An update whose every field is unset changes nothing. */
  lemma UpdateGithubUserUnsetIsNoop(db: GithubDb, username: String)
    ensures UpdateGithubUser(db, UsernameOnly(username)).0 == db
  {
    if username in db.users {
      var db' := UpdateGithubUser(db, UsernameOnly(username)).0;
      assert db'.users == db.users;
    }
  }

  /** Repeating an update changes nothing more. */
  lemma UpdateGithubUserIdempotent(db: GithubDb, s: GithubUserSchema)
    ensures var db' := UpdateGithubUser(db, s).0;
      UpdateGithubUser(db', s) == UpdateGithubUser(db, s)
  {
    if s.username in db.users {
      var db' := UpdateGithubUser(db, s).0;
      var db'' := UpdateGithubUser(db', s).0;
      assert db''.users == db'.users;
    }
  }

  lemma UpdateRepositoryIdempotent(db: GithubDb, s: RepositorySchema)
    ensures var db' := UpdateRepository(db, s).0;
      UpdateRepository(db', s) == UpdateRepository(db, s)
  {
    if s.path in db.repos {
      var db' := UpdateRepository(db, s).0;
      var db'' := UpdateRepository(db', s).0;
      assert db''.repos == db'.repos;
    }
  }

  /** Writing the same pair twice keeps only the last count: the composite key
      allows one row per (user, repository). With `m == n` this is idempotence. */
  lemma AddUserToRepositoryLastWins(db: GithubDb, path: String, username: String, m: int, n: int)
    ensures var db' := AddUserToRepository(db, path, username, m).0;
      AddUserToRepository(db', path, username, n) == AddUserToRepository(db, path, username, n)
  {
    if path in db.repos && username in db.users {
      var db' := AddUserToRepository(db, path, username, m).0;
      var db'' := AddUserToRepository(db', path, username, n).0;
      assert db''.contributions == AddUserToRepository(db, path, username, n).0.contributions;
    }
  }

  /** The membership count shows on both sides of the relation after a write. */
  lemma AddUserToRepositoryVisibleFromUser(db: GithubDb, path: String, username: String, n: int)
    requires path in db.repos && username in db.users
    ensures var db' := AddUserToRepository(db, path, username, n).0;
      && GetGithubUser(db', username).value.repositories[path] == n
      && AddUserToRepository(db, path, username, n).1.value.githubUsers[username] == n
  {
  }
}

=== FILE: json.dfy ===
/** `json.dumps` of a list of strings (default separators, `ensure_ascii=True`)
    and the part of `json.loads` that reads such a list back. The LinkedIn store
    keeps `external_websites` in this form and the schema validator decodes it. */
module Json {
  import opened Wrappers
  import opened Text

  // ---------------------------------------------------------------- hex digits

  function HexDigit(d: int): char
    requires 0 <= d < 16
  {
    if d < 10 then ('0' as int + d) as char else ('a' as int + d - 10) as char
  }

  /** The value of a hex digit in either case. */
  function HexValue(c: char): Option<int> {
    if '0' <= c <= '9' then Some(c as int - '0' as int)
    else if 'a' <= c <= 'f' then Some(c as int - 'a' as int + 10)
    else if 'A' <= c <= 'F' then Some(c as int - 'A' as int + 10)
    else None
  }

  function Pow16(n: nat): nat {
    if n == 0 then 1 else 16 * Pow16(n - 1)
  }

  /** `n` as exactly `width` lower-case hex digits (`'{0:04x}'.format(n)` for width 4). */
  function HexPad(n: nat, width: nat): (r: String)
    ensures |r| == width
  {
    if width == 0 then [] else HexPad(n / 16, width - 1) + [HexDigit(n % 16)]
  }

  /** The number a run of hex digits denotes, if every character is one. */
  function HexNumber(s: String): (r: Option<nat>)
    ensures r.Some? ==> r.value < Pow16(|s|)
  {
    if |s| == 0 then Some(0)
    else match (HexNumber(s[..|s| - 1]), HexValue(s[|s| - 1]))
      case (Some(high), Some(low)) => Some(high * 16 + low)
      case _ => None
  }

  lemma {:induction false} HexRoundTrip(n: nat, width: nat)
    requires n < Pow16(width)
    ensures HexNumber(HexPad(n, width)) == Some(n)
  {
    if width > 0 {
      assert n / 16 < Pow16(width - 1);
      HexRoundTrip(n / 16, width - 1);
      var s := HexPad(n, width);
      assert s[..|s| - 1] == HexPad(n / 16, width - 1);
    }
  }

  // ---------------------------------------------------------------- encoding

  const Backslash: char := '\\'
  const Quote: char := '"'

  predicate IsHighSurrogate(n: int) { 0xD800 <= n <= 0xDBFF }
  predicate IsLowSurrogate(n: int) { 0xDC00 <= n <= 0xDFFF }

  /** `\uXXXX` for one UTF-16 code unit. */
  function UnicodeEscape(unit: nat): String
    requires unit < 0x10000
  {
    [Backslash, 'u'] + HexPad(unit, 4)
  }

  /** How `json.dumps` writes one character of a string. */
  function EscapeChar(c: char): String {
    if c == Quote then [Backslash, Quote]
    else if c == Backslash then [Backslash, Backslash]
    else if c == '\n' then [Backslash, 'n']
    else if c == '\r' then [Backslash, 'r']
    else if c == '\t' then [Backslash, 't']
    else if c == '\U{08}' then [Backslash, 'b']
    else if c == '\U{0C}' then [Backslash, 'f']
    else if ' ' <= c <= '~' then [c]
    else if (c as int) < 0x10000 then UnicodeEscape(c as int)
    else
      var n := c as int - 0x10000;
      UnicodeEscape(0xD800 + n / 1024) + UnicodeEscape(0xDC00 + n % 1024)
  }

  function EncodeChars(x: String): String {
    if |x| == 0 then [] else EscapeChar(x[0]) + EncodeChars(x[1..])
  }

  /** `json.dumps(x)` for a string. */
  function EncodeString(x: String): String {
    [Quote] + EncodeChars(x) + [Quote]
  }

  /** The items of a non-empty list, separated by `", "`, followed by `close`. */
  function EncodeItems(xs: seq<String>, close: String): String
    requires |xs| > 0
  {
    if |xs| == 1 then EncodeString(xs[0]) + close
    else EncodeString(xs[0]) + (", " + EncodeItems(xs[1..], close))
  }

  /** `json.dumps(xs)` for a list of strings. */
  function EncodeList(xs: seq<String>): String {
    if |xs| == 0 then "[]" else "[" + EncodeItems(xs, "]")
  }

  // ---------------------------------------------------------------- decoding

  /** JSON's insignificant whitespace. */
  predicate IsJsonSpace(c: char) {
    c == ' ' || c == '\t' || c == '\n' || c == '\r'
  }

  function SkipSpace(s: String): (r: String)
    ensures |r| <= |s|
  {
    TrimStart(s, IsJsonSpace)
  }

  lemma SkipSpaceStops(s: String)
    requires |s| > 0 && !IsJsonSpace(s[0])
    ensures SkipSpace(s) == s
  {
  }

  lemma SkipSpaceSkips(c: char, s: String)
    requires IsJsonSpace(c)
    ensures SkipSpace([c] + s) == SkipSpace(s)
  {
    assert ([c] + s)[1..] == s;
  }

  function Prepend(c: char, r: Option<(String, String)>): Option<(String, String)> {
    match r
    case Some((x, rest)) => Some(([c] + x, rest))
    case None => None
  }

  /** The character an escape sequence at the head of `s` stands for, and its length.
      A surrogate escape that is not part of a pair has no `char` and fails. */
  function DecodeEscape(s: String): (r: Option<(char, nat)>)
    ensures r.Some? ==> 2 <= r.value.1 <= |s|
  {
    if |s| < 2 then None
    else if s[1] == Quote then Some((Quote, 2))
    else if s[1] == Backslash then Some((Backslash, 2))
    else if s[1] == '/' then Some(('/', 2))
    else if s[1] == 'b' then Some(('\U{08}', 2))
    else if s[1] == 'f' then Some(('\U{0C}', 2))
    else if s[1] == 'n' then Some(('\n', 2))
    else if s[1] == 'r' then Some(('\r', 2))
    else if s[1] == 't' then Some(('\t', 2))
    else if s[1] == 'u' && |s| >= 6 && HexNumber(s[2..6]).Some? then
      var high := HexNumber(s[2..6]).value;
      assert Pow16(4) == 0x10000;
      if IsHighSurrogate(high) && |s| >= 12 && s[6] == Backslash && s[7] == 'u'
         && HexNumber(s[8..12]).Some? && IsLowSurrogate(HexNumber(s[8..12]).value)
      then
        var low := HexNumber(s[8..12]).value;
        Some(((0x10000 + (high - 0xD800) * 1024 + (low - 0xDC00)) as char, 12))
      else if IsHighSurrogate(high) || IsLowSurrogate(high) then None
      else Some((high as char, 6))
    else None
  }

  /** The body of a string literal up to its closing quote, and what follows. */
  function DecodeChars(s: String): (r: Option<(String, String)>)
    ensures r.Some? ==> |r.value.1| < |s|
    decreases |s|
  {
    if |s| == 0 then None
    else if s[0] == Quote then Some(([], s[1..]))
    else if s[0] == Backslash then
      match DecodeEscape(s)
      case None => None
      case Some((c, n)) => Prepend(c, DecodeChars(s[n..]))
    else if (s[0] as int) < 0x20 then None
    else Prepend(s[0], DecodeChars(s[1..]))
  }

  function PrependItem(x: String, r: Option<(seq<String>, String)>): Option<(seq<String>, String)> {
    match r
    case Some((xs, rest)) => Some(([x] + xs, rest))
    case None => None
  }

  /** The items of a non-empty array: string, then `,` and more or `]`. */
  function DecodeItems(s: String): Option<(seq<String>, String)>
    decreases |s|
  {
    if |s| == 0 || s[0] != Quote then None
    else match DecodeChars(s[1..])
      case None => None
      case Some((x, rest)) =>
        var after := SkipSpace(rest);
        if |after| == 0 then None
        else if after[0] == ']' then Some(([x], after[1..]))
        else if after[0] == ',' then
          PrependItem(x, DecodeItems(SkipSpace(after[1..])))
        else None
  }

  /** `json.loads(s)` when the document is an array of strings; `None` for
      anything else (the validator then refuses the value). */
  function DecodeList(s: String): Option<seq<String>> {
    var t := SkipSpace(s);
    if |t| == 0 || t[0] != '[' then None
    else
      var u := SkipSpace(t[1..]);
      if |u| > 0 && u[0] == ']' then
        if SkipSpace(u[1..]) == [] then Some([]) else None
      else match DecodeItems(u)
        case Some((xs, rest)) => if SkipSpace(rest) == [] then Some(xs) else None
        case None => None
  }

  // ---------------------------------------------------------------- round trip

  /** The two-character escapes (`\"`, `\\`, `\n`, `\r`, `\t`, `\b`, `\f`). */
  lemma ShortEscapeRoundTrip(c: char, t: String)
    requires c == Quote || c == Backslash || c == '\n' || c == '\r' || c == '\t' || c == '\U{08}' || c == '\U{0C}'
    ensures DecodeChars(EscapeChar(c) + t) == Prepend(c, DecodeChars(t))
  {
    var s := EscapeChar(c) + t;
    assert |EscapeChar(c)| == 2 && s[0] == Backslash;
    assert s[2..] == t;
  }

  /** A printable ASCII character other than the quote and backslash is copied. */
  lemma PlainRoundTrip(c: char, t: String)
    requires ' ' <= c <= '~' && c != Quote && c != Backslash
    ensures DecodeChars(EscapeChar(c) + t) == Prepend(c, DecodeChars(t))
  {
    var s := EscapeChar(c) + t;
    assert EscapeChar(c) == [c];
    assert s[1..] == t;
  }

  /** A `\uXXXX` escape decodes to the code unit it spells, followed by the rest. */
  lemma UnicodeEscapeDecodes(unit: nat, t: String)
    requires unit < 0x10000
    ensures var s := UnicodeEscape(unit) + t;
      |s| >= 6 && s[0] == Backslash && s[1] == 'u' && HexNumber(s[2..6]) == Some(unit) && s[6..] == t
  {
    assert Pow16(4) == 0x10000;
    HexRoundTrip(unit, 4);
    var s := UnicodeEscape(unit) + t;
    assert s[2..6] == HexPad(unit, 4);
  }

  /** A non-ASCII character of the Basic Multilingual Plane: one `\uXXXX`. */
  lemma BmpRoundTrip(c: char, t: String)
    requires !(' ' <= c <= '~') && c != '\n' && c != '\r' && c != '\t' && c != '\U{08}' && c != '\U{0C}'
    requires (c as int) < 0x10000
    ensures DecodeChars(EscapeChar(c) + t) == Prepend(c, DecodeChars(t))
  {
    assert EscapeChar(c) == UnicodeEscape(c as int);
    UnicodeEscapeDecodes(c as int, t);
  }

  /** A character beyond the Basic Multilingual Plane: a surrogate pair. */
  lemma AstralRoundTrip(c: char, t: String)
    requires (c as int) >= 0x10000
    ensures DecodeChars(EscapeChar(c) + t) == Prepend(c, DecodeChars(t))
  {
    var n := c as int - 0x10000;
    var high := 0xD800 + n / 1024;
    var low := 0xDC00 + n % 1024;
    var tail := UnicodeEscape(low) + t;
    assert EscapeChar(c) + t == UnicodeEscape(high) + tail;
    UnicodeEscapeDecodes(high, tail);
    UnicodeEscapeDecodes(low, t);
    var s := UnicodeEscape(high) + tail;
    assert s[8..12] == tail[2..6];
    assert s[12..] == t;
    assert 0x10000 + (high - 0xD800) * 1024 + (low - 0xDC00) == c as int;
  }

  /** One escaped character decodes back to itself, whatever follows. */
  lemma EscapeCharRoundTrip(c: char, t: String)
    ensures DecodeChars(EscapeChar(c) + t) == Prepend(c, DecodeChars(t))
  {
    if c == Quote || c == Backslash || c == '\n' || c == '\r' || c == '\t' || c == '\U{08}' || c == '\U{0C}' {
      ShortEscapeRoundTrip(c, t);
    } else if ' ' <= c <= '~' {
      PlainRoundTrip(c, t);
    } else if (c as int) < 0x10000 {
      BmpRoundTrip(c, t);
    } else {
      AstralRoundTrip(c, t);
    }
  }

  lemma {:induction false} EncodeCharsRoundTrip(x: String, rest: String)
    ensures DecodeChars(EncodeChars(x) + [Quote] + rest) == Some((x, rest))
  {
    if |x| == 0 {
      assert EncodeChars(x) + [Quote] + rest == [Quote] + rest;
    } else {
      var t := EncodeChars(x[1..]) + [Quote] + rest;
      assert EncodeChars(x) + [Quote] + rest == EscapeChar(x[0]) + t;
      EscapeCharRoundTrip(x[0], t);
      EncodeCharsRoundTrip(x[1..], rest);
      assert [x[0]] + x[1..] == x;
    }
  }

  /** The string literal at the head of the items is read back. */
  lemma HeadItem(x: String, after: String)
    ensures var s := EncodeString(x) + after;
      |s| > 0 && s[0] == Quote && DecodeChars(s[1..]) == Some((x, after))
  {
    var s := EncodeString(x) + after;
    assert s[1..] == EncodeChars(x) + [Quote] + after;
    EncodeCharsRoundTrip(x, after);
  }

  lemma LastItemRoundTrip(x: String, rest: String)
    ensures DecodeItems(EncodeString(x) + ("]" + rest)) == Some(([x], rest))
  {
    var after := "]" + rest;
    HeadItem(x, after);
    SkipSpaceStops(after);
    assert after[1..] == rest;
  }

  lemma NextItemRoundTrip(x: String, more: String)
    ensures DecodeItems(EncodeString(x) + (", " + more)) == PrependItem(x, DecodeItems(SkipSpace(" " + more)))
  {
    var after := ", " + more;
    HeadItem(x, after);
    CommaTail(more);
    DecodeItemsComma(EncodeString(x) + after, x, after, " " + more);
  }

  lemma CommaTail(more: String)
    ensures var after := ", " + more; |after| > 0 && after[0] == ',' && after[1..] == " " + more
  {
  }

  /** One step of the item reader over a string literal followed by a comma. */
  lemma DecodeItemsComma(s: String, x: String, after: String, tail: String)
    requires |s| > 0 && s[0] == Quote && DecodeChars(s[1..]) == Some((x, after))
    requires |after| > 0 && after[0] == ',' && after[1..] == tail
    ensures DecodeItems(s) == PrependItem(x, DecodeItems(SkipSpace(tail)))
  {
    SkipSpaceStops(after);
  }

  lemma {:induction false} EncodeItemsRoundTrip(xs: seq<String>, rest: String)
    requires |xs| > 0
    ensures DecodeItems(EncodeItems(xs, "]" + rest)) == Some((xs, rest))
    decreases |xs|
  {
    if |xs| == 1 {
      ItemsBase(xs, rest);
    } else {
      EncodeItemsRoundTrip(xs[1..], rest);
      ItemsStep(xs, rest);
    }
  }

  lemma ItemsBase(xs: seq<String>, rest: String)
    requires |xs| == 1
    ensures DecodeItems(EncodeItems(xs, "]" + rest)) == Some((xs, rest))
  {
    LastItemRoundTrip(xs[0], rest);
    assert xs == [xs[0]];
  }

  /** The inductive step: the items after the first read back give all the items. */
  lemma ItemsStep(xs: seq<String>, rest: String)
    requires |xs| > 1
    requires DecodeItems(EncodeItems(xs[1..], "]" + rest)) == Some((xs[1..], rest))
    ensures DecodeItems(EncodeItems(xs, "]" + rest)) == Some((xs, rest))
  {
    EncodeItemsHead(xs[1..], "]" + rest);
    ConsItem(xs[0], EncodeItems(xs[1..], "]" + rest), xs[1..], rest);
    assert [xs[0]] + xs[1..] == xs;
  }

  /** A string literal, a comma and a space in front of readable items add one item. */
  lemma ConsItem(x: String, more: String, ys: seq<String>, rest: String)
    requires |more| > 0 && more[0] == Quote
    requires DecodeItems(more) == Some((ys, rest))
    ensures DecodeItems(EncodeString(x) + (", " + more)) == Some(([x] + ys, rest))
  {
    NextItemRoundTrip(x, more);
    SkipSpaceSkips(' ', more);
    SkipSpaceStops(more);
  }

  /** The list reader over a document that opens with `[` and a string literal, with
      no whitespace around, and whose items end the text. */
  lemma DecodeListOfItems(s: String, xs: seq<String>)
    requires |s| > 1 && s[0] == '[' && s[1] == Quote
    requires DecodeItems(s[1..]) == Some((xs, []))
    ensures DecodeList(s) == Some(xs)
  {
    SkipSpaceStops(s);
    SkipSpaceStops(s[1..]);
  }

  /** What `json.dumps` writes for a list of strings, `json.loads` reads back. */
  lemma EncodeListRoundTrip(xs: seq<String>)
    ensures DecodeList(EncodeList(xs)) == Some(xs)
  {
    var s := EncodeList(xs);
    if |xs| == 0 {
      SkipSpaceStops(s);
    } else {
      assert "]" + "" == "]";
      var u := EncodeItems(xs, "]" + "");
      assert s[1..] == u;
      EncodeItemsHead(xs, "]" + "");
      EncodeItemsRoundTrip(xs, "");
      DecodeListOfItems(s, xs);
    }
  }

  lemma EncodeItemsHead(xs: seq<String>, close: String)
    requires |xs| > 0
    ensures |EncodeItems(xs, close)| > 0 && EncodeItems(xs, close)[0] == Quote
  {
  }
}

=== FILE: linkedin_crawler.dfy ===
/** The bounded-depth LinkedIn crawler (`get_linkedin_user_2_degree_network` and the
    `process_user_network` it defines). The browser's answers form a `World` fixed for
    the crawl; the crawl threads a `Crawl` state holding the store, the two processed
    sets, the profile URLs whose companies were scraped, the company URLs whose about
    page was scraped, the documents handed to the vector index, and the errors the
    `try` blocks swallowed. */
module LinkedinCrawler {
  import opened Wrappers
  import opened Text
  import opened Seqs
  import opened Dates
  import opened LinkedinStore
  import LinkedinScraper

  // ---------------------------------------------------------------- urls

  const ProfilePrefix: String := "https://www.linkedin.com/in/"

  /** `f"https://www.linkedin.com/in/{username}/"`. */
  function ProfileUrl(username: String): (r: String)
    ensures |r| == |ProfilePrefix| + |username| + 1 && r[|r| - 1] == '/'
  {
    ProfilePrefix + username + "/"
  }

  predicate IsSlash(c: char) {
    c == '/'
  }

  /** `url.split('/in/')[-1].strip('/')`. */
  function UsernameFromProfileUrl(url: String): (r: String)
    ensures |r| == 0 || (r[0] != '/' && r[|r| - 1] != '/')
  {
    var s := TrimStart(SplitLast(url, "/in/"), IsSlash);
    TrimEnd(s, IsSlash)
  }

  /** The last piece after `/in/` of a profile URL is the username and its slash. */
  lemma ProfileUrlLastPiece(username: String)
    requires forall i | 0 <= i < |username| :: username[i] != '/'
    ensures SplitLast(ProfileUrl(username), "/in/") == username + "/"
  {
    var tail := username + "/";
    var head := "https://www.linkedin.com";
    var s := head + "/in/" + tail;
    assert ProfileUrl(username) == s;
    assert forall j | 0 <= j < |head| :: head[j] == '/' ==> j == 6 || j == 7;
    forall j | 0 <= j < |head| ensures !OccursAt(s, "/in/", j) {
      OccursAtEnds(s, "/in/", j);
      assert s[j] == head[j];
      assert j == 6 || j == 7 ==> s[j + 3] == head[j + 3] != '/';
    }
    SplitCons(head, "/in/", tail);
    assert !Contains(tail, "/in/") by {
      ContainsIff(tail, "/in/");
      forall j | 0 <= j < |tail| ensures !OccursAt(tail, "/in/", j) {
        OccursAtEnds(tail, "/in/", j);
        if j < |username| {
          assert tail[j] == username[j];
        }
      }
    }
    SplitWithout(tail, "/in/");
  }

  /** `strip('/')` takes back the slash a slash-free username was given. */
  lemma StripTrailingSlash(username: String)
    requires forall i | 0 <= i < |username| :: username[i] != '/'
    ensures TrimEnd(TrimStart(username + "/", IsSlash), IsSlash) == username
  {
    var tail := username + "/";
    if |username| > 0 {
      assert tail[0] == username[0];
      TrimStartStops(tail, IsSlash);
      assert tail[..|tail| - 1] == username;
      TrimEndOne(tail, IsSlash);
    } else {
      assert TrimStart(tail, IsSlash) == TrimStart(tail[1..], IsSlash) == [];
    }
  }

  lemma TrimStartStops(s: String, strip: char -> bool)
    requires |s| > 0 && !strip(s[0])
    ensures TrimStart(s, strip) == s
  {
  }

  /** Trimming the end takes off exactly one character when only the last is stripped. */
  lemma TrimEndOne(s: String, strip: char -> bool)
    requires |s| > 1 && strip(s[|s| - 1]) && !strip(s[|s| - 2])
    ensures TrimEnd(s, strip) == s[..|s| - 1]
  {
    assert TrimEnd(s[..|s| - 1], strip) == s[..|s| - 1];
  }

  /** A username without slashes survives the trip through its profile URL: the
      re-derived name of an unknown user is the name the crawl was asked for. */
  lemma UsernameFromProfileUrlRoundTrip(username: String)
    requires forall i | 0 <= i < |username| :: username[i] != '/'
    ensures UsernameFromProfileUrl(ProfileUrl(username)) == username
  {
    ProfileUrlLastPiece(username);
    StripTrailingSlash(username);
  }

  /** `[\w-]`. */
  predicate IsSlugChar(c: char) {
    IsWordChar(c) || c == '-'
  }

  /** The end of the run of slug characters starting at `k`. */
  function SlugRunEnd(s: String, k: nat): (j: nat)
    requires k <= |s|
    ensures k <= j <= |s|
    ensures forall i | k <= i < j :: IsSlugChar(s[i])
    ensures j < |s| ==> !IsSlugChar(s[j])
    decreases |s| - k
  {
    if k < |s| && IsSlugChar(s[k]) then SlugRunEnd(s, k + 1) else k
  }

  /** `/company/([\w-]+)/` anchored at `i`. A shorter run than the greedy one is
      followed by a slug character, never by `/`, so backtracking cannot help. */
  function CompanyIdAt(s: String, i: nat): (r: Option<String>)
    ensures r.Some? ==> |r.value| > 0 && forall c | c in r.value :: IsSlugChar(c)
  {
    if !OccursAt(s, "/company/", i) then None
    else
      var j := SlugRunEnd(s, i + 9);
      if j == i + 9 || j == |s| || s[j] != '/' then None else Some(s[i + 9..j])
  }

  /** `re.search(r'/company/([\w-]+)/', url).group(1)`: the leftmost match's group;
      `None` where `.group` would raise `AttributeError`. */
  function CompanyId(s: String, from: nat): (r: Option<String>)
    ensures r.Some? ==> |r.value| > 0 && forall c | c in r.value :: IsSlugChar(c)
    decreases |s| - from
  {
    if from >= |s| then None
    else if CompanyIdAt(s, from).Some? then CompanyIdAt(s, from)
    else CompanyId(s, from + 1)
  }

  /** A company URL yields its slug when the text before `/company/` holds no
      earlier `/company/`. */
  lemma CompanyIdOfUrl(base: String, slug: String, rest: String)
    requires !Contains(base + "/company", "/company/")
    requires |slug| > 0 && forall i | 0 <= i < |slug| :: IsSlugChar(slug[i])
    ensures CompanyId(base + "/company/" + slug + "/" + rest, 0) == Some(slug)
  {
    var s := base + "/company/" + slug + "/" + rest;
    var p := |base|;
    ContainsIff(base + "/company", "/company/");
    assert s[..p + 8] == base + "/company";
    forall i | 0 <= i < p ensures CompanyIdAt(s, i).None? {
      assert s[i..i + 9] == (base + "/company")[i..i + 9];
      assert !OccursAt(base + "/company", "/company/", i);
    }
    assert OccursAt(s, "/company/", p);
    assert forall i | p + 9 <= i < p + 9 + |slug| :: s[i] == slug[i - p - 9];
    assert s[p + 9 + |slug|] == '/';
    assert SlugRunEnd(s, p + 9) == p + 9 + |slug|;
    assert s[p + 9..p + 9 + |slug|] == slug;
    assert CompanyIdAt(s, p) == Some(slug);
    CompanyIdSkips(s, 0, p);
  }

  lemma {:induction false} CompanyIdSkips(s: String, from: nat, p: nat)
    requires from <= p < |s|
    requires forall i | from <= i < p :: CompanyIdAt(s, i).None?
    ensures CompanyId(s, from) == CompanyId(s, p)
    decreases p - from
  {
    if from < p {
      CompanyIdSkips(s, from + 1, p);
    }
  }

  // ---------------------------------------------------------------- the world

  /** The keys `scrape_company_info` may fill; `None` is a missing key. A page
      that fails to load gives the empty dictionary. */
  datatype CompanyDetails = CompanyDetails(
    name: Option<String>,
    logoUrl: Option<String>,
    description: Option<String>,
    website: Option<String>,
    companySize: Option<String>,
    industry: Option<String>,
    headquarters: Option<String>,
    specialties: Option<String>)

  /** `not company_details`. */
  predicate IsEmpty(d: CompanyDetails) {
    d == CompanyDetails(None, None, None, None, None, None, None, None)
  }

  function FieldOf(x: Option<String>): (r: Field<Option<String>>)
    ensures r.Set? <==> x.Some?
    ensures r.Set? ==> r.value == x
  {
    if x.Some? then Set(x) else Unset
  }

  /** `LinkedinOrganizationSchema(**company_details, linkedin_id=...)`: each key present
      is set; `logo_url` is not a schema field and is dropped, so the logo and the
      filters stay unset. */
  function OrgSchemaOf(d: CompanyDetails, id: String): (s: LinkedinOrgSchema)
    ensures s.linkedinId == id && s.logo.Unset? && s.filters.Unset?
    ensures s.name == FieldOf(d.name) && s.description == FieldOf(d.description)
    ensures s.website == FieldOf(d.website) && s.industry == FieldOf(d.industry)
    ensures s.companySize == FieldOf(d.companySize) && s.headquarters == FieldOf(d.headquarters)
    ensures s.specialties == FieldOf(d.specialties)
  {
    LinkedinOrgSchema(id, FieldOf(d.name), FieldOf(d.description), FieldOf(d.website), FieldOf(d.industry),
      FieldOf(d.companySize), FieldOf(d.headquarters), FieldOf(d.specialties), Unset, Unset)
  }

  /** The person schema of the people loop: the card's fields, and an explicit `None`
      for email and websites. */
  function PersonSchema(p: LinkedinScraper.Person): (s: LinkedinUserSchema)
    ensures s.username == p.linkedinId
    ensures s.name == Set(Some(p.name)) && s.header == Set(Some(p.header))
    ensures s.profilePicture == Set(p.profilePicture)
    ensures s.email == Set(None) && s.externalWebsites == Set(None)
  {
    LinkedinUserSchema(p.linkedinId, Set(Some(p.name)), Set(Some(p.header)), Set(p.profilePicture), Set(None), Set(None))
  }

  /** What the browser answers during one crawl, by URL: the experience and the
      education links of a profile, a company's about page, and its people. */
  datatype World = World(
    companies: String -> (seq<LinkedinScraper.CompanyLink>, seq<LinkedinScraper.CompanyLink>),
    companyInfo: String -> CompanyDetails,
    people: String -> seq<LinkedinScraper.Person>)

  datatype Crawl = Crawl(
    db: LinkedinDb,
    processedUsers: set<String>,
    processedOrgs: set<String>,
    expanded: seq<String>,
    scraped: seq<String>,
    documents: seq<(String, String)>,
    errors: seq<Error>)

  /** Nothing the crawl records is ever dropped. */
  predicate Grows(a: Crawl, b: Crawl) {
    && a.processedUsers <= b.processedUsers
    && a.processedOrgs <= b.processedOrgs
    && a.db.users.Keys <= b.db.users.Keys
    && a.db.orgs.Keys <= b.db.orgs.Keys
    && a.db.memberships.Keys <= b.db.memberships.Keys
    && a.expanded <= b.expanded
    && a.scraped <= b.scraped
    && a.documents <= b.documents
    && a.errors <= b.errors
  }

  /** Each company page scraped is marked processed, and none is scraped twice. */
  predicate ScrapedOnce(st: Crawl) {
    NoDup(st.scraped) && Elems(st.scraped) == st.processedOrgs
  }

  /** A date `parse_date_range` produced, passed on as a `datetime` value. */
  function DateArgOf(d: Option<DateTime>): (r: DateArg)
    requires d.Some? ==> Valid(d.value)
    ensures r.NoDate? <==> d.None?
  {
    if d.Some? then DateTimeValue(d.value) else NoDate
  }

  // ---------------------------------------------------------------- store steps

  lemma OrganizationUpsertKeepsWellFormed(db: LinkedinDb, s: LinkedinOrgSchema)
    ensures WellFormed(db) && CreateLinkedinOrganization(db, s).1.Ok? ==> WellFormed(CreateLinkedinOrganization(db, s).1.value.0)
    ensures WellFormed(db) ==> WellFormed(UpdateLinkedinOrganization(db, s).0)
  {
    if WellFormed(db) {
      OrganizationOperationsPreserveWellFormed(db, s);
    }
  }

  lemma UserUpsertKeepsWellFormed(db: LinkedinDb, s: LinkedinUserSchema)
    ensures WellFormed(db) && CreateLinkedinUser(db, s).Ok? ==> WellFormed(CreateLinkedinUser(db, s).value.0)
    ensures WellFormed(db) ==> WellFormed(UpdateLinkedinUser(db, s).0)
  {
    if WellFormed(db) {
      CreateLinkedinUserPreservesWellFormed(db, s);
      UpdateLinkedinUserPreservesWellFormed(db, s);
    }
  }

  lemma MembershipKeepsWellFormed(db: LinkedinDb, id: String, username: String, role: Option<String>, start: DateArg, end: DateArg)
    ensures WellFormed(db) ==> WellFormed(AddUserToOrganization(db, id, username, role, start, end).0)
  {
    if WellFormed(db) {
      AddUserToOrganizationPreservesWellFormed(db, id, username, role, start, end);
    }
  }

  /** The organization upsert: create when absent (handing its document to the vector
      index), update otherwise. */
  function UpsertOrganization(db: LinkedinDb, s: LinkedinOrgSchema): (r: (LinkedinDb, Option<String>))
    ensures s.linkedinId in r.0.orgs
    ensures r.0.users == db.users && r.0.memberships == db.memberships
    ensures r.0.orgs.Keys == db.orgs.Keys + {s.linkedinId}
    ensures r.1.Some? <==> s.linkedinId !in db.orgs
    ensures r.1.Some? ==> r.1.value == ChromaDocument(s)
    ensures WellFormed(db) ==> WellFormed(r.0)
  {
    OrganizationUpsertKeepsWellFormed(db, s);
    if s.linkedinId !in db.orgs then
      var (document, created) := CreateLinkedinOrganization(db, s);
      (created.value.0, Some(document))
    else (UpdateLinkedinOrganization(db, s).0, None)
  }

  /** The person upsert and its membership (no role, no dates). */
  function StorePerson(db: LinkedinDb, orgId: String, p: LinkedinScraper.Person): (r: (LinkedinDb, Option<Error>))
    ensures r.0.orgs == db.orgs && db.users.Keys <= r.0.users.Keys
    ensures db.memberships.Keys <= r.0.memberships.Keys
    ensures r.1.None? ==> p.linkedinId in r.0.users
    ensures forall u | u in db.users && u != p.linkedinId :: r.0.users[u] == db.users[u]
    ensures WellFormed(db) ==> WellFormed(r.0)
  {
    var schema := PersonSchema(p);
    match GetLinkedinUser(db, p.linkedinId)
    case Err(e) => (db, Some(e))
    case Ok(found) =>
      UserUpsertKeepsWellFormed(db, schema);
      var (db1, name) :=
        if found.None? then (CreateLinkedinUser(db, schema).value.0, p.linkedinId)
        else (UpdateLinkedinUser(db, schema).0, found.value.username);
      MembershipKeepsWellFormed(db1, orgId, name, None, NoDate, NoDate);
      var (db2, res) := AddUserToOrganization(db1, orgId, name, None, NoDate, NoDate);
      if res.Err? then (db2, Some(res.error)) else (db2, None)
  }

  // ---------------------------------------------------------------- the crawl

  /** The user lookup at the top of `process_user_network`: the store after it, the
      stored user's username, and the (possibly re-derived) local name. An unknown
      user is created under the name taken back out of its profile URL. */
  function SeedUser(db: LinkedinDb, username: String): (r: Result<(LinkedinDb, String, String)>)
    ensures r.Ok? && username !in db.users ==> r.value.1 in r.value.0.users
    ensures r.Ok? && username in db.users ==> r.value.1 == db.users[username].username
    ensures r.Ok? ==> r.value.0.orgs == db.orgs && db.users.Keys <= r.value.0.users.Keys
    ensures r.Ok? && username in db.users ==> r.value.0 == db && r.value.2 == username
    ensures r.Ok? && username !in db.users ==> r.value.2 == UsernameFromProfileUrl(ProfileUrl(username))
    ensures WellFormed(db) && r.Ok? ==> WellFormed(r.value.0)
  {
    match GetLinkedinUser(db, username)
    case Err(e) => Err(e)
    case Ok(None) =>
      var name := UsernameFromProfileUrl(ProfileUrl(username));
      UserUpsertKeepsWellFormed(db, LinkedinStore.UsernameOnly(name));
      (match CreateLinkedinUser(db, LinkedinStore.UsernameOnly(name))
       case Err(e) => Err(e)
       case Ok((db1, row)) => Ok((db1, row.username, name)))
    case Ok(Some(v)) => Ok((db, v.username, username))
  }

  /** `process_user_network(username, depth)`: stops past depth 2 or at a processed
      user; otherwise reads the user, creates it under the name re-derived from its
      profile URL when it is missing, and walks its experience then education links.
      Only users whose membership write went through are marked processed. */
  function Process(w: World, st: Crawl, username: String, depth: nat): (r: Crawl)
    ensures depth > 2 || username in st.processedUsers ==> r == st
    ensures Grows(st, r)
    ensures depth >= 1 ==> r.expanded == st.expanded || r.expanded == st.expanded + [ProfileUrl(username)]
    ensures ScrapedOnce(st) ==> ScrapedOnce(r)
    ensures WellFormed(st.db) ==> WellFormed(r.db)
    decreases 3 - depth, 3, 0
  {
    if depth > 2 || username in st.processedUsers then st
    else
      var url := ProfileUrl(username);
      match SeedUser(st.db, username)
      case Err(e) => st.(errors := st.errors + [e])
      case Ok((db1, key, name)) =>
        var links := w.companies(url).0 + w.companies(url).1;
        Orgs(w, st.(db := db1, expanded := st.expanded + [url]), key, name, links, depth)
  }

  /** The loop over the user's company links. `key` is the stored user's username and
      `name` the local `username` the loop marks processed. */
  function Orgs(w: World, st: Crawl, key: String, name: String, links: seq<LinkedinScraper.CompanyLink>, depth: nat)
    : (r: Crawl)
    requires depth <= 2
    ensures Grows(st, r)
    ensures depth >= 1 ==> r.expanded == st.expanded
    ensures forall i | 0 <= i < |links| :: links[i].url in r.processedOrgs
    ensures ScrapedOnce(st) ==> ScrapedOnce(r)
    ensures WellFormed(st.db) ==> WellFormed(r.db)
    decreases 3 - depth, 2, |links|
  {
    if |links| == 0 then st
    else
      var st1 := Org(w, st, key, name, links[0], depth);
      Orgs(w, st1, key, name, links[1..], depth)
  }

  /** One company link up to its people: marked and its about page scraped; an empty
      page ends it; a URL without a company slug raises `AttributeError`; the
      organization is upserted; a range with three parts raises `ValueError`; the
      user's membership is written (a `datetime` date raises `TypeError`); only then
      is the user marked processed, and the company id says the people come next. */
  function OrgPrelude(w: World, st: Crawl, key: String, name: String, link: LinkedinScraper.CompanyLink)
    : (r: (Crawl, Option<String>))
    requires link.url !in st.processedOrgs
    ensures Grows(st, r.0)
    ensures r.0.processedOrgs == st.processedOrgs + {link.url} && r.0.scraped == st.scraped + [link.url]
    ensures r.0.processedUsers <= st.processedUsers + {name}
    ensures r.1.Some? ==> name in r.0.processedUsers
    ensures r.1.None? ==> r.0.processedUsers == st.processedUsers
    ensures IsEmpty(w.companyInfo(link.url)) || CompanyId(link.url, 0).None? ==> r.1.None? && r.0.db == st.db
    ensures r.1.Some? ==> r.1 == CompanyId(link.url, 0)
    ensures !IsEmpty(w.companyInfo(link.url)) && CompanyId(link.url, 0).Some? ==>
      var id := CompanyId(link.url, 0).value;
      (r.1.Some? <==> MembershipGoesThrough(UpsertOrganization(st.db, OrgSchemaOf(w.companyInfo(link.url), id)).0, id, key, link))
    ensures r.0.expanded == st.expanded
    ensures WellFormed(st.db) ==> WellFormed(r.0.db)
  {
    var st0 := st.(processedOrgs := st.processedOrgs + {link.url}, scraped := st.scraped + [link.url]);
    var details := w.companyInfo(link.url);
    if IsEmpty(details) then (st0, None)
    else
      match CompanyId(link.url, 0)
      case None => (st0.(errors := st0.errors + [AttributeError]), None)
      case Some(id) =>
        var (db1, document) := UpsertOrganization(st0.db, OrgSchemaOf(details, id));
        var st1 := st0.(db := db1, documents := if document.Some? then st0.documents + [(id, document.value)] else st0.documents);
        OrgMembership(st1, id, key, name, link)
  }

  /** The membership write of one company link goes through: the date range parses
      and `add_user_to_organization` returns without raising. */
  predicate MembershipGoesThrough(db: LinkedinDb, id: String, key: String, link: LinkedinScraper.CompanyLink) {
    && ParseDateRange(link.dateRange).Ok?
    && var range := ParseDateRange(link.dateRange).value;
       AddUserToOrganization(db, id, key, Some(link.roleOrDegree), DateArgOf(range.start), DateArgOf(range.end)).1.Ok?
  }

  /** The tail of the prelude once the organization is stored: the date range is
      parsed, the membership written and the user marked processed. */
  function OrgMembership(st: Crawl, id: String, key: String, name: String, link: LinkedinScraper.CompanyLink)
    : (r: (Crawl, Option<String>))
    ensures Grows(st, r.0)
    ensures r.0.processedOrgs == st.processedOrgs && r.0.scraped == st.scraped
    ensures r.0.processedUsers <= st.processedUsers + {name}
    ensures r.1.Some? ==> name in r.0.processedUsers
    ensures r.1.None? ==> r.0.processedUsers == st.processedUsers
    ensures r.1.Some? <==> MembershipGoesThrough(st.db, id, key, link)
    ensures r.1.Some? ==> r.1 == Some(id)
    ensures r.0.expanded == st.expanded
    ensures WellFormed(st.db) ==> WellFormed(r.0.db)
  {
    match ParseDateRange(link.dateRange)
    case Err(e) => (st.(errors := st.errors + [e]), None)
    case Ok(range) =>
      var start, end := DateArgOf(range.start), DateArgOf(range.end);
      MembershipKeepsWellFormed(st.db, id, key, Some(link.roleOrDegree), start, end);
      var (db2, res) := AddUserToOrganization(st.db, id, key, Some(link.roleOrDegree), start, end);
      if res.Err? then (st.(db := db2, errors := st.errors + [res.error]), None)
      else (st.(db := db2, processedUsers := st.processedUsers + {name}), Some(id))
  }

  /** One company link: skipped when processed; otherwise its prelude, then the walk
      over the company's people when the membership write went through. */
  function Org(w: World, st: Crawl, key: String, name: String, link: LinkedinScraper.CompanyLink, depth: nat): (r: Crawl)
    requires depth <= 2
    ensures Grows(st, r)
    ensures depth >= 1 ==> r.expanded == st.expanded
    ensures link.url in r.processedOrgs
    ensures link.url in st.processedOrgs ==> r == st
    ensures ScrapedOnce(st) ==> ScrapedOnce(r)
    ensures WellFormed(st.db) ==> WellFormed(r.db)
    decreases 3 - depth, 1, 1
  {
    if link.url in st.processedOrgs then st
    else
      var pre := OrgPrelude(w, st, key, name, link);
      assert Grows(st, pre.0) && link.url in pre.0.processedOrgs;
      assert ScrapedOnce(st) ==> ScrapedOnce(pre.0);
      if pre.1.None? then pre.0 else OrgPeople(w, pre.0, pre.1.value, link.url, depth)
  }

  /** The people walk of a company whose membership write went through. */
  function OrgPeople(w: World, st: Crawl, orgId: String, url: String, depth: nat): (r: Crawl)
    requires depth <= 2
    ensures Grows(st, r)
    ensures depth >= 1 ==> r.expanded == st.expanded
    ensures ScrapedOnce(st) ==> ScrapedOnce(r)
    ensures WellFormed(st.db) ==> WellFormed(r.db)
    decreases 3 - depth, 1, 0
  {
    People(w, st, orgId, w.people(url), depth)
  }

  /** The loop over a company's people: each person is handled in turn by `Person`;
      a fresh person at the head of the list ends up stored and linked to the company. */
  function People(w: World, st: Crawl, orgId: String, people: seq<LinkedinScraper.Person>, depth: nat): (r: Crawl)
    requires depth <= 2
    ensures Grows(st, r)
    ensures ScrapedOnce(st) ==> ScrapedOnce(r)
    ensures WellFormed(st.db) ==> WellFormed(r.db)
    ensures depth >= 1 ==> r.expanded == st.expanded
    ensures |people| > 0 && people[0].linkedinId !in st.processedUsers && people[0].linkedinId !in st.db.users
         && WellFormed(st.db) && orgId in st.db.orgs
         ==> people[0].linkedinId in r.db.users && (people[0].linkedinId, orgId) in r.db.memberships
    decreases 3 - depth, 0, |people|
  {
    if |people| == 0 then st
    else People(w, Person(w, st, orgId, people[0], depth), orgId, people[1..], depth)
  }

  /** One person card of the loop: skipped when processed; otherwise upserted with the
      card's fields and linked without role or dates, and at depth 0 the person's own
      network is then crawled. A failure is logged and the loop goes on. */
  function Person(w: World, st: Crawl, orgId: String, p: LinkedinScraper.Person, depth: nat): (r: Crawl)
    requires depth <= 2
    ensures Grows(st, r)
    ensures ScrapedOnce(st) ==> ScrapedOnce(r)
    ensures WellFormed(st.db) ==> WellFormed(r.db)
    ensures depth >= 1 ==> r.expanded == st.expanded
    ensures p.linkedinId in st.processedUsers ==> r == st
    ensures p.linkedinId !in st.processedUsers && p.linkedinId !in st.db.users && WellFormed(st.db) && orgId in st.db.orgs
         ==> p.linkedinId in r.db.users && (p.linkedinId, orgId) in r.db.memberships
    decreases 3 - depth, 0, 0
  {
    if p.linkedinId in st.processedUsers then st
    else
      var (db1, err) := StorePerson(st.db, orgId, p);
      if err.Some? then st.(db := db1, errors := st.errors + [err.value])
      else if depth < 1 then Process(w, st.(db := db1), p.linkedinId, depth + 1)
      else st.(db := db1)
  }

  /** `get_linkedin_user_2_degree_network`: the crawl from the logged-in user's profile
      URL, or nothing when there is none. */
  function Crawl2Degree(w: World, db: LinkedinDb, profileUrl: Option<String>): (r: Crawl)
    ensures ScrapedOnce(r)
    ensures WellFormed(db) ==> WellFormed(r.db)
    ensures profileUrl.None? ==> r.db == db && r.expanded == []
  {
    var start := Crawl(db, {}, {}, [], [], [], []);
    EmptyCrawlScrapedOnce(start);
    if profileUrl.None? then start
    else Process(w, start, UsernameFromProfileUrl(profileUrl.value), 0)
  }

  lemma EmptyCrawlScrapedOnce(st: Crawl)
    requires st.scraped == [] && st.processedOrgs == {}
    ensures ScrapedOnce(st)
  {
    assert Elems(st.scraped) == {};
  }

  // ---------------------------------------------------------------- properties

  /** The crawl is two levels deep: a user reached at depth 1 has its own companies
      scraped, but the people met there are stored without being expanded. */
  lemma DepthOneExpandsOnlyItself(w: World, st: Crawl, username: String)
    ensures var r := Process(w, st, username, 1);
      r.expanded == st.expanded || r.expanded == st.expanded + [ProfileUrl(username)]
  {
  }

  /** An unknown slash-free username is created under that very name. */
  lemma SeedUserCreatesUnknown(db: LinkedinDb, username: String)
    requires username !in db.users
    requires forall i | 0 <= i < |username| :: username[i] != '/'
    ensures SeedUser(db, username).Ok?
    ensures var (db', key, name) := SeedUser(db, username).value;
      && key == username && name == username && username in db'.users
      && db'.users[username] == NewUserRow(LinkedinStore.UsernameOnly(username))
  {
    UsernameFromProfileUrlRoundTrip(username);
  }

  /** A company whose date range yields a start date never gets its people walked:
      the start arrives as a `datetime`, `add_user_to_organization` raises `TypeError`
      on it, and the user is not marked processed. */
  lemma DatedMembershipSkipsPeople(w: World, st: Crawl, key: String, name: String, link: LinkedinScraper.CompanyLink, depth: nat)
    requires depth <= 2 && WellFormed(st.db) && key in st.db.users
    requires link.url !in st.processedOrgs && !IsEmpty(w.companyInfo(link.url))
    requires CompanyId(link.url, 0).Some?
    requires ParseDateRange(link.dateRange).Ok? && ParseDateRange(link.dateRange).value.start.Some?
    ensures var pre := OrgPrelude(w, st, key, name, link);
      && pre.1.None?
      && pre.0.processedUsers == st.processedUsers
      && pre.0.errors == st.errors + [TypeError]
      && Org(w, st, key, name, link, depth) == pre.0
  {
    var id := CompanyId(link.url, 0).value;
    var schema := OrgSchemaOf(w.companyInfo(link.url), id);
    var (db1, document) := UpsertOrganization(st.db, schema);
    assert id in db1.orgs && key in db1.users;
    assert WellFormed(db1);
    var st0 := st.(processedOrgs := st.processedOrgs + {link.url}, scraped := st.scraped + [link.url]);
    var st1 := st0.(db := db1, documents := if document.Some? then st0.documents + [(id, document.value)] else st0.documents);
    DatedMembershipFails(st1, id, key, name, link);
  }

  /** The membership write of a dated link fails with `TypeError`. */
  lemma DatedMembershipFails(st: Crawl, id: String, key: String, name: String, link: LinkedinScraper.CompanyLink)
    requires WellFormed(st.db) && id in st.db.orgs && key in st.db.users
    requires ParseDateRange(link.dateRange).Ok? && ParseDateRange(link.dateRange).value.start.Some?
    ensures var r := OrgMembership(st, id, key, name, link);
      r.1.None? && r.0.processedUsers == st.processedUsers && r.0.errors == st.errors + [TypeError]
  {
    var range := ParseDateRange(link.dateRange).value;
    AddUserToOrganizationDateTimeStart(st.db, id, key, Some(link.roleOrDegree), range.start.value, DateArgOf(range.end));
  }

  /** The people loop rewrites a stored person from the card and erases the email and
      website list the person had. */
  lemma StorePersonErasesContact(db: LinkedinDb, orgId: String, p: LinkedinScraper.Person)
    requires WellFormed(db) && p.linkedinId in db.users
    ensures var row := StorePerson(db, orgId, p).0.users[p.linkedinId];
      && row.name == Some(p.name) && row.header == Some(p.header)
      && row.profilePicture == p.profilePicture
      && row.email == None && row.externalWebsites == None
  {
    WellFormedUserReads(db, p.linkedinId);
  }

  /** A fresh person is created from the card and, when the organization exists, linked
      to it with no role and no dates. */
  lemma StorePersonCreatesAndLinks(db: LinkedinDb, orgId: String, p: LinkedinScraper.Person)
    requires WellFormed(db) && p.linkedinId !in db.users && orgId in db.orgs
    ensures var (db', err) := StorePerson(db, orgId, p);
      && err.None?
      && db'.users[p.linkedinId] == NewUserRow(PersonSchema(p))
      && db'.memberships[(p.linkedinId, orgId)] == Membership(None, None, None)
  {
    var db1 := CreateLinkedinUser(db, PersonSchema(p)).value.0;
    CreateLinkedinUserPreservesWellFormed(db, PersonSchema(p));
    AddUserToOrganizationWrites(db1, orgId, p.linkedinId, None, NoDate, NoDate);
  }
}

=== FILE: linkedin_scraper.dfy ===
/** The pure post-processing of the LinkedIn scraper (`backend/app/utils/linkedin_scraper.py`).
    Everything the browser yields (an element's `href`, `src` or text, a page height,
    the current URL, whether a click went through) is an input; a missing element is `None`. */
module LinkedinScraper {
  import opened Wrappers
  import opened Text
  import opened Seqs

  // ---------------------------------------------------------------------------
  // Person cards (`_extract_person_info`)
  // ---------------------------------------------------------------------------

  /** What a profile card on a company's people page offers: the profile link's `href`,
      the title and subtitle texts, and the picture element with its `src` attribute;
      `None` when the element is absent. A present picture element without `src` is
      `Some(None)`, as `get_attribute` returns `None` for it. A link without `href` is
      `None` as well: the `split` on it raises just as a missing element does. */
  datatype CardDom = CardDom(href: Option<String>, title: Option<String>, subtitle: Option<String>, image: Option<Option<String>>)

  datatype Person = Person(linkedinId: String, name: String, header: String, profilePicture: Option<String>)

  /** `href.split('/')[-1].split('?')[0]`. */
  function PersonId(href: String): (r: String)
    ensures !Contains(r, "/") && !Contains(r, "?")
  {
    var last := SplitLast(href, "/");
    SplitFirstIsPrefix(last, "?");
    PrefixKeepsAbsence(last, Split(last, "?")[0], "/");
    Split(last, "?")[0]
  }

  /** A profile link `.../<id>?<query>` yields `<id>`. */
  lemma PersonIdOfProfileLink(prefix: String, id: String, query: String)
    requires !Contains(id, "/") && !Contains(id, "?") && !Contains(query, "/")
    ensures PersonId(prefix + "/" + id + "?" + query) == id
  {
    NoSuchChar("?", "/");
    NoSepConcat(id, "?", "/");
    NoSepConcat(id + "?", query, "/");
    assert prefix + "/" + id + "?" + query == prefix + "/" + (id + "?" + query);
    SplitLastAfterSep(prefix, "/", id + "?" + query);
    FirstPieceBeforeSep(id, "?", query);
  }

  /** A profile link `.../<id>` without a query yields `<id>`. */
  lemma PersonIdOfPlainLink(prefix: String, id: String)
    requires !Contains(id, "/") && !Contains(id, "?")
    ensures PersonId(prefix + "/" + id) == id
  {
    SplitLastAfterSep(prefix, "/", id);
    SplitWithout(id, "?");
  }

  /** A card's person, or `None` when any element lookup (or the `split` of the link) raised. */
  function ExtractPersonInfo(card: CardDom): Option<Person> {
    if card.href.None? || card.title.None? || card.subtitle.None? || card.image.None? then None
    else Some(Person(PersonId(card.href.value), Strip(card.title.value), Strip(card.subtitle.value), card.image.value))
  }

  /** A card yields a person exactly when all four elements are present; the id is the
      link's last segment, the texts are stripped and the picture's `src` is copied,
      `None` when the picture element has no `src`. */
  lemma ExtractPersonInfoFields(card: CardDom)
    ensures var r := ExtractPersonInfo(card);
      && (r.Some? <==> card.href.Some? && card.title.Some? && card.subtitle.Some? && card.image.Some?)
      && (r.Some? ==> r.value.linkedinId == PersonId(card.href.value) && !Contains(r.value.linkedinId, "/"))
      && (r.Some? ==> r.value.name == Strip(card.title.value) && r.value.header == Strip(card.subtitle.value))
      && (r.Some? ==> r.value.profilePicture == card.image.value)
  {
  }

  // ---------------------------------------------------------------------------
  // Company people (`scrape_company_people`)
  // ---------------------------------------------------------------------------

  /** The page the scraper opens: the URL itself when it mentions `people`. */
  function PeopleUrl(url: String): (r: String)
    ensures Contains(r, "people")
    ensures Contains(url, "people") ==> r == url
    ensures !Contains(url, "people") ==> r == url + "people/"
  {
    if Contains(url, "people") then url
    else
      var r := url + "people/";
      assert OccursAt(r, "people", |url|);
      r
  }

  /** The ids of the people collected so far, in order. */
  function Ids(people: seq<Person>): (r: seq<String>)
    ensures |r| == |people| && forall i | 0 <= i < |people| :: r[i] == people[i].linkedinId
  {
    seq(|people|, i requires 0 <= i < |people| => people[i].linkedinId)
  }

  /** What each card of a pass yields. */
  function CardInfos(cards: seq<CardDom>): (r: seq<Option<Person>>)
    ensures |r| == |cards| && forall i | 0 <= i < |cards| :: r[i] == ExtractPersonInfo(cards[i])
  {
    seq(|cards|, i requires 0 <= i < |cards| => ExtractPersonInfo(cards[i]))
  }

  /** One scroll pass: the people whose id was absent *before* the pass, in page order. */
  function NewPeople(people: seq<Person>, infos: seq<Option<Person>>): (r: seq<Person>)
    ensures |r| <= |infos|
  {
    if |infos| == 0 then []
    else
      var rest := NewPeople(people, infos[1..]);
      match infos[0]
      case None => rest
      case Some(p) => if p.linkedinId in Ids(people) then rest else [p] + rest
  }

  /** A person is appended exactly when some card of the pass yields it and its id was
      not collected before the pass. */
  lemma {:induction false} NewPeopleMembers(people: seq<Person>, infos: seq<Option<Person>>, p: Person)
    ensures p in NewPeople(people, infos) <==> p.linkedinId !in Ids(people) && Some(p) in infos
    decreases |infos|
  {
    if |infos| > 0 {
      NewPeopleMembers(people, infos[1..], p);
      assert infos == [infos[0]] + infos[1..];
    }
  }

  /** One scroll pass: what each card on the page yields after scrolling
      (`CardInfos` of the cards), and the page height then. */
  datatype ScrollPass = ScrollPass(infos: seq<Option<Person>>, height: int)

  /** The scroll loop over the passes the browser will produce. It stops after the first
      pass whose height equals the previous one; `None` when the given passes run out first. */
  function ScrollPeople(people: seq<Person>, lastHeight: int, passes: seq<ScrollPass>): (r: Option<seq<Person>>)
    ensures r.Some? ==> people <= r.value
    decreases |passes|
  {
    if |passes| == 0 then None
    else
      var grown := people + NewPeople(people, passes[0].infos);
      if passes[0].height == lastHeight then Some(grown)
      else ScrollPeople(grown, passes[0].height, passes[1..])
  }

  /** The height pass `k` is compared with. */
  function PreviousHeight(lastHeight: int, passes: seq<ScrollPass>, k: nat): int
    requires k < |passes|
  {
    if k == 0 then lastHeight else passes[k - 1].height
  }

  predicate Stable(lastHeight: int, passes: seq<ScrollPass>, k: nat)
    requires k < |passes|
  {
    passes[k].height == PreviousHeight(lastHeight, passes, k)
  }

  /** The loop ends within the given passes exactly when one of them leaves the height unchanged. */
  lemma {:induction false} ScrollPeopleStopsIffStable(people: seq<Person>, lastHeight: int, passes: seq<ScrollPass>)
    ensures ScrollPeople(people, lastHeight, passes).Some? <==> exists k: nat | k < |passes| :: Stable(lastHeight, passes, k)
    decreases |passes|
  {
    if |passes| > 0 && passes[0].height != lastHeight {
      var grown := people + NewPeople(people, passes[0].infos);
      ScrollPeopleStopsIffStable(grown, passes[0].height, passes[1..]);
      forall k: nat | 0 < k < |passes|
        ensures Stable(lastHeight, passes, k) <==> Stable(passes[0].height, passes[1..], k - 1)
      {
      }
      if ScrollPeople(people, lastHeight, passes).Some? {
        var k: nat :| k < |passes[1..]| && Stable(passes[0].height, passes[1..], k);
        assert Stable(lastHeight, passes, k + 1);
      }
    } else if |passes| > 0 {
      assert Stable(lastHeight, passes, 0);
    }
  }

  /** Once the loop has stopped, whatever the browser would have shown afterwards is
      never looked at. */
  lemma {:induction false} ScrollPeopleIgnoresLaterPasses(people: seq<Person>, lastHeight: int, passes: seq<ScrollPass>, later: seq<ScrollPass>)
    requires ScrollPeople(people, lastHeight, passes).Some?
    ensures ScrollPeople(people, lastHeight, passes + later) == ScrollPeople(people, lastHeight, passes)
    decreases |passes|
  {
    var all := passes + later;
    assert all[0] == passes[0];
    if passes[0].height != lastHeight {
      var grown := people + NewPeople(people, passes[0].infos);
      ScrollPeopleIgnoresLaterPasses(grown, passes[0].height, passes[1..], later);
      assert all[1..] == passes[1..] + later;
    }
  }

  /** The ids collected stay distinct when no pass shows the same new person on two cards. */
  predicate PassIdsDistinct(people: seq<Person>, infos: seq<Option<Person>>) {
    NoDup(Ids(NewPeople(people, infos)))
  }

  /** Appending a pass keeps the ids distinct when that pass's new people are themselves distinct. */
  lemma NewPeopleKeepsIdsDistinct(people: seq<Person>, infos: seq<Option<Person>>)
    requires NoDup(Ids(people)) && PassIdsDistinct(people, infos)
    ensures NoDup(Ids(people + NewPeople(people, infos)))
  {
    var added := NewPeople(people, infos);
    var all := people + added;
    forall i, j | 0 <= i < j < |all| ensures all[i].linkedinId != all[j].linkedinId {
      if j >= |people| && i < |people| {
        assert all[j] in added;
        NewPeopleMembers(people, infos, all[j]);
        assert Ids(people)[i] == all[i].linkedinId;
      } else if i >= |people| {
        assert Ids(added)[i - |people|] != Ids(added)[j - |people|];
      } else {
        assert Ids(people)[i] != Ids(people)[j];
      }
    }
  }

  // ---------------------------------------------------------------------------
  // Contact info (`scrape_person_contact_info`)
  // ---------------------------------------------------------------------------

  /** The contact modal: the `mailto:` link's `href` if present and the website links'
      `href`s (an `<a>` without one yields `None`). */
  datatype ContactModal = ContactModal(mailto: Option<String>, websites: seq<Option<String>>)

  datatype ContactInfo = ContactInfo(email: Option<String>, github: Option<String>, externalWebsites: seq<String>)

  predicate IsGithub(href: String) {
    Contains(href, "github.com")
  }

  /** The last GitHub link: later ones overwrite earlier ones. */
  function LastGithub(hrefs: seq<String>): (r: Option<String>)
    ensures r.None? <==> forall i | 0 <= i < |hrefs| :: !IsGithub(hrefs[i])
    ensures r.Some? ==> exists i | 0 <= i < |hrefs| ::
      (hrefs[i] == r.value && IsGithub(hrefs[i]) && forall j | i < j < |hrefs| :: !IsGithub(hrefs[j]))
  {
    if |hrefs| == 0 then None
    else if IsGithub(hrefs[|hrefs| - 1]) then Some(hrefs[|hrefs| - 1])
    else
      var r := LastGithub(hrefs[..|hrefs| - 1]);
      assert forall i | 0 <= i < |hrefs| - 1 :: hrefs[..|hrefs| - 1][i] == hrefs[i];
      r
  }

  /** The non-GitHub links, in order. */
  function Externals(hrefs: seq<String>): (r: seq<String>)
    ensures forall x | x in r :: x in hrefs && !IsGithub(x)
    ensures forall x | x in hrefs && !IsGithub(x) :: x in r
    ensures |r| <= |hrefs|
  {
    if |hrefs| == 0 then []
    else
      var rest := Externals(hrefs[..|hrefs| - 1]);
      assert forall x | x in hrefs :: x in hrefs[..|hrefs| - 1] || x == hrefs[|hrefs| - 1];
      if IsGithub(hrefs[|hrefs| - 1]) then rest else rest + [hrefs[|hrefs| - 1]]
  }

  function GithubCount(hrefs: seq<String>): nat {
    if |hrefs| == 0 then 0
    else GithubCount(hrefs[..|hrefs| - 1]) + (if IsGithub(hrefs[|hrefs| - 1]) then 1 else 0)
  }

  /** Every link goes to exactly one side. */
  lemma {:induction false} ExternalsPartition(hrefs: seq<String>)
    ensures |Externals(hrefs)| + GithubCount(hrefs) == |hrefs|
  {
    if |hrefs| > 0 {
      ExternalsPartition(hrefs[..|hrefs| - 1]);
    }
  }

  predicate AllPresent(hrefs: seq<Option<String>>) {
    forall i | 0 <= i < |hrefs| :: hrefs[i].Some?
  }

  function Present(hrefs: seq<Option<String>>): (r: seq<String>)
    requires AllPresent(hrefs)
    ensures |r| == |hrefs| && forall i | 0 <= i < |hrefs| :: r[i] == hrefs[i].value
  {
    seq(|hrefs|, i requires 0 <= i < |hrefs| && AllPresent(hrefs) => hrefs[i].value)
  }

  /** The loop over the website links. `"github.com" in None` raises `TypeError`. */
  method SplitWebsites(hrefs: seq<Option<String>>) returns (r: Result<(Option<String>, seq<String>)>)
    ensures r.Ok? <==> AllPresent(hrefs)
    ensures r.Err? ==> r.error == TypeError
    ensures r.Ok? ==> r.value == (LastGithub(Present(hrefs)), Externals(Present(hrefs)))
  {
    var github: Option<String> := None;
    var external: seq<String> := [];
    var i := 0;
    while i < |hrefs|
      invariant 0 <= i <= |hrefs|
      invariant AllPresent(hrefs[..i])
      invariant github == LastGithub(Present(hrefs[..i]))
      invariant external == Externals(Present(hrefs[..i]))
    {
      if hrefs[i].None? {
        assert !AllPresent(hrefs);
        return Err(TypeError);
      }
      var href := hrefs[i].value;
      PresentStep(hrefs, i);
      SortLinkStep(Present(hrefs[..i]), href);
      if IsGithub(href) {
        github := Some(href);
      } else {
        external := external + [href];
      }
      i := i + 1;
    }
    assert hrefs[..i] == hrefs;
    return Ok((github, external));
  }

  lemma PresentStep(hrefs: seq<Option<String>>, i: nat)
    requires i < |hrefs| && AllPresent(hrefs[..i]) && hrefs[i].Some?
    ensures AllPresent(hrefs[..i + 1])
    ensures Present(hrefs[..i + 1]) == Present(hrefs[..i]) + [hrefs[i].value]
  {
    assert forall j | 0 <= j < i :: hrefs[..i + 1][j] == hrefs[..i][j];
  }

  /** One more link lands on the GitHub side or the external side. */
  lemma SortLinkStep(p: seq<String>, href: String)
    ensures LastGithub(p + [href]) == if IsGithub(href) then Some(href) else LastGithub(p)
    ensures Externals(p + [href]) == if IsGithub(href) then Externals(p) else Externals(p) + [href]
  {
    assert (p + [href])[..|p|] == p;
  }

  /** `href.replace('mailto:', '')`. */
  function MailtoAddress(href: String): String {
    ReplaceAll(href, "mailto:", "")
  }

  lemma MailtoAddressOfLink(address: String)
    requires !Contains(address, "mailto:")
    ensures MailtoAddress("mailto:" + address) == address
  {
    var link := "mailto:" + address;
    assert link == [] + "mailto:" + address;
    SplitOnce([], "mailto:", address);
    var parts := Split(link, "mailto:");
    assert parts[1..] == [address];
    assert Join(parts, "") == [] + "" + address;
  }

  /** The whole contact-info scrape; `None` when the modal never appeared. An exception
      after the email was read keeps the email and the defaults for the rest. */
  method ScrapePersonContactInfo(modal: Option<ContactModal>) returns (info: ContactInfo)
    ensures modal.None? ==> info == ContactInfo(None, None, [])
    ensures modal.Some? && modal.value.mailto.None? ==> info.email.None?
    ensures modal.Some? && modal.value.mailto.Some? ==> info.email == Some(MailtoAddress(modal.value.mailto.value))
    ensures modal.Some? && AllPresent(modal.value.websites) ==>
      info.github == LastGithub(Present(modal.value.websites)) && info.externalWebsites == Externals(Present(modal.value.websites))
    ensures modal.None? || !AllPresent(modal.value.websites) ==> info.github.None? && info.externalWebsites == []
  {
    info := ContactInfo(None, None, []);
    if modal.None? {
      return;
    }
    if modal.value.mailto.Some? {
      info := info.(email := Some(MailtoAddress(modal.value.mailto.value)));
    }
    var split := SplitWebsites(modal.value.websites);
    if split.Ok? {
      info := info.(github := split.value.0, externalWebsites := split.value.1);
    }
  }

  // ---------------------------------------------------------------------------
  // Experience and education entries (`_scrape_company_links`)
  // ---------------------------------------------------------------------------

  /** One list item of the experience or education page: the company link's `href`,
      and the texts of the role-or-degree, role and date-range spans. A link element
      without `href` is taken as `None` here, like a missing one. */
  datatype SectionDom = SectionDom(link: Option<String>, roleOrDegree: Option<String>, role: Option<String>, dateRange: Option<String>)

  /** The dict the scraper builds; `role` is a key that may be missing altogether. */
  datatype CompanyLink = CompanyLink(url: String, roleOrDegree: String, role: Field<Option<String>>, dateRange: Option<String>)

  const EducationTerms: seq<String> := ["bachelor", "master", "phd", "certificate", "diploma"]

  predicate IsEducation(roleOrDegree: String) {
    exists i | 0 <= i < |EducationTerms| :: Contains(Lower(roleOrDegree), EducationTerms[i])
  }

  /** One section, or `None` when the link or the role-or-degree span is missing. */
  function CompanyLinkOf(section: SectionDom): (r: Option<CompanyLink>)
    ensures r.Some? <==> section.link.Some? && section.roleOrDegree.Some?
    ensures r.Some? ==> r.value.url == section.link.value && r.value.roleOrDegree == Strip(section.roleOrDegree.value)
    ensures r.Some? ==> (r.value.role.Set? <==> !IsEducation(r.value.roleOrDegree))
    ensures r.Some? && r.value.role.Set? ==> (r.value.role.value.None? <==> section.role.None?)
    ensures r.Some? ==> (r.value.dateRange.None? <==> section.dateRange.None?)
  {
    match (section.link, section.roleOrDegree)
    case (Some(url), Some(text)) =>
      var roleOrDegree := Strip(text);
      var role := if IsEducation(roleOrDegree) then Unset
                  else Set(match section.role case Some(t) => Some(Strip(t)) case None => None);
      var dateRange := match section.dateRange case Some(t) => Some(Strip(t)) case None => None;
      Some(CompanyLink(url, roleOrDegree, role, dateRange))
    case _ => None
  }

  /** All sections in page order, skipping those `CompanyLinkOf` refuses. */
  function ScrapeCompanyLinks(sections: seq<SectionDom>): (r: seq<CompanyLink>)
    ensures |r| <= |sections|
  {
    if |sections| == 0 then []
    else
      var rest := ScrapeCompanyLinks(sections[1..]);
      match CompanyLinkOf(sections[0])
      case Some(c) => [c] + rest
      case None => rest
  }

  /** The entries are exactly the accepted sections. */
  lemma {:induction false} ScrapeCompanyLinksMembers(sections: seq<SectionDom>, c: CompanyLink)
    ensures c in ScrapeCompanyLinks(sections) <==> exists i | 0 <= i < |sections| :: CompanyLinkOf(sections[i]) == Some(c)
    decreases |sections|
  {
    if |sections| > 0 {
      ScrapeCompanyLinksMembers(sections[1..], c);
      if c in ScrapeCompanyLinks(sections) {
        ScrapedHasSection(sections, c);
      }
      if exists i | 0 <= i < |sections| :: CompanyLinkOf(sections[i]) == Some(c) {
        var i :| 0 <= i < |sections| && CompanyLinkOf(sections[i]) == Some(c);
        if i > 0 {
          assert CompanyLinkOf(sections[1..][i - 1]) == Some(c);
        }
      }
    }
  }

  /** An entry after the first section's comes from a later section. */
  lemma ScrapedHasSection(sections: seq<SectionDom>, c: CompanyLink)
    requires |sections| > 0 && c in ScrapeCompanyLinks(sections)
    requires c in ScrapeCompanyLinks(sections[1..]) ==>
      exists i | 0 <= i < |sections[1..]| :: CompanyLinkOf(sections[1..][i]) == Some(c)
    ensures exists i | 0 <= i < |sections| :: CompanyLinkOf(sections[i]) == Some(c)
  {
    if CompanyLinkOf(sections[0]) != Some(c) {
      var i :| 0 <= i < |sections[1..]| && CompanyLinkOf(sections[1..][i]) == Some(c);
      assert CompanyLinkOf(sections[i + 1]) == Some(c);
    }
  }

  /** One entry per accepted section. */
  function AcceptedCount(sections: seq<SectionDom>): nat {
    if |sections| == 0 then 0
    else AcceptedCount(sections[1..]) + (if CompanyLinkOf(sections[0]).Some? then 1 else 0)
  }

  lemma {:induction false} ScrapeCompanyLinksCount(sections: seq<SectionDom>)
    ensures |ScrapeCompanyLinks(sections)| == AcceptedCount(sections)
    decreases |sections|
  {
    if |sections| > 0 {
      ScrapeCompanyLinksCount(sections[1..]);
    }
  }

  // ---------------------------------------------------------------------------
  // Clicking (`_click_element_with_retry`, `_click_next`)
  // ---------------------------------------------------------------------------

  /** The outcome of one attempt: clicked, a stale or missing element (retried), or the
      10-second wait running out (`TimeoutException`, which is not caught). */
  datatype Attempt = Clicked | Stale | TimedOut

  method ClickElementWithRetry(attempt: nat -> Attempt, maxAttempts: nat) returns (r: Result<bool>, made: nat)
    ensures made <= maxAttempts
    ensures forall j | 0 <= j < made - 1 :: attempt(j) == Stale
    ensures r == Ok(false) <==> forall k | 0 <= k < maxAttempts :: attempt(k) == Stale
    ensures r == Ok(true) <==> exists k | 0 <= k < maxAttempts :: attempt(k) == Clicked && forall j | 0 <= j < k :: attempt(j) == Stale
    ensures r.Err? <==> exists k | 0 <= k < maxAttempts :: attempt(k) == TimedOut && forall j | 0 <= j < k :: attempt(j) == Stale
    ensures r.Err? ==> r.error == TimeoutError
    ensures r != Ok(false) ==> 0 < made && attempt(made - 1) != Stale
    ensures r == Ok(false) ==> made == maxAttempts
  {
    made := 0;
    while made < maxAttempts
      invariant made <= maxAttempts
      invariant forall j | 0 <= j < made :: attempt(j) == Stale
    {
      var outcome := attempt(made);
      made := made + 1;
      if outcome == Clicked {
        return Ok(true), made;
      } else if outcome == TimedOut {
        return Err(TimeoutError), made;
      }
    }
    return Ok(false), made;
  }

  /** `all(click(k) for k in range(n))`: the clicks from `from` on, stopping at the first
      `False` or exception. */
  function ClickNextFrom(from: nat, clicksNeeded: nat, click: nat -> Result<bool>): (r: Result<bool>)
    ensures r == Ok(true) <==> forall k | from <= k < clicksNeeded :: click(k) == Ok(true)
    ensures r != Ok(true) ==> exists k | from <= k < clicksNeeded :: click(k) == r && forall j | from <= j < k :: click(j) == Ok(true)
    decreases clicksNeeded - from
  {
    if from >= clicksNeeded then Ok(true)
    else if click(from) == Ok(true) then ClickNextFrom(from + 1, clicksNeeded, click)
    else click(from)
  }

  function ClickNext(clicksNeeded: nat, click: nat -> Result<bool>): (r: Result<bool>)
    ensures clicksNeeded == 0 ==> r == Ok(true)
    ensures r == Ok(true) <==> forall k | 0 <= k < clicksNeeded :: click(k) == Ok(true)
  {
    ClickNextFrom(0, clicksNeeded, click)
  }

  // ---------------------------------------------------------------------------
  // Filters (`_process_company_filters_page`)
  // ---------------------------------------------------------------------------

  datatype FilterEntry = FilterEntry(name: String, numPeople: int)

  /** filter type (e.g. `facetGeoRegion`) -> filter id -> entry. */
  type Filters = map<String, map<String, FilterEntry>>

  /** The end of the run of word characters starting at `k`. */
  function WordRunEnd(s: String, k: nat): (j: nat)
    requires k <= |s|
    ensures k <= j <= |s|
    ensures forall i | k <= i < j :: IsWordChar(s[i])
    ensures j < |s| ==> !IsWordChar(s[j])
    decreases |s| - k
  {
    if k < |s| && IsWordChar(s[k]) then WordRunEnd(s, k + 1) else k
  }

  /** Any two ends with the `WordRunEnd` properties coincide. */
  lemma WordRunEndUnique(s: String, k: nat, j: nat)
    requires k <= j <= |s|
    requires forall i | k <= i < j :: IsWordChar(s[i])
    requires j < |s| ==> !IsWordChar(s[j])
    ensures WordRunEnd(s, k) == j
  {
  }

  /** `(facet\w+)=([\w\d]+)` anchored at `i`. Greedy `\w+` cannot give back a character
      that would be `=`, so the match is the maximal word runs. */
  function FacetAt(s: String, i: nat): (r: Option<(String, String)>)
    requires i <= |s|
  {
    if !OccursAt(s, "facet", i) then None
    else
      var j := WordRunEnd(s, i + 5);
      if j == i + 5 || j == |s| || s[j] != '=' then None
      else
        var k := WordRunEnd(s, j + 1);
        if k == j + 1 then None else Some((s[i..j], s[j + 1..k]))
  }

  /** What `FacetAt` finds: a type starting with `facet` and an id, both word runs. */
  lemma FacetAtShape(s: String, i: nat)
    requires i <= |s| && FacetAt(s, i).Some?
    ensures var (t, id) := FacetAt(s, i).value;
      |t| > 5 && StartsWith(t, "facet") && |id| > 0
      && (forall c | c in t :: IsWordChar(c)) && (forall c | c in id :: IsWordChar(c))
      && OccursAt(s, t + "=" + id, i)
  {
    var j := WordRunEnd(s, i + 5);
    var k := WordRunEnd(s, j + 1);
    assert s[i..j][..5] == s[i..i + 5];
    assert s[i..k] == s[i..j] + "=" + s[j + 1..k];
  }

  /** `re.search`: the leftmost position at or after `from` where the pattern matches. */
  function FacetSearch(s: String, from: nat): Option<(String, String)>
    requires from <= |s|
    decreases |s| - from
  {
    if FacetAt(s, from).Some? then FacetAt(s, from)
    else if from == |s| then None
    else FacetSearch(s, from + 1)
  }

  /** The search finds the match at the leftmost matching position. */
  lemma {:induction false} FacetSearchLeftmost(s: String, from: nat)
    requires from <= |s|
    ensures var r := FacetSearch(s, from);
      r.Some? ==> exists i | from <= i <= |s| :: FacetAt(s, i) == r && forall j | from <= j < i :: FacetAt(s, j).None?
    decreases |s| - from
  {
    var r := FacetSearch(s, from);
    if FacetAt(s, from).Some? {
      assert from <= from <= |s| && FacetAt(s, from) == r;
    } else if from < |s| {
      FacetSearchLeftmost(s, from + 1);
      if r.Some? {
        var i :| from + 1 <= i <= |s| && FacetAt(s, i) == r && forall j | from + 1 <= j < i :: FacetAt(s, j).None?;
        assert FacetAt(s, i) == r && forall j | from <= j < i :: FacetAt(s, j).None?;
      }
    }
  }

  /** The search finds nothing only when no position matches. */
  lemma {:induction false} FacetSearchNone(s: String, from: nat)
    requires from <= |s|
    ensures FacetSearch(s, from).None? ==> forall i | from <= i <= |s| :: FacetAt(s, i).None?
    decreases |s| - from
  {
    if FacetAt(s, from).None? && from < |s| {
      FacetSearchNone(s, from + 1);
    }
  }

  function FacetParam(url: String): Option<(String, String)> {
    FacetSearch(url, 0)
  }

  /** A URL whose only `facet` is its query's `facet<Name>=<id>` yields that type and id. */
  lemma FacetParamOfQuery(base: String, name: String, id: String)
    requires !Contains(base + "?", "facet")
    requires |name| > 0 && forall c | c in name :: IsWordChar(c)
    requires |id| > 0 && forall c | c in id :: IsWordChar(c)
    ensures FacetParam(base + "?" + "facet" + name + "=" + id) == Some(("facet" + name, id))
  {
    var s := base + "?" + "facet" + name + "=" + id;
    var p := |base| + 1;
    NoFacetBeforeQuery(base, s[p..], s);
    FacetAtQuery(s, p, name, id);
    FacetSearchSkips(s, 0, p);
  }

  /** No `facet` starts inside a prefix that ends in `?` and holds no `facet`. */
  lemma NoFacetBeforeQuery(base: String, query: String, s: String)
    requires !Contains(base + "?", "facet")
    requires s == base + "?" + query
    ensures forall i | 0 <= i <= |base| :: FacetAt(s, i).None?
  {
    var p := |base| + 1;
    assert s[..p] == base + "?";
    ContainsIff(base + "?", "facet");
    forall i | 0 <= i < p ensures !OccursAt(s, "facet", i) {
      if i + 5 <= p {
        assert s[i..i + 5] == (base + "?")[i..i + 5];
        assert !OccursAt(base + "?", "facet", i);
      } else if i + 5 <= |s| {
        assert s[i..i + 5][p - 1 - i] == '?';
      }
    }
  }

  /** The pattern matches at the start of `facet<Name>=<id>` when the rest is its id. */
  lemma FacetAtQuery(s: String, p: nat, name: String, id: String)
    requires |name| > 0 && forall c | c in name :: IsWordChar(c)
    requires |id| > 0 && forall c | c in id :: IsWordChar(c)
    requires p <= |s| && s[p..] == "facet" + name + "=" + id
    ensures FacetAt(s, p) == Some(("facet" + name, id))
  {
    var j := p + 5 + |name|;
    assert s[j] == '=';
    assert forall i | p + 5 <= i < j :: s[i] == name[i - p - 5];
    WordRunEndUnique(s, p + 5, j);
    assert forall i | j + 1 <= i < |s| :: s[i] == id[i - j - 1];
    WordRunEndUnique(s, j + 1, |s|);
    assert s[p..p + 5] == "facet";
    assert s[p..j] == "facet" + name;
    assert s[j + 1..|s|] == id;
  }

  lemma {:induction false} FacetSearchSkips(s: String, from: nat, p: nat)
    requires from <= p <= |s|
    requires forall i | from <= i < p :: FacetAt(s, i).None?
    ensures FacetSearch(s, from) == FacetSearch(s, p)
    decreases p - from
  {
    if from < p {
      FacetSearchSkips(s, from + 1, p);
    }
  }

  /** One bar-graph button of the insights carousel: its count text (`None` when it does
      not parse as an integer), its category text, whether the click went through, the URL
      after the click, and whether navigating back to the carousel page succeeded. */
  datatype FilterButton = FilterButton(count: Option<int>, name: Option<String>, click: Result<bool>, urlAfterClick: String, back: Result<bool>)

  /** `filters.setdefault(type, {})[id] = entry` unless the type is completed. */
  function RecordFilter(filters: Filters, completed: set<String>, url: String, name: String, count: int): (r: Filters)
    ensures r.Keys >= filters.Keys
    ensures forall t | t in filters && t != (if FacetParam(url).Some? then FacetParam(url).value.0 else []) :: r[t] == filters[t]
    ensures forall t | t in completed && t in filters :: r[t] == filters[t]
    ensures forall t | t in completed :: t in r <==> t in filters
  {
    match FacetParam(url)
    case None => filters
    case Some((t, id)) =>
      if t in completed then filters
      else filters[t := (if t in filters then filters[t] else map[])[id := FilterEntry(name, count)]]
  }

  /** The buttons of all filter sections, in page order. A count or name that cannot be
      read, or a click that times out, ends the page; a button counted below 3 is skipped. */
  function ProcessFiltersPage(filters: Filters, completed: set<String>, buttons: seq<FilterButton>): (r: Filters)
    ensures r.Keys >= filters.Keys
    ensures forall t | t in completed :: (t in r <==> t in filters) && (t in filters ==> r[t] == filters[t])
    ensures forall t | t in filters :: filters[t].Keys <= r[t].Keys
    decreases |buttons|
  {
    if |buttons| == 0 then filters
    else
      var b := buttons[0];
      if b.count.None? then filters
      else if b.count.value < 3 then ProcessFiltersPage(filters, completed, buttons[1..])
      else if b.name.None? then filters
      else match b.click
        case Err(_) => filters
        case Ok(false) => ProcessFiltersPage(filters, completed, buttons[1..])
        case Ok(true) =>
          var f := RecordFilter(filters, completed, b.urlAfterClick, Strip(b.name.value), b.count.value);
          if b.back != Ok(true) then f else ProcessFiltersPage(f, completed, buttons[1..])
  }

  /** Every entry of `after` is one of `before`, unchanged, or counts at least 3 people
      and sits under a `facet` type. */
  predicate OnlyNewFacets(before: Filters, after: Filters) {
    forall t | t in after :: forall id | id in after[t] ::
      (t in before && id in before[t] && after[t][id] == before[t][id])
      || (after[t][id].numPeople >= 3 && StartsWith(t, "facet"))
  }

  lemma OnlyNewFacetsTrans(a: Filters, b: Filters, c: Filters)
    ensures OnlyNewFacets(a, b) && OnlyNewFacets(b, c) ==> OnlyNewFacets(a, c)
  {
  }

  /** One recorded button keeps to the rule. */
  lemma RecordFilterFacets(filters: Filters, completed: set<String>, url: String, name: String, count: int)
    requires count >= 3
    ensures OnlyNewFacets(filters, RecordFilter(filters, completed, url, name, count))
  {
    if FacetParam(url).Some? {
      FacetSearchShape(url);
    }
  }

  /** Every entry the page writes counts at least 3 people and sits under a `facet` type. */
  lemma {:induction false} ProcessFiltersPageRecords(filters: Filters, completed: set<String>, buttons: seq<FilterButton>)
    ensures OnlyNewFacets(filters, ProcessFiltersPage(filters, completed, buttons))
    decreases |buttons|
  {
    if |buttons| > 0 {
      var b := buttons[0];
      if b.count.Some? && b.count.value < 3 {
        ProcessFiltersPageRecords(filters, completed, buttons[1..]);
      } else if b.count.Some? && b.name.Some? && b.click.Ok? {
        if b.click.value {
          var f := RecordFilter(filters, completed, b.urlAfterClick, Strip(b.name.value), b.count.value);
          RecordFilterFacets(filters, completed, b.urlAfterClick, Strip(b.name.value), b.count.value);
          if b.back == Ok(true) {
            ProcessFiltersPageRecords(f, completed, buttons[1..]);
            OnlyNewFacetsTrans(filters, f, ProcessFiltersPage(f, completed, buttons[1..]));
          }
        } else {
          ProcessFiltersPageRecords(filters, completed, buttons[1..]);
        }
      }
    }
  }

  lemma FacetSearchShape(url: String)
    requires FacetParam(url).Some?
    ensures StartsWith(FacetParam(url).value.0, "facet")
  {
    FacetSearchLeftmost(url, 0);
    var i :| 0 <= i <= |url| && FacetAt(url, i) == FacetParam(url);
    FacetAtShape(url, i);
  }
}

=== FILE: linkedin_store.dfy ===
/** The LinkedIn half of the entity store: users keyed by username, organizations
    keyed by LinkedIn id, and the membership map keyed by the composite
    (username, organization id) primary key. Dates are stored as `datetime`
    values and handed out as ISO strings; a user's external websites are stored
    as the JSON text of a list of strings. */
module LinkedinStore {
  import opened Wrappers
  import opened Text
  import Json
  import opened Dates
  import LinkedinScraper

  // ---------------------------------------------------------------- rows

  datatype LinkedinUserRow = LinkedinUserRow(
    username: String,
    name: Option<String>,
    header: Option<String>,
    profilePicture: Option<String>,
    email: Option<String>,
    externalWebsites: Option<String>)

  datatype LinkedinOrgRow = LinkedinOrgRow(
    linkedinId: String,
    name: Option<String>,
    description: Option<String>,
    website: Option<String>,
    industry: Option<String>,
    companySize: Option<String>,
    headquarters: Option<String>,
    specialties: Option<String>,
    logo: Option<String>,
    filters: Option<LinkedinScraper.Filters>)

  /** One row of the user-organization map; every column is nullable. */
  datatype Membership = Membership(role: Option<String>, start: Option<ValidDateTime>, end: Option<ValidDateTime>)

  /** `memberships[(u, o)]` is the map row linking user `u` to organization `o`. */
  datatype LinkedinDb = LinkedinDb(
    users: map<String, LinkedinUserRow>,
    orgs: map<String, LinkedinOrgRow>,
    memberships: map<(String, String), Membership>)

  const EmptyDb := LinkedinDb(map[], map[], map[])

  /** Rows sit under their own key, map rows reference existing rows on both
      sides, and stored website text is a JSON list of strings. */
  ghost predicate WellFormed(db: LinkedinDb) {
    && (forall u | u in db.users :: db.users[u].username == u)
    && (forall o | o in db.orgs :: db.orgs[o].linkedinId == o)
    && (forall k | k in db.memberships :: k.0 in db.users && k.1 in db.orgs)
    && (forall u | u in db.users && db.users[u].externalWebsites.Some? ::
          Json.DecodeList(db.users[u].externalWebsites.value).Some?)
  }

  // ---------------------------------------------------------------- views

  /** A membership as a read hands it out: dates as ISO strings. */
  datatype MembershipView = MembershipView(role: Option<String>, startDate: Option<String>, endDate: Option<String>)

  function IsoOrNone(d: Option<ValidDateTime>): (r: Option<String>)
    ensures r.None? <==> d.None?
    ensures r.Some? ==> FromIsoFormat(r.value) == Ok(d.value)
  {
    match d
    case None => None
    case Some(v) => IsoRoundTrip(v); Some(IsoFormat(v))
  }

  function ViewOf(m: Membership): MembershipView {
    MembershipView(m.role, IsoOrNone(m.start), IsoOrNone(m.end))
  }

  datatype LinkedinUserView = LinkedinUserView(
    username: String,
    name: Option<String>,
    header: Option<String>,
    profilePicture: Option<String>,
    email: Option<String>,
    externalWebsites: Option<seq<String>>,
    organizations: map<String, MembershipView>)

  datatype LinkedinOrgView = LinkedinOrgView(
    linkedinId: String,
    name: Option<String>,
    description: Option<String>,
    website: Option<String>,
    industry: Option<String>,
    companySize: Option<String>,
    headquarters: Option<String>,
    specialties: Option<String>,
    logo: Option<String>,
    filters: Option<LinkedinScraper.Filters>,
    linkedinUsers: map<String, MembershipView>)

  // ---------------------------------------------------------------- schemas

  /** The LinkedIn user schema as a caller builds it. */
  datatype LinkedinUserSchema = LinkedinUserSchema(
    username: String,
    name: Field<Option<String>>,
    header: Field<Option<String>>,
    profilePicture: Field<Option<String>>,
    email: Field<Option<String>>,
    externalWebsites: Field<Option<seq<String>>>)

  function UsernameOnly(username: String): LinkedinUserSchema {
    LinkedinUserSchema(username, Unset, Unset, Unset, Unset, Unset)
  }

  datatype LinkedinOrgSchema = LinkedinOrgSchema(
    linkedinId: String,
    name: Field<Option<String>>,
    description: Field<Option<String>>,
    website: Field<Option<String>>,
    industry: Field<Option<String>>,
    companySize: Field<Option<String>>,
    headquarters: Field<Option<String>>,
    specialties: Field<Option<String>>,
    logo: Field<Option<String>>,
    filters: Field<Option<LinkedinScraper.Filters>>)

  // ---------------------------------------------------------------- users

  /** The organization ids `username` has map rows for. */
  function OrgsOf(db: LinkedinDb, username: String): (r: set<String>)
    ensures forall o :: o in r <==> (username, o) in db.memberships
  {
    set k | k in db.memberships && k.0 == username :: k.1
  }

  /** The usernames with map rows for organization `id`. */
  function MembersOf(db: LinkedinDb, id: String): (r: set<String>)
    ensures forall u :: u in r <==> (u, id) in db.memberships
  {
    set k | k in db.memberships && k.1 == id :: k.0
  }

  /** The text stored for a website list: its JSON when the list is non-empty. */
  function StoredWebsites(websites: Option<seq<String>>): (r: Option<String>)
    ensures r.Some? <==> websites.Some? && |websites.value| > 0
    ensures r.Some? ==> Json.DecodeList(r.value) == websites
  {
    if websites.Some? && |websites.value| > 0 then
      Json.EncodeListRoundTrip(websites.value);
      Some(Json.EncodeList(websites.value))
    else None
  }

  /** The schema validator: stored text is parsed back into a list; text that is
      not a JSON list of strings fails validation. */
  function ReadWebsites(stored: Option<String>): (r: Result<Option<seq<String>>>)
    ensures r.Err? ==> r.error == ValidationError
    ensures stored.None? ==> r == Ok(None)
    ensures stored.Some? ==> (r.Err? <==> Json.DecodeList(stored.value).None?)
    ensures stored.Some? && r.Ok? ==> r.value == Json.DecodeList(stored.value)
  {
    match stored
    case None => Ok(None)
    case Some(text) =>
      match Json.DecodeList(text)
      case None => Err(ValidationError)
      case Some(xs) => Ok(Some(xs))
  }

  /** Websites written by the store read back unchanged; an empty list reads
      back as no list. */
  lemma WebsitesRoundTrip(websites: Option<seq<String>>)
    ensures ReadWebsites(StoredWebsites(websites))
         == Ok(if websites.Some? && |websites.value| > 0 then websites else None)
  {
  }

  /** `get_linkedin_user_by_username`: `Ok(None)` for an unknown username. */
  function GetLinkedinUser(db: LinkedinDb, username: String): (r: Result<Option<LinkedinUserView>>)
    ensures r == Ok(None) <==> username !in db.users
    ensures r.Err? <==> username in db.users && ReadWebsites(db.users[username].externalWebsites).Err?
    ensures r.Err? ==> r.error == ValidationError
    ensures r.Ok? && r.value.Some? ==>
      var row := db.users[username];
      var v := r.value.value;
      && v.username == row.username && v.name == row.name && v.header == row.header
      && v.profilePicture == row.profilePicture && v.email == row.email
      && ReadWebsites(row.externalWebsites) == Ok(v.externalWebsites)
      && (forall o :: o in v.organizations <==> (username, o) in db.memberships)
      && (forall o | o in v.organizations :: v.organizations[o] == ViewOf(db.memberships[(username, o)]))
  {
    if username !in db.users then Ok(None)
    else
      var row := db.users[username];
      match ReadWebsites(row.externalWebsites)
      case Err(e) => Err(e)
      case Ok(websites) =>
        var orgs := map o | o in OrgsOf(db, username) :: ViewOf(db.memberships[(username, o)]);
        Ok(Some(LinkedinUserView(row.username, row.name, row.header, row.profilePicture, row.email, websites, orgs)))
  }

  /** The row `create_linkedin_user` inserts. */
  function NewUserRow(s: LinkedinUserSchema): (row: LinkedinUserRow)
    ensures row.username == s.username && row.name == s.name.Or(None) && row.header == s.header.Or(None)
    ensures row.profilePicture == s.profilePicture.Or(None) && row.email == s.email.Or(None)
    ensures row.externalWebsites == StoredWebsites(s.externalWebsites.Or(None))
  {
    LinkedinUserRow(s.username, s.name.Or(None), s.header.Or(None), s.profilePicture.Or(None),
      s.email.Or(None), StoredWebsites(s.externalWebsites.Or(None)))
  }

  /** `create_linkedin_user`: the primary key refuses a stored username. */
  function CreateLinkedinUser(db: LinkedinDb, s: LinkedinUserSchema): (r: Result<(LinkedinDb, LinkedinUserRow)>)
    ensures r.Err? <==> s.username in db.users
    ensures r.Err? ==> r.error == IntegrityError
    ensures r.Ok? ==>
      var (db', row) := r.value;
      && row == NewUserRow(s)
      && db'.users == db.users[s.username := row]
      && db'.orgs == db.orgs && db'.memberships == db.memberships
  {
    if s.username in db.users then Err(IntegrityError)
    else
      var row := NewUserRow(s);
      Ok((db.(users := db.users[s.username := row]), row))
  }

  /** The stored row after `setattr` of every explicitly set field; a set website
      list is stored as JSON, or `None` when it is `None` or empty. */
  function PatchUser(row: LinkedinUserRow, s: LinkedinUserSchema): LinkedinUserRow {
    row.(name := s.name.Or(row.name),
         header := s.header.Or(row.header),
         profilePicture := s.profilePicture.Or(row.profilePicture),
         email := s.email.Or(row.email),
         externalWebsites := if s.externalWebsites.Set? then StoredWebsites(s.externalWebsites.value) else row.externalWebsites)
  }

  /** `update_linkedin_user`: overwrites exactly the explicitly set fields of a
      stored user and returns the fresh read; unknown usernames change nothing. */
  function UpdateLinkedinUser(db: LinkedinDb, s: LinkedinUserSchema): (r: (LinkedinDb, Result<Option<LinkedinUserView>>))
    ensures s.username !in db.users ==> r.0 == db && r.1 == Ok(None)
    ensures s.username in db.users ==> r.0.users.Keys == db.users.Keys
    ensures s.username in db.users ==>
      var old_ := db.users[s.username];
      var new_ := r.0.users[s.username];
      && (forall u | u in db.users && u != s.username :: r.0.users[u] == db.users[u])
      && r.0.orgs == db.orgs && r.0.memberships == db.memberships
      && new_.username == old_.username
      && (if s.name.Set? then new_.name == s.name.value else new_.name == old_.name)
      && (if s.header.Set? then new_.header == s.header.value else new_.header == old_.header)
      && (if s.profilePicture.Set? then new_.profilePicture == s.profilePicture.value else new_.profilePicture == old_.profilePicture)
      && (if s.email.Set? then new_.email == s.email.value else new_.email == old_.email)
      && (if s.externalWebsites.Set? then new_.externalWebsites == StoredWebsites(s.externalWebsites.value)
          else new_.externalWebsites == old_.externalWebsites)
      && r.1 == GetLinkedinUser(r.0, s.username)
  {
    if s.username !in db.users then (db, Ok(None))
    else
      var db' := db.(users := db.users[s.username := PatchUser(db.users[s.username], s)]);
      (db', GetLinkedinUser(db', s.username))
  }

  // ---------------------------------------------------------------- organizations

  /** `get_linkedin_organization_by_id`. */
  function GetLinkedinOrganization(db: LinkedinDb, id: String): (r: Option<LinkedinOrgView>)
    ensures r.None? <==> id !in db.orgs
    ensures r.Some? ==>
      var row := db.orgs[id];
      var v := r.value;
      && v.linkedinId == row.linkedinId && v.name == row.name && v.description == row.description
      && v.website == row.website && v.industry == row.industry && v.companySize == row.companySize
      && v.headquarters == row.headquarters && v.specialties == row.specialties
      && v.logo == row.logo && v.filters == row.filters
      && (forall u :: u in v.linkedinUsers <==> (u, id) in db.memberships)
      && (forall u | u in v.linkedinUsers :: v.linkedinUsers[u] == ViewOf(db.memberships[(u, id)]))
  {
    if id !in db.orgs then None
    else
      var row := db.orgs[id];
      var users := map u | u in MembersOf(db, id) :: ViewOf(db.memberships[(u, id)]);
      Some(LinkedinOrgView(row.linkedinId, row.name, row.description, row.website, row.industry,
        row.companySize, row.headquarters, row.specialties, row.logo, row.filters, users))
  }

  /** Python truthiness of an optional string. */
  predicate Truthy(x: Option<String>) {
    x.Some? && |x.value| > 0
  }

  /** One line of the vector-store document: heading, value and a newline when the
      value is truthy, nothing otherwise. */
  function ChromaLine(heading: String, x: Option<String>): String {
    if Truthy(x) then heading + x.value + "\n" else ""
  }

  const NameLabel: String := "Organization name: "
  const DescriptionLabel: String := "Description: "
  const IndustryLabel: String := "Industry: "
  const CompanySizeLabel: String := "Company size: "
  const SpecialtiesLabel: String := "Specialties: "

  /** The document `create_linkedin_organization` upserts into the vector store. */
  function ChromaDocument(s: LinkedinOrgSchema): String {
    ChromaLine(NameLabel, s.name.Or(None))
    + ChromaLine(DescriptionLabel, s.description.Or(None))
    + ChromaLine(IndustryLabel, s.industry.Or(None))
    + ChromaLine(CompanySizeLabel, s.companySize.Or(None))
    + ChromaLine(SpecialtiesLabel, s.specialties.Or(None))
  }

  /** The row `create_linkedin_organization` inserts: every schema field. */
  function NewOrgRow(s: LinkedinOrgSchema): LinkedinOrgRow {
    LinkedinOrgRow(s.linkedinId, s.name.Or(None), s.description.Or(None), s.website.Or(None),
      s.industry.Or(None), s.companySize.Or(None), s.headquarters.Or(None), s.specialties.Or(None),
      s.logo.Or(None), s.filters.Or(None))
  }

  /** `create_linkedin_organization`: the document is built (and upserted) before the
      insert, so it exists even when the primary key refuses the row. */
  function CreateLinkedinOrganization(db: LinkedinDb, s: LinkedinOrgSchema): (r: (String, Result<(LinkedinDb, LinkedinOrgView)>))
    ensures r.0 == ChromaDocument(s)
    ensures r.1.Err? <==> s.linkedinId in db.orgs
    ensures r.1.Err? ==> r.1.error == IntegrityError
    ensures r.1.Ok? ==>
      var (db', view) := r.1.value;
      && db'.orgs == db.orgs[s.linkedinId := NewOrgRow(s)]
      && db'.users == db.users && db'.memberships == db.memberships
      && view.linkedinUsers == map[]
      && view.name == s.name.Or(None) && view.description == s.description.Or(None)
      && view.website == s.website.Or(None) && view.industry == s.industry.Or(None)
      && view.companySize == s.companySize.Or(None) && view.headquarters == s.headquarters.Or(None)
      && view.specialties == s.specialties.Or(None) && view.logo == s.logo.Or(None) && view.filters == s.filters.Or(None)
  {
    var document := ChromaDocument(s);
    if s.linkedinId in db.orgs then (document, Err(IntegrityError))
    else
      var row := NewOrgRow(s);
      var view := LinkedinOrgView(row.linkedinId, row.name, row.description, row.website, row.industry,
        row.companySize, row.headquarters, row.specialties, row.logo, row.filters, map[]);
      (document, Ok((db.(orgs := db.orgs[s.linkedinId := row]), view)))
  }

  function PatchOrg(row: LinkedinOrgRow, s: LinkedinOrgSchema): LinkedinOrgRow {
    row.(name := s.name.Or(row.name),
         description := s.description.Or(row.description),
         website := s.website.Or(row.website),
         industry := s.industry.Or(row.industry),
         companySize := s.companySize.Or(row.companySize),
         headquarters := s.headquarters.Or(row.headquarters),
         specialties := s.specialties.Or(row.specialties),
         logo := s.logo.Or(row.logo),
         filters := s.filters.Or(row.filters))
  }

  /** `update_linkedin_organization`: overwrites the explicitly set columns of a stored
      organization and returns the fresh read; `None` and no change otherwise. */
  function UpdateLinkedinOrganization(db: LinkedinDb, s: LinkedinOrgSchema): (r: (LinkedinDb, Option<LinkedinOrgView>))
    ensures s.linkedinId !in db.orgs ==> r.0 == db && r.1.None?
    ensures s.linkedinId in db.orgs ==> r.0.orgs.Keys == db.orgs.Keys
    ensures s.linkedinId in db.orgs ==>
      var old_ := db.orgs[s.linkedinId];
      var new_ := r.0.orgs[s.linkedinId];
      && (forall o | o in db.orgs && o != s.linkedinId :: r.0.orgs[o] == db.orgs[o])
      && r.0.users == db.users && r.0.memberships == db.memberships
      && new_.linkedinId == old_.linkedinId
      && (if s.name.Set? then new_.name == s.name.value else new_.name == old_.name)
      && (if s.description.Set? then new_.description == s.description.value else new_.description == old_.description)
      && (if s.website.Set? then new_.website == s.website.value else new_.website == old_.website)
      && (if s.industry.Set? then new_.industry == s.industry.value else new_.industry == old_.industry)
      && (if s.companySize.Set? then new_.companySize == s.companySize.value else new_.companySize == old_.companySize)
      && (if s.headquarters.Set? then new_.headquarters == s.headquarters.value else new_.headquarters == old_.headquarters)
      && (if s.specialties.Set? then new_.specialties == s.specialties.value else new_.specialties == old_.specialties)
      && (if s.logo.Set? then new_.logo == s.logo.value else new_.logo == old_.logo)
      && (if s.filters.Set? then new_.filters == s.filters.value else new_.filters == old_.filters)
      && r.1 == GetLinkedinOrganization(r.0, s.linkedinId)
  {
    if s.linkedinId !in db.orgs then (db, None)
    else
      var db' := db.(orgs := db.orgs[s.linkedinId := PatchOrg(db.orgs[s.linkedinId], s)]);
      (db', GetLinkedinOrganization(db', s.linkedinId))
  }

  // ---------------------------------------------------------------- memberships

  /** What a caller passes for a date: nothing, a string, or a `datetime` value. */
  datatype DateArg = NoDate | IsoText(text: String) | DateTimeValue(date: ValidDateTime)

  /** `datetime.fromisoformat(d) if d else None`: a falsy argument gives `None`,
      text is parsed, and a `datetime` (always truthy) is refused with `TypeError`. */
  function DateOf(arg: DateArg): (r: Result<Option<ValidDateTime>>)
    ensures arg.NoDate? || (arg.IsoText? && |arg.text| == 0) ==> r == Ok(None)
    ensures arg.DateTimeValue? ==> r == Err(TypeError)
    ensures arg.IsoText? && |arg.text| > 0 ==>
      match FromIsoFormat(arg.text)
      case Ok(d) => r == Ok(Some(d))
      case Err(e) => r == Err(e)
  {
    match arg
    case NoDate => Ok(None)
    case IsoText(t) =>
      if |t| == 0 then Ok(None)
      else (
        match FromIsoFormat(t)
        case Ok(d) => Ok(Some(d))
        case Err(e) => Err(e))
    case DateTimeValue(_) => Err(TypeError)
  }

  /** The map-row write of `add_user_to_organization` once both rows are known to
      exist: the new membership map, and the exception a date raised, if any. For an
      existing pair the role is written first, then the start date, then the end
      date; a date that raises leaves the earlier writes pending in the session, where
      the next commit stores them. For a new pair both dates are evaluated before the
      row exists. */
  function WriteMembership(ms: map<(String, String), Membership>, key: (String, String), role: Option<String>, start: DateArg, end: DateArg)
    : (r: (map<(String, String), Membership>, Option<Error>))
    ensures r.1.None? <==> DateOf(start).Ok? && DateOf(end).Ok?
    ensures r.1.None? ==> r.0 == ms[key := Membership(role, DateOf(start).value, DateOf(end).value)]
    ensures r.1.Some? ==> r.1.value == if DateOf(start).Err? then DateOf(start).error else DateOf(end).error
    ensures r.1.Some? && key !in ms ==> r.0 == ms
    ensures r.1.Some? && key in ms && DateOf(start).Err? ==> r.0 == ms[key := ms[key].(role := role)]
    ensures r.1.Some? && key in ms && DateOf(start).Ok? ==> r.0 == ms[key := ms[key].(role := role, start := DateOf(start).value)]
  {
    if key in ms then
      var m1 := ms[key].(role := role);
      match DateOf(start)
      case Err(e) => (ms[key := m1], Some(e))
      case Ok(s) =>
        var m2 := m1.(start := s);
        match DateOf(end)
        case Err(e) => (ms[key := m2], Some(e))
        case Ok(e) => (ms[key := m2.(end := e)], None)
    else
      match (DateOf(start), DateOf(end))
      case (Err(e), _) => (ms, Some(e))
      case (Ok(_), Err(e)) => (ms, Some(e))
      case (Ok(s), Ok(e)) => (ms[key := Membership(role, s, e)], None)
  }

  /** `add_user_to_organization`: a no-op returning `None` when the organization or
      the user is missing; otherwise the map-row write, then the fresh read. */
  function AddUserToOrganization(db: LinkedinDb, id: String, username: String, role: Option<String>, start: DateArg, end: DateArg)
    : (r: (LinkedinDb, Result<Option<LinkedinOrgView>>))
    ensures id !in db.orgs || username !in db.users ==> r == (db, Ok(None))
    ensures r.0.users == db.users && r.0.orgs == db.orgs
    ensures forall k | k in db.memberships && k != (username, id) :: k in r.0.memberships && r.0.memberships[k] == db.memberships[k]
    ensures db.memberships.Keys <= r.0.memberships.Keys <= db.memberships.Keys + {(username, id)}
    ensures r.1.Ok? && r.1.value.Some? ==> r.1.value == GetLinkedinOrganization(r.0, id)
  {
    if id !in db.orgs then (db, Ok(None))
    else
      match GetLinkedinUser(db, username)
      case Err(e) => (db, Err(e))
      case Ok(None) => (db, Ok(None))
      case Ok(Some(_)) =>
        var (ms, raised) := WriteMembership(db.memberships, (username, id), role, start, end);
        var db' := db.(memberships := ms);
        if raised.Some? then (db', Err(raised.value)) else (db', Ok(GetLinkedinOrganization(db', id)))
  }

  // ---------------------------------------------------------------- properties

  /** In a well-formed store every stored user reads back. */
  lemma WellFormedUserReads(db: LinkedinDb, username: String)
    requires WellFormed(db) && username in db.users
    ensures GetLinkedinUser(db, username).Ok? && GetLinkedinUser(db, username).value.Some?
  {
  }

  lemma CreateLinkedinUserPreservesWellFormed(db: LinkedinDb, s: LinkedinUserSchema)
    requires WellFormed(db)
    ensures CreateLinkedinUser(db, s).Ok? ==> WellFormed(CreateLinkedinUser(db, s).value.0)
  {
  }

  lemma UpdateLinkedinUserPreservesWellFormed(db: LinkedinDb, s: LinkedinUserSchema)
    requires WellFormed(db)
    ensures WellFormed(UpdateLinkedinUser(db, s).0)
  {
  }

  lemma OrganizationOperationsPreserveWellFormed(db: LinkedinDb, s: LinkedinOrgSchema)
    requires WellFormed(db)
    ensures CreateLinkedinOrganization(db, s).1.Ok? ==> WellFormed(CreateLinkedinOrganization(db, s).1.value.0)
    ensures WellFormed(UpdateLinkedinOrganization(db, s).0)
  {
  }

  lemma AddUserToOrganizationPreservesWellFormed(db: LinkedinDb, id: String, username: String, role: Option<String>, start: DateArg, end: DateArg)
    requires WellFormed(db)
    ensures WellFormed(AddUserToOrganization(db, id, username, role, start, end).0)
  {
  }

  /** A non-empty website list is stored as JSON text and reads back as the same
      list; an empty list or `None` is stored (and read back) as `None`. */
  lemma CreateThenGetLinkedinUser(db: LinkedinDb, s: LinkedinUserSchema)
    requires WellFormed(db) && s.username !in db.users
    ensures var db' := CreateLinkedinUser(db, s).value.0;
      var websites := s.externalWebsites.Or(None);
      GetLinkedinUser(db', s.username) == Ok(Some(LinkedinUserView(s.username, s.name.Or(None), s.header.Or(None),
        s.profilePicture.Or(None), s.email.Or(None), if websites.Some? && |websites.value| > 0 then websites else None, map[])))
  {
    var db' := CreateLinkedinUser(db, s).value.0;
    assert OrgsOf(db', s.username) == {};
  }

  /** After an update that sets the website list, the read shows that list, with an
      empty list turned into `None`. */
  lemma UpdateLinkedinUserWebsites(db: LinkedinDb, s: LinkedinUserSchema)
    requires WellFormed(db) && s.username in db.users && s.externalWebsites.Set?
    ensures var r := UpdateLinkedinUser(db, s).1;
      var websites := s.externalWebsites.value;
      r.Ok? && r.value.Some?
      && r.value.value.externalWebsites == (if websites.Some? && |websites.value| > 0 then websites else None)
  {
  }

  /** An update whose every field is unset changes nothing. */
  lemma UpdateLinkedinUserUnsetIsNoop(db: LinkedinDb, username: String)
    ensures UpdateLinkedinUser(db, UsernameOnly(username)).0 == db
  {
    if username in db.users {
      var db' := UpdateLinkedinUser(db, UsernameOnly(username)).0;
      assert db'.users == db.users;
    }
  }

  lemma UpdateLinkedinUserIdempotent(db: LinkedinDb, s: LinkedinUserSchema)
    ensures var db' := UpdateLinkedinUser(db, s).0;
      UpdateLinkedinUser(db', s) == UpdateLinkedinUser(db, s)
  {
    if s.username in db.users {
      var db' := UpdateLinkedinUser(db, s).0;
      var db'' := UpdateLinkedinUser(db', s).0;
      assert db''.users == db'.users;
    }
  }

  /** A freshly created organization reads back as the view the creation returned. */
  lemma CreateThenGetLinkedinOrganization(db: LinkedinDb, s: LinkedinOrgSchema)
    requires WellFormed(db) && s.linkedinId !in db.orgs
    ensures var (db', view) := CreateLinkedinOrganization(db, s).1.value;
      GetLinkedinOrganization(db', s.linkedinId) == Some(view)
  {
    var db' := CreateLinkedinOrganization(db, s).1.value.0;
    assert MembersOf(db', s.linkedinId) == {};
  }

  lemma UpdateLinkedinOrganizationIdempotent(db: LinkedinDb, s: LinkedinOrgSchema)
    ensures var db' := UpdateLinkedinOrganization(db, s).0;
      UpdateLinkedinOrganization(db', s) == UpdateLinkedinOrganization(db, s)
  {
    if s.linkedinId in db.orgs {
      var db' := UpdateLinkedinOrganization(db, s).0;
      var db'' := UpdateLinkedinOrganization(db', s).0;
      assert db''.orgs == db'.orgs;
    }
  }

  /** The document is empty exactly when none of its five fields is truthy. */
  lemma ChromaDocumentEmpty(s: LinkedinOrgSchema)
    ensures ChromaDocument(s) == [] <==>
      !Truthy(s.name.Or(None)) && !Truthy(s.description.Or(None)) && !Truthy(s.industry.Or(None))
      && !Truthy(s.companySize.Or(None)) && !Truthy(s.specialties.Or(None))
  {
  }

  /** The document opens with the name line exactly when the name is truthy: every
      other heading starts with a different letter. */
  lemma ChromaDocumentNameFirst(s: LinkedinOrgSchema)
    ensures StartsWith(ChromaDocument(s), NameLabel) <==> Truthy(s.name.Or(None))
  {
    var a := ChromaLine(NameLabel, s.name.Or(None));
    var b := ChromaLine(DescriptionLabel, s.description.Or(None));
    var c := ChromaLine(IndustryLabel, s.industry.Or(None));
    var d := ChromaLine(CompanySizeLabel, s.companySize.Or(None));
    var e := ChromaLine(SpecialtiesLabel, s.specialties.Or(None));
    Regroup(a, b, c, d, e);
    if Truthy(s.name.Or(None)) {
      StartsWithConcat(NameLabel, s.name.Or(None).value + "\n" + (b + c + d + e));
      assert a + (b + c + d + e) == NameLabel + (s.name.Or(None).value + "\n" + (b + c + d + e));
    } else {
      assert a + (b + c + d + e) == b + c + d + e;
      LineStart(DescriptionLabel, s.description.Or(None));
      LineStart(IndustryLabel, s.industry.Or(None));
      LineStart(CompanySizeLabel, s.companySize.Or(None));
      LineStart(SpecialtiesLabel, s.specialties.Or(None));
      NotNameFirst(b, c, d, e);
    }
  }

  lemma Regroup(a: String, b: String, c: String, d: String, e: String)
    ensures a + b + c + d + e == a + (b + c + d + e)
  {
  }

  lemma StartsWithConcat(p: String, t: String)
    ensures StartsWith(p + t, p)
  {
    assert (p + t)[..|p|] == p;
  }

  /** A line is empty or opens with its heading's first letter. */
  lemma LineStart(heading: String, x: Option<String>)
    requires |heading| > 0
    ensures var l := ChromaLine(heading, x); l == [] || l[0] == heading[0]
  {
  }

  /** Lines that each open with a letter other than `O` never make a name-first text. */
  lemma NotNameFirst(b: String, c: String, d: String, e: String)
    requires b == [] || b[0] == 'D'
    requires c == [] || c[0] == 'I'
    requires d == [] || d[0] == 'C'
    requires e == [] || e[0] == 'S'
    ensures !StartsWith(b + c + d + e, NameLabel)
  {
    var doc := b + c + d + e;
    if |doc| > 0 {
      assert doc[0] != 'O';
      assert NameLabel[0] == 'O';
    }
  }

  /** Each truthy field contributes its line, in the fixed order name, description,
      industry, company size, specialties. */
  lemma ChromaDocumentLines(s: LinkedinOrgSchema)
    ensures var doc := ChromaDocument(s);
      && (Truthy(s.name.Or(None)) ==> Contains(doc, NameLabel + s.name.value.value + "\n"))
      && (Truthy(s.description.Or(None)) ==> Contains(doc, DescriptionLabel + s.description.value.value + "\n"))
      && (Truthy(s.industry.Or(None)) ==> Contains(doc, IndustryLabel + s.industry.value.value + "\n"))
      && (Truthy(s.companySize.Or(None)) ==> Contains(doc, CompanySizeLabel + s.companySize.value.value + "\n"))
      && (Truthy(s.specialties.Or(None)) ==> Contains(doc, SpecialtiesLabel + s.specialties.value.value + "\n"))
  {
    var a := ChromaLine(NameLabel, s.name.Or(None));
    var b := ChromaLine(DescriptionLabel, s.description.Or(None));
    var c := ChromaLine(IndustryLabel, s.industry.Or(None));
    var d := ChromaLine(CompanySizeLabel, s.companySize.Or(None));
    var e := ChromaLine(SpecialtiesLabel, s.specialties.Or(None));
    ContainsSelf(a);
    ContainsSelf(b);
    ContainsSelf(c);
    ContainsSelf(d);
    ContainsSelf(e);
    ContainsRight(a, b, b);
    ContainsLeft(a, b, a);
    ContainsRight(a + b, c, c);
    ContainsLeft(a + b, c, a);
    ContainsLeft(a + b, c, b);
    ContainsRight(a + b + c, d, d);
    ContainsLeft(a + b + c, d, a);
    ContainsLeft(a + b + c, d, b);
    ContainsLeft(a + b + c, d, c);
    ContainsRight(a + b + c + d, e, e);
    ContainsLeft(a + b + c + d, e, a);
    ContainsLeft(a + b + c + d, e, b);
    ContainsLeft(a + b + c + d, e, c);
    ContainsLeft(a + b + c + d, e, d);
  }

  /** Website, headquarters, logo and filters never reach the document. */
  lemma ChromaDocumentIgnoresOtherFields(s: LinkedinOrgSchema, t: LinkedinOrgSchema)
    requires s.name == t.name && s.description == t.description && s.industry == t.industry
    requires s.companySize == t.companySize && s.specialties == t.specialties
    ensures ChromaDocument(s) == ChromaDocument(t)
  {
  }

  /** With both rows present and both dates readable, the pair's row holds exactly
      the given role and dates, whether it existed before or not. */
  lemma AddUserToOrganizationWrites(db: LinkedinDb, id: String, username: String, role: Option<String>, start: DateArg, end: DateArg)
    requires WellFormed(db) && id in db.orgs && username in db.users
    requires DateOf(start).Ok? && DateOf(end).Ok?
    ensures var (db', r) := AddUserToOrganization(db, id, username, role, start, end);
      && db'.memberships == db.memberships[(username, id) := Membership(role, DateOf(start).value, DateOf(end).value)]
      && r == Ok(GetLinkedinOrganization(db', id))
      && r.value.value.linkedinUsers[username] == ViewOf(Membership(role, DateOf(start).value, DateOf(end).value))
  {
    WellFormedUserReads(db, username);
  }

  /** A `datetime` start date always fails with `TypeError`. For an existing pair the
      role has already been written; for a new pair nothing changes. */
  lemma AddUserToOrganizationDateTimeStart(db: LinkedinDb, id: String, username: String, role: Option<String>, d: ValidDateTime, end: DateArg)
    requires WellFormed(db) && id in db.orgs && username in db.users
    ensures var (db', r) := AddUserToOrganization(db, id, username, role, DateTimeValue(d), end);
      && r == Err(TypeError)
      && ((username, id) in db.memberships ==>
            db'.memberships == db.memberships[(username, id) := db.memberships[(username, id)].(role := role)])
      && ((username, id) !in db.memberships ==> db' == db)
  {
    WellFormedUserReads(db, username);
    var w := WriteMembership(db.memberships, (username, id), role, DateTimeValue(d), end);
    assert w.1 == Some(TypeError);
    if (username, id) !in db.memberships {
      assert w.0 == db.memberships;
    }
  }

  lemma IsoFormatNonEmpty(d: ValidDateTime)
    ensures |IsoFormat(d)| > 0
  {
    IsoRoundTrip(d);
    assert FromIsoFormat([]).Err?;
  }

  /** An ISO string produced by `isoformat` is stored as the date it came from and
      read back as the same string. */
  lemma AddUserToOrganizationIsoRoundTrip(db: LinkedinDb, id: String, username: String, role: Option<String>, d: ValidDateTime)
    requires WellFormed(db) && id in db.orgs && username in db.users
    ensures var (db', r) := AddUserToOrganization(db, id, username, role, IsoText(IsoFormat(d)), NoDate);
      && (username, id) in db'.memberships
      && db'.memberships[(username, id)] == Membership(role, Some(d), None)
      && r.Ok? && r.value.Some? && username in r.value.value.linkedinUsers
      && r.value.value.linkedinUsers[username] == MembershipView(role, Some(IsoFormat(d)), None)
  {
    IsoRoundTrip(d);
    IsoFormatNonEmpty(d);
    assert DateOf(IsoText(IsoFormat(d))) == Ok(Some(d));
    AddUserToOrganizationWrites(db, id, username, role, IsoText(IsoFormat(d)), NoDate);
  }

  /** Repeating a write of the same pair with the same arguments changes nothing more:
      the row is written in place, and a failing date fails again at the same point. */
  lemma WriteMembershipIdempotent(ms: map<(String, String), Membership>, key: (String, String), role: Option<String>, start: DateArg, end: DateArg)
    ensures var w := WriteMembership(ms, key, role, start, end);
      WriteMembership(w.0, key, role, start, end) == w
  {
    var w := WriteMembership(ms, key, role, start, end);
    var w' := WriteMembership(w.0, key, role, start, end);
    if key in ms || w.1.None? {
      assert w'.0 == w.0;
    }
  }

  /** Whether a user reads back depends on the user rows alone. */
  lemma UserLookupIgnoresMemberships(db: LinkedinDb, db2: LinkedinDb, username: String)
    requires db.users == db2.users
    ensures GetLinkedinUser(db, username).Ok? == GetLinkedinUser(db2, username).Ok?
    ensures GetLinkedinUser(db, username) == Ok(None) <==> GetLinkedinUser(db2, username) == Ok(None)
    ensures GetLinkedinUser(db, username).Err? ==> GetLinkedinUser(db, username) == GetLinkedinUser(db2, username)
  {
  }

  lemma AddUserToOrganizationIdempotent(db: LinkedinDb, id: String, username: String, role: Option<String>, start: DateArg, end: DateArg)
    ensures var db' := AddUserToOrganization(db, id, username, role, start, end).0;
      AddUserToOrganization(db', id, username, role, start, end) == AddUserToOrganization(db, id, username, role, start, end)
  {
    var db' := AddUserToOrganization(db, id, username, role, start, end).0;
    UserLookupIgnoresMemberships(db, db', username);
    WriteMembershipIdempotent(db.memberships, (username, id), role, start, end);
  }
}

=== FILE: network.dfy ===
/** The read-side graph assembler (`get_user_network`, the second definition in
    `backend/app/api/routes/network.py`). The store queries it calls become a `Source`
    of lookup functions; the nodes and groups it builds are sequences, and the node a
    call is still filling in is addressed by its index, since the dictionary is
    appended before its `group_id` is last written. */
module Network {
  import opened Wrappers
  import opened Text
  import opened Seqs
  import GithubScraper

  datatype LinkedinUser = LinkedinUser(
    username: String, name: Option<String>, header: Option<String>,
    email: Option<String>, profilePicture: Option<String>)

  datatype GithubUser = GithubUser(
    username: String, name: Option<String>, header: Option<String>,
    email: Option<String>, profilePicture: Option<String>)

  datatype Organization = Organization(
    linkedinId: String, name: Option<String>, description: Option<String>, logo: Option<String>,
    website: Option<String>, industry: Option<String>, companySize: Option<String>,
    headquarters: Option<String>, specialties: Option<String>)

  datatype Repository = Repository(path: String, description: Option<String>, stars: int)

  /** The application user: its linked LinkedIn and GitHub profiles. */
  datatype AppUser = AppUser(linkedinUser: Option<LinkedinUser>, githubUser: Option<GithubUser>)

  /** The store as the assembler queries it: users and organizations by key, the
      organization ids of a user's associations and the usernames of an organization's,
      a user's repositories and a repository's users, and the two searches
      `get_username_from_email` makes for an email. */
  datatype Source = Source(
    linkedinUser: String -> Option<LinkedinUser>,
    organization: String -> Option<Organization>,
    orgsOfUser: String -> seq<String>,
    usersOfOrg: String -> seq<String>,
    githubUser: String -> Option<GithubUser>,
    reposOfUser: String -> seq<Repository>,
    usersOfRepo: String -> seq<GithubUser>,
    emailSearches: String -> (GithubScraper.SearchResponse, GithubScraper.SearchResponse))

  datatype Node = Node(
    id: int,
    isLinkedin: bool,
    username: String,
    individualName: Option<String>,
    header: Option<String>,
    email: Option<String>,
    profilePicture: Option<String>,
    link: String,
    connectionOrder: int,
    correspondingUserNodes: seq<int>,
    groupId: Option<String>)

  datatype Group =
    | OrgGroup(id: String, name: Option<String>, description: Option<String>, logo: Option<String>,
               website: Option<String>, industry: Option<String>, companySize: Option<String>,
               headquarters: Option<String>, specialties: Option<String>)
    | RepoGroup(id: String, repoName: String, description: Option<String>, stars: int, repoLink: String)

  datatype Graph = Graph(nodes: seq<Node>, groups: seq<Group>, processed: set<String>)

  const Empty := Graph([], [], {})

  function Usernames(nodes: seq<Node>): (r: seq<String>)
    ensures |r| == |nodes| && forall i | 0 <= i < |nodes| :: r[i] == nodes[i].username
  {
    seq(|nodes|, i requires 0 <= i < |nodes| => nodes[i].username)
  }

  function GroupIds(groups: seq<Group>): (r: seq<String>)
    ensures |r| == |groups| && forall i | 0 <= i < |groups| :: r[i] == groups[i].id
  {
    seq(|groups|, i requires 0 <= i < |groups| => groups[i].id)
  }

  /** What holds of every node: its order is at most 2, it has no corresponding
      nodes, a GitHub node's id is its index and a LinkedIn node's id is at most its
      index. */
  predicate NodeOk(n: Node, i: int) {
    && 0 <= n.connectionOrder <= 2
    && n.correspondingUserNodes == []
    && (if n.isLinkedin then n.id <= i else n.id == i)
  }

  predicate GroupOk(g: Group) {
    g.RepoGroup? ==> g.repoName == SplitLast(g.id, "/")
  }

  /** The assembler's invariant: one node per username, every node's username
      processed, unique group ids, and the per-node and per-group facts. */
  predicate Inv(g: Graph) {
    && NoDup(Usernames(g.nodes))
    && (forall i | 0 <= i < |g.nodes| :: g.nodes[i].username in g.processed)
    && (forall i | 0 <= i < |g.nodes| :: NodeOk(g.nodes[i], i))
    && NoDup(GroupIds(g.groups))
    && (forall j | 0 <= j < |g.groups| :: GroupOk(g.groups[j]))
  }

  /** `b` extends `a`: nodes and groups only appended, an existing node changed in its
      `group_id` at most, and processed usernames kept. Every node appended carries a
      username that was not processed in `a`. */
  predicate Extends(a: Graph, b: Graph) {
    && |a.nodes| <= |b.nodes|
    && (forall i | 0 <= i < |a.nodes| :: b.nodes[i] == a.nodes[i].(groupId := b.nodes[i].groupId))
    && (forall i | |a.nodes| <= i < |b.nodes| :: b.nodes[i].username !in a.processed)
    && a.groups <= b.groups
    && a.processed <= b.processed
  }

  // ---------------------------------------------------------------- in-place writes

  lemma AppendKeepsNoDup<T>(s: seq<T>, x: T)
    ensures NoDup(s) && x !in s ==> NoDup(s + [x])
  {
    if NoDup(s) && x !in s {
      NoDupAppend(s, x);
    }
  }

  lemma ExtendsTrans(a: Graph, b: Graph, c: Graph)
    ensures Extends(a, b) && Extends(b, c) ==> Extends(a, c)
  {
  }

  /** A username marked processed in `g1` and absent from `g`'s processed set is not
      the username of any node of a graph extending `g1`. */
  lemma MarkedIsFresh(g: Graph, g1: Graph, g2: Graph, u: String)
    ensures (Inv(g) && u !in g.processed && g1 == g.(processed := g.processed + {u})
             && Extends(g1, g2)) ==> u !in Usernames(g2.nodes)
  {
  }

  /** `node["group_id"] = gid` on the node at index `k`. */
  function SetGroup(g: Graph, k: nat, gid: String): (r: Graph)
    requires k < |g.nodes|
    ensures |r.nodes| == |g.nodes| && r.groups == g.groups && r.processed == g.processed
    ensures r.nodes[k].groupId == Some(gid)
    ensures forall i | 0 <= i < |g.nodes| :: r.nodes[i] == g.nodes[i].(groupId := r.nodes[i].groupId)
    ensures forall i | 0 <= i < |g.nodes| && i != k :: r.nodes[i] == g.nodes[i]
    ensures Inv(g) ==> Inv(r)
  {
    var r := g.(nodes := g.nodes[k := g.nodes[k].(groupId := Some(gid))]);
    assert Usernames(r.nodes) == Usernames(g.nodes);
    r
  }

  /** Appends `group` unless a group with its id is already there. */
  function AddGroup(g: Graph, group: Group): (r: Graph)
    ensures r.nodes == g.nodes && r.processed == g.processed
    ensures group.id in GroupIds(r.groups)
    ensures r.groups == if group.id in GroupIds(g.groups) then g.groups else g.groups + [group]
    ensures Inv(g) && GroupOk(group) ==> Inv(r)
  {
    if group.id in GroupIds(g.groups) then g
    else
      var r := g.(groups := g.groups + [group]);
      assert GroupIds(r.groups) == GroupIds(g.groups) + [group.id];
      AppendKeepsNoDup(GroupIds(g.groups), group.id);
      r
  }

  /** Appends `node`, whose username has just been marked processed. */
  function AddNode(g: Graph, node: Node): (r: Graph)
    ensures r.nodes == g.nodes + [node] && r.groups == g.groups && r.processed == g.processed
    ensures (Inv(g) && node.username !in Usernames(g.nodes) && node.username in g.processed
             && NodeOk(node, |g.nodes|)) ==> Inv(r)
  {
    var r := g.(nodes := g.nodes + [node]);
    assert Usernames(r.nodes) == Usernames(g.nodes) + [node.username];
    AppendKeepsNoDup(Usernames(g.nodes), node.username);
    r
  }

  /** Marks the username of `node` processed and appends `node`. */
  function Begin(g: Graph, node: Node): (r: Graph)
    ensures r.nodes == g.nodes + [node] && r.groups == g.groups
    ensures r.processed == g.processed + {node.username}
    ensures node.username !in g.processed ==> Extends(g, r)
    ensures (Inv(g) && node.username !in g.processed && NodeOk(node, |g.nodes|)) ==> Inv(r)
  {
    var g1 := g.(processed := g.processed + {node.username});
    MarkedIsFresh(g, g1, g1, node.username);
    AddNode(g1, node)
  }

  function RepoGroupOf(repo: Repository): (r: Group)
    ensures r.RepoGroup? && r.id == repo.path && GroupOk(r)
  {
    RepoGroup(repo.path, SplitLast(repo.path, "/"), repo.description, repo.stars, "https://github.com/" + repo.path)
  }

  function OrgGroupOf(o: Organization): (r: Group)
    ensures r.OrgGroup? && r.id == o.linkedinId && GroupOk(r)
  {
    OrgGroup(o.linkedinId, o.name, o.description, o.logo, o.website, o.industry, o.companySize,
      o.headquarters, o.specialties)
  }

  // ---------------------------------------------------------------- GitHub side

  /** `process_github_user(github_user, connection_order)`: a processed username is
      skipped; otherwise the node is appended at once and the user's repositories are
      walked. The function returns nothing. */
  function GithubPass(src: Source, g: Graph, gu: GithubUser, order: nat): (r: Graph)
    requires order <= 2
    ensures Extends(g, r)
    ensures Inv(g) ==> Inv(r)
    ensures gu.username in g.processed ==> r == g
    ensures gu.username in r.processed
    ensures gu.username !in g.processed ==>
              (&& |g.nodes| < |r.nodes|
               && r.nodes[|g.nodes|].username == gu.username
               && !r.nodes[|g.nodes|].isLinkedin
               && r.nodes[|g.nodes|].id == |g.nodes|
               && r.nodes[|g.nodes|].connectionOrder == order)
    decreases 2 - order, 0, 2, 0
  {
    if gu.username in g.processed then g
    else
      var k := |g.nodes|;
      var node := Node(k, false, gu.username, gu.name, gu.header, gu.email, gu.profilePicture,
        "https://github.com/" + gu.username, order, [], None);
      var g2 := Begin(g, node);
      var r := ReposPass(src, g2, k, src.reposOfUser(gu.username), order);
      ExtendsTrans(g, g2, r);
      r
  }

  /** The loop over a GitHub user's repositories, writing into the node at `k`. */
  function ReposPass(src: Source, g: Graph, k: nat, repos: seq<Repository>, order: nat): (r: Graph)
    requires order <= 2 && k < |g.nodes|
    ensures Extends(g, r)
    ensures Inv(g) ==> Inv(r)
    decreases 2 - order, 0, 1, |repos|
  {
    if |repos| == 0 then g
    else
      var g1 := RepoStep(src, g, k, repos[0], order);
      var r := ReposPass(src, g1, k, repos[1..], order);
      ExtendsTrans(g, g1, r);
      r
  }

  /** One repository: the node at `k` joins its group, the group is added, and below
      order 2 the repository's users are walked. */
  function RepoStep(src: Source, g: Graph, k: nat, repo: Repository, order: nat): (r: Graph)
    requires order <= 2 && k < |g.nodes|
    ensures Extends(g, r)
    ensures Inv(g) ==> Inv(r)
    decreases 2 - order, 0, 1, 0
  {
    var g1 := Tag(g, k, RepoGroupOf(repo));
    if order < 2 then
      var r := RepoUsersPass(src, g1, src.usersOfRepo(repo.path), order);
      ExtendsTrans(g, g1, r);
      r
    else g1
  }

  /** `node["group_id"] = group.id` for the node at `k`, then the group added. */
  function Tag(g: Graph, k: nat, group: Group): (r: Graph)
    requires k < |g.nodes|
    ensures Extends(g, r)
    ensures Inv(g) && GroupOk(group) ==> Inv(r)
  {
    AddGroup(SetGroup(g, k, group.id), group)
  }

  /** The loop over a repository's users, one order further out. */
  function RepoUsersPass(src: Source, g: Graph, users: seq<GithubUser>, order: nat): (r: Graph)
    requires order < 2
    ensures Extends(g, r)
    ensures Inv(g) ==> Inv(r)
    decreases 2 - order, 0, 0, |users|
  {
    if |users| == 0 then g
    else RepoUsersPass(src, GithubPass(src, g, users[0], order + 1), users[1..], order)
  }

  // ---------------------------------------------------------------- LinkedIn side

  /** The GitHub cross-link attempt for a LinkedIn user with an email: when the email
      resolves to a stored GitHub user, that user is processed at the same order.
      Reading `["id"]` from the `None` it returns raises `TypeError`, swallowed, so no
      correspondence is recorded either way. */
  function CrossLink(src: Source, g: Graph, lu: LinkedinUser, order: nat): (r: Graph)
    requires order <= 2
    ensures Extends(g, r)
    ensures Inv(g) ==> Inv(r)
    decreases 2 - order, 0, 3, 0
  {
    if lu.email.None? || |lu.email.value| == 0 then g
    else
      var (users, commits) := src.emailSearches(lu.email.value);
      match GithubScraper.GetUsernameFromEmail(GithubScraper.Text(lu.email.value), users, commits)
      case Err(_) => g
      case Ok(login) =>
        match src.githubUser(login)
        case None => g
        case Some(gu) => GithubPass(src, g, gu, order)
  }

  /** `process_linkedin_user(linkedin_user, connection_order)`: a processed username is
      skipped; otherwise the username is marked, its id taken, the cross-link tried
      (which may append GitHub nodes first), the node appended and the user's
      organizations walked. */
  function LinkedinPass(src: Source, g: Graph, lu: LinkedinUser, order: nat): (r: Graph)
    requires order <= 2
    ensures Extends(g, r)
    ensures Inv(g) ==> Inv(r)
    ensures lu.username in g.processed ==> r == g
    ensures lu.username in r.processed
    decreases 2 - order, 1, 3, 0
  {
    if lu.username in g.processed then g
    else
      var g1 := g.(processed := g.processed + {lu.username});
      var id := |g1.nodes|;
      var g2 := CrossLink(src, g1, lu, order);
      var node := Node(id, true, lu.username, lu.name, lu.header, lu.email, lu.profilePicture,
        "https://www.linkedin.com/in/" + lu.username + "/", order, [], None);
      var k := |g2.nodes|;
      var g3 := AddNode(g2, node);
      LinkedinNodeAppended(g, g2, node);
      var r := OrgsPass(src, g3, k, src.orgsOfUser(lu.username), order);
      ExtendsTrans(g, g3, r);
      r
  }

  /** Appending the LinkedIn node after the cross-link extends the graph the pass
      started from and keeps the invariant. */
  lemma LinkedinNodeAppended(g: Graph, g2: Graph, node: Node)
    requires node.username !in g.processed && node.isLinkedin && node.id == |g.nodes|
    requires 0 <= node.connectionOrder <= 2 && node.correspondingUserNodes == []
    requires Extends(g.(processed := g.processed + {node.username}), g2)
    ensures Extends(g, AddNode(g2, node))
    ensures (Inv(g) ==> Inv(g2)) ==> Inv(g) ==> Inv(AddNode(g2, node))
  {
    var g1 := g.(processed := g.processed + {node.username});
    MarkedIsFresh(g, g1, g2, node.username);
  }

  /** The loop over a LinkedIn user's associations, writing into the node at `k`. */
  function OrgsPass(src: Source, g: Graph, k: nat, orgIds: seq<String>, order: nat): (r: Graph)
    requires order <= 2 && k < |g.nodes|
    ensures Extends(g, r)
    ensures Inv(g) ==> Inv(r)
    decreases 2 - order, 1, 2, |orgIds|
  {
    if |orgIds| == 0 then g
    else
      match src.organization(orgIds[0])
      case None => OrgsPass(src, g, k, orgIds[1..], order)
      case Some(o) =>
        var g1 := OrgStep(src, g, k, o, order);
        var r := OrgsPass(src, g1, k, orgIds[1..], order);
        ExtendsTrans(g, g1, r);
        r
  }

  /** One organization: the node at `k` joins its group, the group is added, and below
      order 2 the organization's members are walked. */
  function OrgStep(src: Source, g: Graph, k: nat, o: Organization, order: nat): (r: Graph)
    requires order <= 2 && k < |g.nodes|
    ensures Extends(g, r)
    ensures Inv(g) ==> Inv(r)
    decreases 2 - order, 1, 2, 0
  {
    var g1 := Tag(g, k, OrgGroupOf(o));
    if order < 2 then
      var r := OrgUsersPass(src, g1, src.usersOfOrg(o.linkedinId), order);
      ExtendsTrans(g, g1, r);
      r
    else g1
  }

  /** The loop over an organization's members, one order further out. */
  function OrgUsersPass(src: Source, g: Graph, usernames: seq<String>, order: nat): (r: Graph)
    requires order < 2
    ensures Extends(g, r)
    ensures Inv(g) ==> Inv(r)
    decreases 2 - order, 1, 1, |usernames|
  {
    if |usernames| == 0 then g
    else
      match src.linkedinUser(usernames[0])
      case None => OrgUsersPass(src, g, usernames[1..], order)
      case Some(u) => OrgUsersPass(src, LinkedinPass(src, g, u, order + 1), usernames[1..], order)
  }

  /** `get_user_network(user_id)`: empty for an unknown user; otherwise the LinkedIn
      profile first, then the GitHub profile, sharing one processed set. The answer
      has one node per username and unique group ids; every node's connection order
      is at most 2 and its corresponding list is empty; a GitHub node's id is its
      index; a repository group is named by the last segment of its path. */
  function UserNetwork(src: Source, user: Option<AppUser>): (r: (seq<Node>, seq<Group>))
    ensures user.None? ==> r == ([], [])
    ensures var (nodes, groups) := r;
      && NoDup(Usernames(nodes))
      && NoDup(GroupIds(groups))
      && (forall i | 0 <= i < |nodes| :: 0 <= nodes[i].connectionOrder <= 2)
      && (forall i | 0 <= i < |nodes| :: nodes[i].correspondingUserNodes == [])
      && (forall i | 0 <= i < |nodes| && !nodes[i].isLinkedin :: nodes[i].id == i)
      && (forall j | 0 <= j < |groups| && groups[j].RepoGroup? :: groups[j].repoName == SplitLast(groups[j].id, "/"))
  {
    if user.None? then ([], [])
    else
      var g := Assemble(src, user.value);
      InvShape(g);
      (g.nodes, g.groups)
  }

  /** The graph of a known user: the LinkedIn profile first, then the GitHub profile. */
  function Assemble(src: Source, au: AppUser): (r: Graph)
    ensures Inv(r)
  {
    assert Inv(Empty);
    var g1 := if au.linkedinUser.Some? then LinkedinPass(src, Empty, au.linkedinUser.value, 0) else Empty;
    if au.githubUser.Some? then GithubPass(src, g1, au.githubUser.value, 0) else g1
  }

  /** What the invariant says about the nodes and groups one by one. */
  lemma InvShape(g: Graph)
    requires Inv(g)
    ensures forall i | 0 <= i < |g.nodes| :: 0 <= g.nodes[i].connectionOrder <= 2
    ensures forall i | 0 <= i < |g.nodes| :: g.nodes[i].correspondingUserNodes == []
    ensures forall i | 0 <= i < |g.nodes| && !g.nodes[i].isLinkedin :: g.nodes[i].id == i
    ensures forall j | 0 <= j < |g.groups| && g.groups[j].RepoGroup? :: g.groups[j].repoName == SplitLast(g.groups[j].id, "/")
  {
    assert forall i | 0 <= i < |g.nodes| :: NodeOk(g.nodes[i], i);
    assert forall j | 0 <= j < |g.groups| :: GroupOk(g.groups[j]);
  }

  // ---------------------------------------------------------------- properties

  /** When a new LinkedIn user's email resolves to a GitHub user not yet processed,
      that GitHub user's node is appended first, at the index the LinkedIn node's id
      was taken from: the two nodes share an id, and the LinkedIn node sits after its
      id. */
  lemma CrossLinkSharesId(src: Source, g: Graph, lu: LinkedinUser, order: nat, login: String, gu: GithubUser)
    requires order <= 2
    requires lu.username !in g.processed && gu.username !in g.processed && gu.username != lu.username
    requires lu.email.Some? && |lu.email.value| > 0
    requires GithubScraper.GetUsernameFromEmail(GithubScraper.Text(lu.email.value),
               src.emailSearches(lu.email.value).0, src.emailSearches(lu.email.value).1) == Ok(login)
    requires src.githubUser(login) == Some(gu)
    ensures var r := LinkedinPass(src, g, lu, order);
      exists k :: |g.nodes| < k < |r.nodes|
        && r.nodes[k].username == lu.username && r.nodes[k].isLinkedin
        && r.nodes[k].id == |g.nodes|
        && r.nodes[|g.nodes|].username == gu.username && r.nodes[|g.nodes|].id == |g.nodes|
  {
    var g1 := g.(processed := g.processed + {lu.username});
    var g2 := CrossLink(src, g1, lu, order);
    assert g2 == GithubPass(src, g1, gu, order);
    assert gu.username !in g1.processed && g1.nodes == g.nodes;
    var node := Node(|g.nodes|, true, lu.username, lu.name, lu.header, lu.email, lu.profilePicture,
      "https://www.linkedin.com/in/" + lu.username + "/", order, [], None);
    var r := OrgsPass(src, AddNode(g2, node), |g2.nodes|, src.orgsOfUser(lu.username), order);
    assert r == LinkedinPass(src, g, lu, order);
    AppendedAfterNode(g2, node, r, |g.nodes|, gu.username);
    var k := |g2.nodes|;
    assert |g.nodes| < k < |r.nodes| && r.nodes[k].username == lu.username && r.nodes[k].isLinkedin;
  }

  /** What an extension of `g2` with `node` appended still shows: the node at `base`
      keeps its username and id, and the appended node sits at `|g2.nodes|`. */
  lemma AppendedAfterNode(g2: Graph, node: Node, r: Graph, base: nat, username: String)
    requires base < |g2.nodes| && g2.nodes[base].username == username && g2.nodes[base].id == base
    requires Extends(AddNode(g2, node), r)
    ensures base < |g2.nodes| < |r.nodes|
    ensures r.nodes[|g2.nodes|].username == node.username && r.nodes[|g2.nodes|].isLinkedin == node.isLinkedin
    ensures r.nodes[|g2.nodes|].id == node.id
    ensures r.nodes[base].username == username && r.nodes[base].id == base
  {
    var g3 := AddNode(g2, node);
    assert g3.nodes[base] == g2.nodes[base] && g3.nodes[|g2.nodes|] == node;
  }
}

=== FILE: text.dfy ===
/** The Python `str` operations the modelled code relies on, over `seq<char>`.
    Character classes (`\s`, `\w`, `\d`, `str.lower`) are the ASCII ones. */
module Text {
  import opened Wrappers

  type String = seq<char>

  /** `c.isspace()` / regex `\s` on ASCII: space, tab, LF, VT, FF, CR and the
      four separators FS, GS, RS, US (`\x1c`-`\x1f`). */
  predicate IsSpace(c: char) {
    c == ' ' || c == '\t' || c == '\n' || c == '\r' || c == '\U{0B}' || c == '\U{0C}'
    || ('\U{1C}' <= c <= '\U{1F}')
  }

  predicate IsDigit(c: char) {
    '0' <= c <= '9'
  }

  /** Regex `\w` on ASCII: letters, digits and underscore. */
  predicate IsWordChar(c: char) {
    'a' <= c <= 'z' || 'A' <= c <= 'Z' || IsDigit(c) || c == '_'
  }

  function LowerChar(c: char): char {
    if 'A' <= c <= 'Z' then (c as int + 32) as char else c
  }

  /** `s.lower()`. */
  function Lower(s: String): (r: String)
    ensures |r| == |s|
    ensures forall i :: 0 <= i < |s| ==> r[i] == LowerChar(s[i])
  {
    seq(|s|, i requires 0 <= i < |s| => LowerChar(s[i]))
  }

  predicate StartsWith(s: String, prefix: String) {
    |prefix| <= |s| && s[..|prefix|] == prefix
  }

  /** `sub` occurs in `s` starting at index `i`. */
  predicate OccursAt(s: String, sub: String, i: int) {
    0 <= i && i + |sub| <= |s| && s[i..i + |sub|] == sub
  }

  /** The first index at or after `from` where `sub` occurs (`s.find(sub, from)`). */
  function Find(s: String, sub: String, from: nat): (r: Option<nat>)
    ensures r.Some? ==> from <= r.value && OccursAt(s, sub, r.value)
    ensures r.Some? ==> forall j :: from <= j < r.value ==> !OccursAt(s, sub, j)
    ensures r.None? ==> forall j :: from <= j ==> !OccursAt(s, sub, j)
    decreases |s| - from
  {
    if from + |sub| > |s| then None
    else if s[from..from + |sub|] == sub then Some(from)
    else Find(s, sub, from + 1)
  }

  /** `sub in s`. */
  predicate Contains(s: String, sub: String) {
    Find(s, sub, 0).Some?
  }

  lemma ContainsIff(s: String, sub: String)
    ensures Contains(s, sub) <==> exists i :: OccursAt(s, sub, i)
  {
  }

  /** `sep.join(parts)`. */
  function Join(parts: seq<String>, sep: String): String
  {
    if |parts| == 0 then []
    else if |parts| == 1 then parts[0]
    else parts[0] + sep + Join(parts[1..], sep)
  }

  /** `s.split(sep)` for a non-empty separator: cuts at the occurrences found
      left to right, without overlap. */
  function Split(s: String, sep: String): (parts: seq<String>)
    requires |sep| > 0
    ensures |parts| >= 1
    ensures Join(parts, sep) == s
    ensures forall k :: 0 <= k < |parts| ==> !Contains(parts[k], sep)
    decreases |s|
  {
    match Find(s, sep, 0)
    case None => [s]
    case Some(i) =>
      var head := s[..i];
      assert forall j :: OccursAt(head, sep, j) ==> OccursAt(s, sep, j);
      var rest := Split(s[i + |sep|..], sep);
      assert s == head + sep + s[i + |sep|..];
      [head] + rest
  }

  /** `s.split(sep)[-1]`: what follows the last cut. */
  function SplitLast(s: String, sep: String): (r: String)
    requires |sep| > 0
    ensures !Contains(r, sep)
  {
    var parts := Split(s, sep);
    parts[|parts| - 1]
  }

  /** `s.replace(old, new)`. */
  function ReplaceAll(s: String, target: String, replacement: String): String
    requires |target| > 0
  {
    Join(Split(s, target), replacement)
  }

  /** Drops the leading characters that satisfy `strip`. */
  function TrimStart(s: String, strip: char -> bool): (r: String)
    ensures |r| <= |s| && r == s[|s| - |r|..]
    ensures forall i :: 0 <= i < |s| - |r| ==> strip(s[i])
    ensures |r| > 0 ==> !strip(r[0])
  {
    if |s| > 0 && strip(s[0]) then TrimStart(s[1..], strip) else s
  }

  /** Drops the trailing characters that satisfy `strip`. */
  function TrimEnd(s: String, strip: char -> bool): (r: String)
    ensures |r| <= |s| && r == s[..|r|]
    ensures forall i :: |r| <= i < |s| ==> strip(s[i])
    ensures |r| > 0 ==> !strip(r[|r| - 1])
  {
    if |s| > 0 && strip(s[|s| - 1]) then TrimEnd(s[..|s| - 1], strip) else s
  }

  /** `s.strip(chars)` with `chars` given as a predicate. */
  function StripWith(s: String, strip: char -> bool): String
  {
    TrimEnd(TrimStart(s, strip), strip)
  }

  /** `s.strip()`. */
  function Strip(s: String): String
  {
    StripWith(s, IsSpace)
  }

  /** What stripping keeps: a slice of `s` whose ends are not stripped and
      outside of which every character is. */
  lemma StripWithSlice(s: String, strip: char -> bool)
    ensures var r := StripWith(s, strip);
      exists a, b :: 0 <= a <= b <= |s| && r == s[a..b]
        && (forall i :: 0 <= i < a ==> strip(s[i]))
        && (forall i :: b <= i < |s| ==> strip(s[i]))
        && (|r| > 0 ==> !strip(r[0]) && !strip(r[|r| - 1]))
  {
    var t := TrimStart(s, strip);
    var r := TrimEnd(t, strip);
    var a := |s| - |t|;
    var b := a + |r|;
    assert r == s[a..b];
  }

  /** A string none of whose characters is stripped is left unchanged. */
  lemma StripWithNoop(s: String, strip: char -> bool)
    requires forall i :: 0 <= i < |s| ==> !strip(s[i])
    ensures StripWith(s, strip) == s
  {
  }

  /** Stripping a string whose end characters are kept changes nothing. */
  lemma StripWithKeepsEnds(s: String, strip: char -> bool)
    requires |s| == 0 || (!strip(s[0]) && !strip(s[|s| - 1]))
    ensures StripWith(s, strip) == s
  {
  }

  /** `strip` is idempotent. */
  lemma StripIdempotent(s: String, strip: char -> bool)
    ensures StripWith(StripWith(s, strip), strip) == StripWith(s, strip)
  {
    StripWithSlice(s, strip);
    StripWithKeepsEnds(StripWith(s, strip), strip);
  }

  /** A string without the separator is not cut. */
  lemma SplitWithout(s: String, sep: String)
    requires |sep| > 0 && !Contains(s, sep)
    ensures Split(s, sep) == [s]
  {
  }

  /** When the first occurrence in `a + sep + rest` is the one right after `a`,
      the first piece is `a` and the others are the pieces of `rest`. */
  lemma SplitCons(a: String, sep: String, rest: String)
    requires |sep| > 0
    requires forall j :: 0 <= j < |a| ==> !OccursAt(a + sep + rest, sep, j)
    ensures Split(a + sep + rest, sep) == [a] + Split(rest, sep)
  {
    var s := a + sep + rest;
    assert OccursAt(s, sep, |a|);
    assert Find(s, sep, 0) == Some(|a|);
    assert s[|a| + |sep|..] == rest;
    assert s[..|a|] == a;
  }

  /** Cutting `a + sep + b` where the first occurrence is the one after `a`
      and `b` holds none gives exactly `[a, b]`. */
  lemma SplitOnce(a: String, sep: String, b: String)
    requires |sep| > 0
    requires forall j :: 0 <= j < |a| ==> !OccursAt(a + sep + b, sep, j)
    requires !Contains(b, sep)
    ensures Split(a + sep + b, sep) == [a, b]
  {
    SplitCons(a, sep, b);
    SplitWithout(b, sep);
  }

  lemma OccursAtChar(s: String, sub: String, j: int, k: int)
    requires OccursAt(s, sub, j) && 0 <= k < |sub|
    ensures s[j + k] == sub[k]
  {
    assert s[j..j + |sub|][k] == sub[k];
  }

  /** An occurrence starts and ends with the first and last characters of `sub`. */
  lemma OccursAtEnds(s: String, sub: String, j: int)
    requires |sub| > 0
    ensures OccursAt(s, sub, j) ==> s[j] == sub[0] && s[j + |sub| - 1] == sub[|sub| - 1]
  {
    if OccursAt(s, sub, j) {
      OccursAtChar(s, sub, j, 0);
      OccursAtChar(s, sub, j, |sub| - 1);
    }
  }

  /** With a one-character separator an occurrence is just that character. */
  lemma OccursAtSingle(s: String, sep: String, j: int)
    requires |sep| == 1
    ensures OccursAt(s, sep, j) <==> 0 <= j < |s| && s[j] == sep[0]
  {
    if 0 <= j < |s| && s[j] == sep[0] {
      assert s[j..j + 1] == sep;
    }
  }

  /** The pieces of a join: everything before the last piece, the separator
      and the last piece. */
  lemma {:induction false} JoinLast(parts: seq<String>, sep: String)
    requires |parts| > 1
    ensures Join(parts, sep) == Join(parts[..|parts| - 1], sep) + sep + parts[|parts| - 1]
  {
    if |parts| > 2 {
      JoinLast(parts[1..], sep);
      assert parts[1..][..|parts| - 2] == parts[..|parts| - 1][1..];
    } else {
      assert parts[..1] == [parts[0]];
    }
  }

  /** A one-character separator has a unique last occurrence. */
  lemma LastCutUnique(sep: String, a: String, b: String, c: String, d: String)
    requires |sep| == 1 && a + sep + b == c + sep + d
    requires !Contains(b, sep) && !Contains(d, sep)
    ensures b == d
  {
    var s := a + sep + b;
    if |a| < |c| {
      var k := |c| - |a| - 1;
      assert b[k] == s[|c|] == sep[0];
      OccursAtSingle(b, sep, k);
    } else if |c| < |a| {
      var k := |a| - |c| - 1;
      assert d[k] == s[|a|] == sep[0];
      OccursAtSingle(d, sep, k);
    } else {
      assert b == s[|a| + 1..] == d;
    }
  }

  /** What follows the last one-character separator when the tail holds none. */
  lemma SplitLastAfterSep(a: String, sep: String, b: String)
    requires |sep| == 1 && !Contains(b, sep)
    ensures SplitLast(a + sep + b, sep) == b
  {
    var s := a + sep + b;
    var parts := Split(s, sep);
    if |parts| == 1 {
      OccursAtSingle(s, sep, |a|);
      ContainsIff(s, sep);
      assert false;
    } else {
      JoinLast(parts, sep);
      LastCutUnique(sep, a, b, Join(parts[..|parts| - 1], sep), parts[|parts| - 1]);
    }
  }

  /** The first piece of a split is a prefix of the input. */
  lemma SplitFirstIsPrefix(s: String, sep: String)
    requires |sep| > 0
    ensures StartsWith(s, Split(s, sep)[0])
  {
    var parts := Split(s, sep);
    if |parts| > 1 {
      assert s == parts[0] + sep + Join(parts[1..], sep);
    }
  }

  /** A prefix of a string holds only what the string holds. */
  lemma PrefixKeepsAbsence(s: String, p: String, sub: String)
    requires StartsWith(s, p) && !Contains(s, sub)
    ensures !Contains(p, sub)
  {
    forall j | OccursAt(p, sub, j) ensures OccursAt(s, sub, j) {
      assert s[j..j + |sub|] == p[j..j + |sub|];
    }
  }

  lemma Assoc<T>(x: seq<T>, y: seq<T>, z: seq<T>)
    ensures (x + y) + z == x + (y + z)
  {
  }

  /** Gluing two strings free of a one-character separator gives one free of it. */
  lemma NoSepConcat(x: String, y: String, sep: String)
    requires |sep| == 1 && !Contains(x, sep) && !Contains(y, sep)
    ensures !Contains(x + y, sep)
  {
    forall j | OccursAt(x + y, sep, j) ensures false {
      OccursAtSingle(x + y, sep, j);
      if j < |x| {
        OccursAtSingle(x, sep, j);
      } else {
        OccursAtSingle(y, sep, j - |x|);
      }
    }
  }

  /** The first piece of `a + sep + b` is `a` when `a` holds no (one-character) separator. */
  lemma FirstPieceBeforeSep(a: String, sep: String, b: String)
    requires |sep| == 1 && !Contains(a, sep)
    ensures Split(a + sep + b, sep)[0] == a
  {
    forall j | 0 <= j < |a| ensures !OccursAt(a + sep + b, sep, j) {
      OccursAtSingle(a + sep + b, sep, j);
      OccursAtSingle(a, sep, j);
    }
    SplitCons(a, sep, b);
  }

  /** A string none of whose characters is the one-character `sep` does not contain it. */
  lemma NoSuchChar(s: String, sep: String)
    requires |sep| == 1 && forall i | 0 <= i < |s| :: s[i] != sep[0]
    ensures !Contains(s, sep)
  {
    forall j | OccursAt(s, sep, j) ensures false {
      OccursAtSingle(s, sep, j);
    }
  }

  lemma ContainsSelf(x: String)
    ensures Contains(x, x)
  {
    assert OccursAt(x, x, 0);
  }

  /** Containment survives appending on the right. */
  lemma ContainsLeft(x: String, y: String, sub: String)
    requires Contains(x, sub)
    ensures Contains(x + y, sub)
  {
    ContainsIff(x, sub);
    var i :| OccursAt(x, sub, i);
    assert (x + y)[i..i + |sub|] == x[i..i + |sub|];
    assert OccursAt(x + y, sub, i);
  }

  /** Containment survives prepending on the left. */
  lemma ContainsRight(x: String, y: String, sub: String)
    requires Contains(y, sub)
    ensures Contains(x + y, sub)
  {
    ContainsIff(y, sub);
    var i :| OccursAt(y, sub, i);
    assert (x + y)[|x| + i..|x| + i + |sub|] == y[i..i + |sub|];
    assert OccursAt(x + y, sub, |x| + i);
  }
}

=== FILE: wrappers.dfy ===
/** Failure-compatible wrappers shared by every module of the model, plus the
    "explicitly set or not" field used to model pydantic's `exclude_unset`. */
module Wrappers {

  /** Python's `Optional[T]`: `None` or a value. */
  datatype Option<+T> = None | Some(value: T) {
    function GetOr(default: T): T {
      match this
      case Some(v) => v
      case None => default
    }
  }

  /** The exceptions the modelled code can raise and that some caller catches. */
  datatype Error =
    | IntegrityError      // primary-key violation on insert
    | TypeError           // e.g. iterating over None, or fromisoformat(datetime)
    | ValueError          // unpacking, strptime, fromisoformat, bad email
    | KeyError            // a missing dict key
    | AttributeError      // e.g. `.group(1)` on a failed regex search
    | IndexError
    | HttpError           // a raised `Exception` for a non-200 response
    | NotFound            // a raised `Exception` for an empty search result
    | ValidationError     // pydantic refused a stored value
    | TimeoutError        // Selenium's TimeoutException

  /** A value or the exception that replaced it. */
  datatype Result<+T> = Ok(value: T) | Err(error: Error)

  /** A pydantic schema field: `Unset` fields are dropped by `dict(exclude_unset=True)`,
      `Set(v)` fields are kept even when `v` is `None`. */
  datatype Field<+T> = Unset | Set(value: T) {
    /** The value the field has on the schema object: its default when unset. */
    function Or(default: T): T {
      match this
      case Set(v) => v
      case Unset => default
    }
  }
}

/** Small facts about sequences used by several modules. */
module Seqs {

  /** No element occurs twice. */
  predicate NoDup<T(==)>(s: seq<T>) {
    forall i, j :: 0 <= i < j < |s| ==> s[i] != s[j]
  }

  /** The set of elements of a sequence. */
  function Elems<T(!new)>(s: seq<T>): (r: set<T>)
    ensures forall x :: x in r <==> x in s
  {
    set x | x in s
  }

  lemma NoDupAppend<T>(s: seq<T>, x: T)
    requires NoDup(s) && x !in s
    ensures NoDup(s + [x])
  {
  }

  /** Taking a prefix and dropping the head commute. */
  lemma TakeThenDrop<T>(s: seq<T>, k: nat)
    requires k < |s|
    ensures s[..k + 1][1..] == s[1..][..k] && s[..k + 1][0] == s[0]
  {
  }
}
